=== FILE: README.md ===
# A verified model of the CRM's core

This project models, in Dafny, the core of a small sales CRM built on React and Supabase:

- **Sales funnels.** Funnels are ordered lists of stages. Cards (deals) sit on stages. Moving a card on the Kanban board changes its stage and writes a history entry. Funnels can be created, renamed, re-staged and deleted. Stages are reordered by drag and drop.
- **The dashboard.** It sums this month's revenue of the cards on the closing stage, sets it against the single stored monthly goal and draws a gauge and a monthly progress chart.
- **Goals.** The goals page edits the single stored monthly goal. The goals manager lists the goals saved per month and year and adds new ones.
- **Contacts.** They can be searched, edited, exported as CSV and imported from CSV.
- **The tasks calendar.** It groups the tasks of the cards by due date: one group per date, the dated groups in date order and the undated tasks last.
- **Permissions.** Admins hold every permission. Any other user holds exactly the permissions that are set to `true`. Three dialogs edit roles and permissions and create users.
- **Three backend functions.** They create a card with its tasks, create a user and issue a one-year API key.

Pure logic is written as functions with contracts and lemmas. Each React component that holds state becomes a class. The handlers become methods that set that state to a pure function of the old state. The backend functions become methods over classes that stand for the database tables.

Some inputs are not computed inside the model. They are parameters:

- Every answer of the database or the account service is a parameter, called an oracle here.
- Clock readings (`Date.now()`) are a number parameter `stamp`.
- The text of `Math.random()` is a function parameter `draw`.
- Parsers the code only calls are parameters: CSV parsing, e-mail validation, signing a JSON Web Token.

The module `JsValues` gives JavaScript's truthiness, `||` and `?.` over JSON values. `JsNumbers` gives `Number(string)` and number printing, with a round-trip proof. `Text` gives `trim`, `includes`, lower-casing of Latin-1 letters and UTF-16 length. `JsonText` gives `JSON.stringify` of strings, with its inverse.

## Model

| member | source | states |
|---|---|---|
| CrmData.CardToDraft | src/pages/Funnels.tsx:158-163 | an existing card handed to the form keeps its id, title, stage, tasks, value and history |
| CrmData.PaletteColor | src/data/sample-data.ts:59-66 | the colour is the palette entry at the position modulo six |
| CrmData.PaletteCycles | src/pages/Funnels.tsx:210 | the colours repeat every six positions and neighbours never share a colour |
| CrmData.Find | src/pages/Funnels.tsx:138 | `find`: the first element passing the test, or nothing exactly when none passes |
| CrmData.Filter | src/pages/Funnels.tsx:270 | `filter`: the kept elements all pass the test and every element that passes is kept |
| CrmData.FilterConcat | src/pages/Funnels.tsx:250 | filtering a concatenation filters each part |
| CrmData.FilterPositions | src/components/crm/FunnelBoard.tsx:43 | two kept elements stand in the input in the same order |
| CrmData.FilterPosition | src/components/crm/FunnelBoard.tsx:43 | every kept element stands somewhere in the input |
| CrmData.FilterAll | src/pages/Funnels.tsx:270 | a list whose every element passes is kept whole |
| FunnelBoard.Columns | src/components/crm/FunnelBoard.tsx:37-47 | one column per stage, in stage order, each holding exactly the cards of that stage |
| FunnelBoard.OrphanInNoColumn | src/components/crm/FunnelBoard.tsx:43 | a card whose stage is not on the board shows in no column |
| FunnelBoard.ColumnKeepsOrder | src/components/crm/FunnelBoard.tsx:43 | within a column the cards keep their relative order from the card list |
| FunnelBoard.OccurrencesDistinct | src/components/crm/FunnelBoard.tsx:37 | with distinct stage ids a stage id occurs once or not at all |
| FunnelBoard.ShownCons | src/components/crm/FunnelBoard.tsx:37-47 | one more card adds to the columns as many times as its stage id occurs |
| FunnelBoard.ColumnsPartition | src/components/crm/FunnelBoard.tsx:37-47 | with distinct stage ids the columns together show each card on a listed stage exactly once |
| FunnelBoard.ShownEmpty | src/components/crm/FunnelBoard.tsx:37-47 | no cards, no card shown |
| FunnelBoard.DropCard | src/components/crm/FunnelBoard.tsx:29-33 | a drop is forwarded, with the same card and stage, exactly when a move handler is given |
| IndexPage.MoveCard | src/pages/Index.tsx:40-45 | the card with the id takes the new stage; every other card and every other field stays |
| IndexPage.UnknownCardUnchanged | src/pages/Index.tsx:40-45 | moving a card that is not on the page changes nothing |
| IndexPage.MoveTwice | src/pages/Index.tsx:40-45 | two moves of one card are one move to the second stage |
| IndexPage.MoveBack | src/pages/Index.tsx:40-45 | moving a card back to its stage restores the list |
| IndexPage.OnBoard | src/pages/Index.tsx:69 | the board gets the card's id, title and stage |
| IndexPage.BoardCards | src/pages/Index.tsx:69 | one board card per sample card, in order |
| IndexPage.MovedCardShowsInNewColumn | src/pages/Index.tsx:40-45 | after a move the card shows in the new stage's column and in no other |
| IndexPage.IndexPage.constructor | src/pages/Index.tsx:15-37 | the page starts with the two sample cards |
| IndexPage.IndexPage.CardMove | src/pages/Index.tsx:40-50 | the cards become MoveCard of the old cards |
| IndexPage.IndexPage.Board | src/pages/Index.tsx:69 | four columns, each holding exactly the current cards of its stage |
| FunnelsPage.StagesOf | src/pages/Funnels.tsx:270 | every stage kept belongs to the funnel and comes from the list, and every stage of the funnel is kept |
| FunnelsPage.StageIds | src/pages/Funnels.tsx:261 | the ids of the stages, one per stage, in order |
| FunnelsPage.MoveDescriptionNamesTarget | src/pages/Funnels.tsx:145 | the history text of a move contains `para '<new stage name>'` |
| FunnelsPage.MoveDescription | src/pages/Funnels.tsx:145 | the move text starts with `Movido de '` and the old stage's name, ends with the new stage's name and `'.`, and is 21 characters longer than the two names |
| FunnelsPage.AddHistoryEntry | src/pages/Funnels.tsx:128-135 | the card gains exactly one history entry at the end, with the stamp's id, the current date and the description; every other field is unchanged |
| FunnelsPage.ReplaceCards | src/pages/Funnels.tsx:186 | each card with the id is replaced by the updated card, every other card is kept, in place |
| FunnelsPage.MoveApplies | src/pages/Funnels.tsx:138-143 | a move applies only when a card has the id and sits on another stage, and a stage has the new id; with no stage of that id it never applies |
| FunnelsPage.MovedCard | src/pages/Funnels.tsx:145-149 | the moved card equals the old card in every field but the stage and the history; it takes the new stage, and its history is the old history plus one entry with the next id, dated now, reading "Movido de '<old stage>' para '<new stage>'." |
| FunnelsPage.MoveCardResult | src/pages/Funnels.tsx:137-151 | a move that does not apply (unknown card, same stage, unknown stage) changes nothing; otherwise every card with the id becomes exactly MovedCard (the first such card, moved, with its new history entry) and every other card is unchanged |
| FunnelsPage.MoveRecordsTarget | src/pages/Funnels.tsx:137-151 | a move keeps the card's old history and appends exactly one entry: the next id, dated now, with the move text naming the old and the target stage, which contains `para '<target>'` |
| FunnelsPage.MergeCard | src/pages/Funnels.tsx:178-182 | the form's title, stage and value win over the initial card; the id falls back to the initial one; creation date and history come from the initial card |
| FunnelsPage.SaveCardResult | src/pages/Funnels.tsx:177-200 | with an id the list keeps its length and every other card; without one a card is appended and the old cards are kept |
| FunnelsPage.SaveCardUpdates | src/pages/Funnels.tsx:184-186 | editing keeps the card's id and creation date, takes the form's fields and appends "Card atualizado." to the history |
| FunnelsPage.SaveCardCreates | src/pages/Funnels.tsx:188-195 | creating appends a card with id `card-<stamp>`, today's creation date and the single history entry "Card criado." |
| FunnelsPage.NewCardDraft | src/pages/Funnels.tsx:166-175 | a new card has no id, no tasks, no history, and the first stage of the funnel (or "") |
| FunnelsPage.NewFunnelStages | src/pages/Funnels.tsx:206-211 | one stage per name, in order, in the new funnel, with ids `stage-<stamp>-<index>` and the palette colour of its position |
| FunnelsPage.IndexedStageIdsDistinct | src/pages/Funnels.tsx:207 | two stages of one new funnel never get the same id |
| FunnelsPage.NewStage | src/pages/Funnels.tsx:220-225 | the new stage has the name, the selected funnel and the palette colour after the funnel's current stage count |
| FunnelsPage.SplitStageNames | src/pages/Funnels.tsx:232-248 | the loop over the names yields exactly the reused stages and the created stages the reference functions define |
| FunnelsPage.RenameFunnel | src/pages/Funnels.tsx:231 | ids unchanged; only the funnel with the id takes the new name |
| FunnelsPage.ReusedStagesBelong | src/pages/Funnels.tsx:237-239 | reused stages stay in their funnel |
| FunnelsPage.CreatedStagesBelong | src/pages/Funnels.tsx:241-246 | created stages belong to the funnel being saved |
| FunnelsPage.SaveFunnelStages | src/pages/Funnels.tsx:236-250 | every saved stage outside the edited funnel is one of the old stages, unchanged |
| FunnelsPage.SaveFunnelKeepsOtherFunnels | src/pages/Funnels.tsx:250 | saving one funnel leaves every other funnel's stages exactly as they were, in order |
| FunnelsPage.SaveFunnelCoversNames | src/pages/Funnels.tsx:236-250 | after saving, every listed name names one of the funnel's stages |
| FunnelsPage.CoveringStageSaved | src/pages/Funnels.tsx:236-250 | the stage a listed name turns into, reused or new, is among the funnel's stages after saving and carries that name |
| FunnelsPage.SaveFunnelOnlyListed | src/pages/Funnels.tsx:236-250 | after saving, the funnel has no stage whose name is not listed |
| FunnelsPage.SaveFunnelKeepsIds | src/pages/Funnels.tsx:237-239 | a listed name matching an existing stage keeps that stage's id, so its cards stay on the board |
| FunnelsPage.AnyOverdueIff | src/pages/Funnels.tsx:281-287 | `some` over the open tasks is true exactly when some incomplete task is due before today |
| FunnelsPage.AnyDueTodayIff | src/pages/Funnels.tsx:289-293 | `some` over the open tasks is true exactly when some incomplete task is due today |
| FunnelsPage.Status | src/pages/Funnels.tsx:276-300 | overdue exactly when some open task is past due; due exactly when none is past due and some is due today |
| FunnelsPage.CountDone | src/pages/Funnels.tsx:306 | the done count never exceeds the task count |
| FunnelsPage.CountDoneAll | src/pages/Funnels.tsx:305-306 | the done count equals the task count exactly when every task is completed |
| FunnelsPage.ViewCard | src/pages/Funnels.tsx:273-309 | the view keeps the card, its task and done counts and its status; a contact name is shown exactly when some contact has the card's contact id, and it is the name of the first such contact |
| FunnelsPage.BoardCards | src/pages/Funnels.tsx:271-272 | the board shows exactly the cards whose stage is one of the current stages |
| FunnelsPage.CardsAfterDelete | src/pages/Funnels.tsx:261-263 | exactly the cards not on a stage of the deleted funnel are kept |
| FunnelsPage.FunnelsPage.constructor | src/pages/Funnels.tsx:112-124 | the page opens on the first funnel, or none, with the form closed |
| FunnelsPage.FunnelsPage.SelectedFunnel | src/pages/Funnels.tsx:269 | the selected funnel is a funnel with the selected id, and none exactly when no funnel has it |
| FunnelsPage.FunnelsPage.CurrentStages | src/pages/Funnels.tsx:270 | the current stages are exactly the stored stages of the selected funnel |
| FunnelsPage.FunnelsPage.CurrentCards | src/pages/Funnels.tsx:271-309 | one view per card on the board, in order |
| FunnelsPage.FunnelsPage.MoveCard | src/pages/Funnels.tsx:137-156 | the cards become MoveCardResult of the old cards |
| FunnelsPage.FunnelsPage.CardClick | src/pages/Funnels.tsx:158-164 | a known card opens the form on it; an unknown id changes nothing |
| FunnelsPage.FunnelsPage.NewCardClick | src/pages/Funnels.tsx:166-175 | the form opens on NewCardDraft of the current stages |
| FunnelsPage.FunnelsPage.SaveCard | src/pages/Funnels.tsx:177-200 | the cards become SaveCardResult and the form closes |
| FunnelsPage.FunnelsPage.CreateFunnel | src/pages/Funnels.tsx:202-216 | the funnel and its stages are appended and the new funnel is selected |
| FunnelsPage.FunnelsPage.CreateStage | src/pages/Funnels.tsx:218-228 | without a selected funnel nothing changes; otherwise NewStage is appended |
| FunnelsPage.FunnelsPage.SaveFunnel | src/pages/Funnels.tsx:230-252 | the funnel is renamed and the stages become the other funnels' stages, then the reused ones, then the new ones |
| FunnelsPage.FunnelsPage.DeleteFunnel | src/pages/Funnels.tsx:254-267 | with no selected funnel nothing changes; otherwise the funnel, its stages and their cards go and the first funnel left is selected |
| FunnelsPage.CreatedFunnelBoard | src/pages/Funnels.tsx:202-214 | after creating a funnel, its board shows exactly its new stages, in order |
| FunnelsPage.DeleteLeavesNoOrphans | src/pages/Funnels.tsx:261-263 | after deleting a funnel no card remains on any of its stages |
| FunnelsPage.ReusedStages | src/pages/Funnels.tsx:237-239 | at most one reused stage per listed name |
| FunnelsPage.CreatedStages | src/pages/Funnels.tsx:241-246 | at most one new stage per listed name |
| Text.Trim | src/components/crm/CardFormDialog.tsx:127 | `trim()` gives the empty string exactly for blank text, and otherwise text that neither starts nor ends with white space |
| Text.TrimIdempotent | src/components/crm/CardFormDialog.tsx:130 | trimming twice is trimming once |
| Text.TrimKeeps | src/components/crm/CardFormDialog.tsx:130 | text that neither starts nor ends with white space is left as it is by trimming |
| Text.Utf16Length | src/components/users/CreateUserDialog.tsx:37 | a string's length counts each character once or twice |
| Text.Lower | src/components/crm/ContactsTable.tsx:29-35 | `toLowerCase` keeps the length and lower-cases each character on its own |
| Text.Split | src/pages/Contacts.tsx:91 | splitting a text always gives at least one piece |
| Text.Join | src/pages/Contacts.tsx:85-91 | no pieces join to the empty text; the joined text starts with the first piece, followed by the separator when there is a second piece |
| Text.StrLess | src/components/TasksCalendar.tsx:73 | the code-point order is irreflexive (a string is never before itself) and nothing is before the empty string |
| JsNumbers.ParseNumber | src/components/crm/CardFormDialog.tsx:58 | `Number` of a blank string is 0 |
| JsNumbers.ParseNumberIgnoresSpace | src/components/crm/CardFormDialog.tsx:58 | white space around a number does not change what `Number` reads |
| JsNumbers.ParseFormatRoundTrip | src/components/crm/CardFormDialog.tsx:58 | `Number` reads back every amount written with at most 20 fractional digits |
| JsNumbers.ParseSignedDecimal | src/components/crm/CardFormDialog.tsx:58 | `Number` reads an optional minus sign followed by a plain decimal as that decimal, negated when signed |
| JsNumbers.FormatNumber | src/pages/Goals.tsx:36 | a finite number prints as a non-empty run of digits and points, with a leading `-` exactly when it is negative |
| JsonText.Quote | src/pages/Contacts.tsx:87 | `JSON.stringify` of a string is one line between double quotes, and has a comma exactly when the string has one |
| JsonText.Escape | src/pages/Contacts.tsx:87 | the escaped text holds no line break, and a comma exactly when the original does |
| JsonText.Unquote | src/pages/Contacts.tsx:87 | only a text between two double quotes decodes to a string |
| JsonText.QuoteInnerQuote | src/pages/Contacts.tsx:87 | a `"` inside a value is written as backslash and `"` between the escaped pieces |
| JsonText.UnquoteQuote | src/pages/Contacts.tsx:87 | the quoted cell reads back as the original text |
| JsonText.QuoteInjective | src/pages/Contacts.tsx:87 | two different values never give the same cell |
| JsonText.EscapePlain | src/pages/Contacts.tsx:87 | text without `"`, backslash or control characters is escaped to itself |
| JsonText.QuotePlain | src/pages/Contacts.tsx:87 | such text is written between double quotes and otherwise unchanged |
| JsonText.QuoteInnerBackslash | src/pages/Contacts.tsx:87 | a backslash is written as two backslashes |
| CreateFunnelDialog.DefaultStagesDistinct | src/components/crm/CreateFunnelDialog.tsx:75 | the four default stage names are distinct |
| CreateFunnelDialog.AddStageResult | src/components/crm/CreateFunnelDialog.tsx:85-90 | a blank name adds nothing; otherwise the trimmed name is in the list afterwards, and it is appended exactly when it was not there |
| CreateFunnelDialog.AddStageKeepsDistinct | src/components/crm/CreateFunnelDialog.tsx:86-87 | adding a stage never creates a duplicate name |
| CreateFunnelDialog.RemoveStageRemovesName | src/components/crm/CreateFunnelDialog.tsx:92-94 | after removing, the name is gone and every remaining name was in the list and differs from it |
| CreateFunnelDialog.RemoveStageCounts | src/components/crm/CreateFunnelDialog.tsx:93 | removing takes away every copy of the name and nothing else (multiset) |
| CreateFunnelDialog.RemoveAbsentStage | src/components/crm/CreateFunnelDialog.tsx:93 | removing a name that is not listed changes nothing |
| CreateFunnelDialog.AddThenRemove | src/components/crm/CreateFunnelDialog.tsx:85-94 | removing a stage just added restores the list |
| CreateFunnelDialog.RemoveConcat | src/components/crm/CreateFunnelDialog.tsx:93 | removing from a concatenation removes from each part |
| CreateFunnelDialog.RemoveStageResult | src/components/crm/CreateFunnelDialog.tsx:93 | removing never lengthens the list |
| CreateFunnelDialog.RemoveStageIsFilter | src/components/crm/CreateFunnelDialog.tsx:93 | the removal is exactly `filter(s => s !== name)`, so the remaining stages keep their order (CrmData.FilterPositions) |
| CreateFunnelDialog.IndexOf | src/components/crm/CreateFunnelDialog.tsx:131-132 | `indexOf` of a listed name: the first position holding it |
| CreateFunnelDialog.ArrayMove | src/components/crm/CreateFunnelDialog.tsx:133 | `arrayMove`: same length, same names (multiset), and the moved name lands at the target position |
| CreateFunnelDialog.RemoveInserted | src/components/crm/CreateFunnelDialog.tsx:133 | taking out what was just inserted restores the list |
| CreateFunnelDialog.InsertRemoved | src/components/crm/CreateFunnelDialog.tsx:133 | putting back what was just taken out restores the list |
| CreateFunnelDialog.ArrayMoveUndo | src/components/crm/CreateFunnelDialog.tsx:133 | moving back from the target to the origin undoes a move |
| CreateFunnelDialog.ArrayMoveKeepsDistinct | src/components/crm/CreateFunnelDialog.tsx:133 | a move never creates a duplicate name |
| CreateFunnelDialog.DragEndResult | src/components/crm/CreateFunnelDialog.tsx:126-136 | no target or the same item leaves the list alone; otherwise the list is a permutation with the dragged name at the target's old position |
| CreateFunnelDialog.CreateFunnelDialog.constructor | src/components/crm/CreateFunnelDialog.tsx:73-75 | empty name and stage name, default stages |
| CreateFunnelDialog.CreateFunnelDialog.AddStage | src/components/crm/CreateFunnelDialog.tsx:85-90 | the stages become AddStageResult and the input clears exactly when a stage was added |
| CreateFunnelDialog.CreateFunnelDialog.RemoveStage | src/components/crm/CreateFunnelDialog.tsx:92-94 | the stages become RemoveStageResult |
| CreateFunnelDialog.CreateFunnelDialog.CreateRequest | src/components/crm/CreateFunnelDialog.tsx:96-116 | refused for a blank name, refused for no stages, otherwise creates with the trimmed non-empty name and the stages |
| CreateFunnelDialog.CreateFunnelDialog.OpenChanged | src/components/crm/CreateFunnelDialog.tsx:118-124 | closing resets name, stage name and default stages; opening changes nothing |
| CreateFunnelDialog.CreateFunnelDialog.DragEnd | src/components/crm/CreateFunnelDialog.tsx:126-136 | the stages become DragEndResult |
| CreateStageDialog.StageToCreate | src/components/crm/CreateStageDialog.tsx:25-31 | nothing is created exactly when the name is blank; otherwise the trimmed, non-empty name |
| CreateStageDialog.StageToCreateTrimmed | src/components/crm/CreateStageDialog.tsx:25-31 | the name handed on is already trimmed: trimming it again leaves it unchanged |
| CreateStageDialog.CreateStageDialog.constructor | src/components/crm/CreateStageDialog.tsx:23 | the name starts empty |
| CreateStageDialog.CreateStageDialog.Create | src/components/crm/CreateStageDialog.tsx:25-31 | hands over StageToCreate of the name; on success clears the name and closes, otherwise changes nothing |
| CardFormDialog.ParseAmountAsWritten | src/components/crm/CardFormDialog.tsx:57-60 | as written: `""` is an accepted missing amount, an untouched field (`undefined`) is refused (it becomes NaN), and a number is accepted exactly when it is at least 0 |
| CardFormDialog.AcceptNumber | src/components/crm/CardFormDialog.tsx:59 | a number is accepted exactly when it is finite and at least 0: NaN, negative numbers and both infinities are refused |
| CardFormDialog.ParseAmount | src/components/crm/CardFormDialog.tsx:57-60 | corrected: an untouched or empty field is an accepted missing amount; every other input is treated as written; an accepted amount is never negative |
| CardFormDialog.ValidateAsWritten | src/components/crm/CardFormDialog.tsx:41-62 | as written, an amount field left untouched always makes the form invalid |
| CardFormDialog.Validate | src/components/crm/CardFormDialog.tsx:41-62 | the corrected rule accepts whatever the written rule accepts, with the same result; for an untouched amount it accepts exactly when the form with no amount is valid |
| CardFormDialog.TypedAmountRoundTrip | src/components/crm/CardFormDialog.tsx:57-60 | a non-negative amount typed in its printed form is read back as itself |
| CardFormDialog.BadAmountRefused | src/components/crm/CardFormDialog.tsx:57-60 | text that is not a number, or is a negative number, is refused |
| CardFormDialog.ValidateWith | src/components/crm/CardFormDialog.tsx:41-62 | the form passes exactly when the title and stage are non-empty, every task has a text and the amount is accepted; the result carries every field of the form: id, title, company name, business type, description, contact, stage, tasks, the accepted amount and source |
| CardFormDialog.EditReset | src/components/crm/CardFormDialog.tsx:140-145 | opening on a card keeps its id, title and stage, its tasks (or none), and turns a missing or zero amount into an untouched field |
| CardFormDialog.NewReset | src/components/crm/CardFormDialog.tsx:146-157 | opening for a new card: no id, empty title, no tasks, untouched amount, first stage (or "") |
| CardFormDialog.NewCardRefusedAsWritten | src/components/crm/CardFormDialog.tsx:57-60 | as written, a new card whose amount was not typed cannot be saved, whatever its title |
| CardFormDialog.NewCardAccepted | src/components/crm/CardFormDialog.tsx:146-157 | corrected, a new card with a title on an existing stage is accepted with no amount |
| CardFormDialog.PageNewCardRefusedAsWritten | src/pages/Funnels.tsx:166-175 | the new-card form the funnels page opens (its draft passed through the edit reset) is refused as written for any title |
| CardFormDialog.PageNewCardAccepted | src/pages/Funnels.tsx:166-175 | under the corrected rule that form, given a title, saves with no amount, no tasks, the title and the first stage |
| CardFormDialog.EditUnchangedAsWritten | src/components/crm/CardFormDialog.tsx:139-145 | as written: submitting an opened valid card with an amount above 0 unchanged gives back its fields |
| CardFormDialog.EditFalsyRefusedAsWritten | src/components/crm/CardFormDialog.tsx:142 | as written: an opened card with no amount or an amount of 0 cannot be submitted unchanged |
| CardFormDialog.EditUnchanged | src/components/crm/CardFormDialog.tsx:139-145 | corrected: submitting an opened valid card unchanged gives back its fields, a zero amount becoming no amount |
| CardFormDialog.AddTaskResult | src/components/crm/CardFormDialog.tsx:126-137 | a blank text adds nothing; otherwise one open task with the trimmed text and due date is appended |
| CardFormDialog.AddTaskKeepsValid | src/components/crm/CardFormDialog.tsx:126-137 | adding a task never makes the task list invalid |
| CardFormDialog.CardFormDialog.constructor | src/components/crm/CardFormDialog.tsx:111-124 | no tasks, empty new-task text, no due date |
| CardFormDialog.CardFormDialog.AddTask | src/components/crm/CardFormDialog.tsx:126-137 | blank text changes nothing; otherwise the tasks become AddTaskResult and the inputs clear |
| CardFormDialog.CardFormDialog.Opened | src/components/crm/CardFormDialog.tsx:139-159 | closed changes nothing; open on a card gives EditReset; open without gives NewReset |
| CardFormDialog.CardFormDialog.Submitted | src/components/crm/CardFormDialog.tsx:164-166 | as written: what is handed to the page has a title and a stage, valid tasks and a non-negative amount; an untouched amount is refused; any other amount is judged as by the corrected rule |
| CardFormDialog.CardFormDialog.SubmittedIntended | src/components/crm/CardFormDialog.tsx:164-166 | corrected: the same guarantees, and whatever the form as written accepts is accepted unchanged |
| Dashboard.ClosedStageIds | src/pages/Dashboard.tsx:71-72 | an id is listed exactly when some stage with that id has a name that lower-cases to "fechado" |
| Dashboard.IsClosed | src/pages/Dashboard.tsx:71 | a closed stage's name has the seven letters of "fechado" |
| Dashboard.LastMentioning | src/pages/Dashboard.tsx:82 | the last history entry whose text contains the needle, or nothing exactly when no entry does |
| Dashboard.RelevantDate | src/pages/Dashboard.tsx:82-84 | the date of the last entry naming the card's stage, or else the creation date |
| Dashboard.CurrentRevenue | src/pages/Dashboard.tsx:66-91 | no closed stage, no revenue |
| Dashboard.CountedIsClosed | src/pages/Dashboard.tsx:76-88 | only a card sitting on a closed stage is counted |
| Dashboard.Counted | src/pages/Dashboard.tsx:76-88 | a counted card sits on a stage whose name lower-cases to "fechado"; with no such stage no card is counted |
| Dashboard.NoClosedStageNoRevenue | src/pages/Dashboard.tsx:74 | without a stage named "fechado" the revenue is 0 |
| Dashboard.SumNonNegative | src/pages/Dashboard.tsx:90 | non-negative amounts sum to a non-negative total |
| Dashboard.SumAmounts | src/pages/Dashboard.tsx:90 | cards whose amounts are all missing or 0 sum to 0 |
| Dashboard.RevenueNonNegative | src/pages/Dashboard.tsx:66-91 | with non-negative card amounts the revenue is never negative |
| Dashboard.SumAtLeastMember | src/pages/Dashboard.tsx:90 | with non-negative amounts the total is at least each card's amount |
| Dashboard.MovedToClosedCounts | src/pages/Dashboard.tsx:76-88 | a card just moved onto a closed stage is counted in the month of the move |
| Dashboard.MoveIntoClosedAddsRevenue | src/pages/Dashboard.tsx:66-91 | after moving a card onto a closed stage the month's revenue is at least that card's amount |
| GoalGauge.Percentage | src/components/dashboard/GoalGauge.tsx:13 | 0 for a goal that is not positive; otherwise the share of the goal in percent, capped at 100; never negative for a non-negative revenue |
| GoalGauge.PercentageMonotone | src/components/dashboard/GoalGauge.tsx:13 | more revenue never shows less progress |
| GoalGauge.Hue | src/components/dashboard/GoalGauge.tsx:20 | 0% is hue 0 (red), 100% is hue 120 (green), and percentages in between stay in that range |
| GoalGauge.HueInRange | src/components/dashboard/GoalGauge.tsx:13-20 | for a non-negative revenue the figure's hue stays between 0 and 120 |
| GoalProgressChart.RevenueIsMonthTotal | src/components/dashboard/GoalProgressChart.tsx:37-44 | each month's entry is exactly the sum of the amounts of the closed cards falling in that month (0 when none does) |
| GoalProgressChart.RevenueByMonth | src/components/dashboard/GoalProgressChart.tsx:37-44 | with no card in a closed stage (NoneClosed) no month has revenue |
| GoalProgressChart.NoneClosedMeans | src/components/dashboard/GoalProgressChart.tsx:38 | NoneClosed holds exactly when no card's stage is among the closed stages |
| GoalProgressChart.CardKey | src/components/dashboard/GoalProgressChart.tsx:39-41 | a card counts in a month only with a date; without an entry naming `para 'Fechado'` (exact case) it counts in its creation month, or has no month when that is missing |
| GoalProgressChart.MonthKey | src/components/dashboard/GoalProgressChart.tsx:50 | the key is the year's text, a `-`, then at least two month digits |
| GoalProgressChart.MonthOrderMatchesKeys | src/components/dashboard/GoalProgressChart.tsx:62 | the months are listed once each, and exactly the months that have an entry are listed |
| GoalProgressChart.MonthKeysFromCards | src/components/dashboard/GoalProgressChart.tsx:37-44 | a month has an entry exactly when some closed card falls in it |
| GoalProgressChart.GoalRows | src/components/dashboard/GoalProgressChart.tsx:49-60 | one row per goal |
| GoalProgressChart.AccumulateRevenue | src/components/dashboard/GoalProgressChart.tsx:37-44 | the loop builds the per-month totals and the first-seen month order that the reference functions define |
| GoalProgressChart.AddGoalRows | src/components/dashboard/GoalProgressChart.tsx:49-60 | the loop builds one row per goal and the set of processed months |
| GoalProgressChart.AddExtraRows | src/components/dashboard/GoalProgressChart.tsx:62-73 | the loop appends the rows of the months with revenue and no goal |
| GoalProgressChart.ChartData | src/components/dashboard/GoalProgressChart.tsx:32-75 | the chart rows before the sort are the reference chart |
| GoalProgressChart.GoalRowAt | src/components/dashboard/GoalProgressChart.tsx:54-58 | the row of a goal carries its month key, its goal and the month's revenue (or 0) |
| GoalProgressChart.GoalKeysOf | src/components/dashboard/GoalProgressChart.tsx:59 | a month is processed exactly when some goal is for it |
| GoalProgressChart.CountKeyConcat | src/components/dashboard/GoalProgressChart.tsx:46 | rows with a key in a concatenation are those of each part |
| GoalProgressChart.ExtraRowsCount | src/components/dashboard/GoalProgressChart.tsx:62-73 | each month with revenue and not processed gets exactly one row, with goal 0 and its revenue |
| GoalProgressChart.ChartExtraMonths | src/components/dashboard/GoalProgressChart.tsx:62-73 | after the goal rows, every month with revenue but no goal appears exactly once, with goal 0 and its month's total |
| GoalProgressChart.ChartGoalRow | src/components/dashboard/GoalProgressChart.tsx:49-60 | the row of each goal shows that goal and the month's closed revenue |
| GoalProgressChart.KeyTextInjective | src/components/dashboard/GoalProgressChart.tsx:41 | two months share their `YYYY-MM` key text only when they are the same month, and no month's text is the `NaN-NaN` of an unparsable date, so grouping by year and month is grouping by the text |
| GoalProgressChart.MonthTextInjective | src/components/dashboard/GoalProgressChart.tsx:51 | different month numbers never share their zero-padded text |
| GoalProgressChart.SplitAtSeparator | src/components/dashboard/GoalProgressChart.tsx:41 | a key text splits back into its year text and its month text |
| Text.IntToStringInjective | src/components/dashboard/GoalProgressChart.tsx:51 | different integers never share their decimal text |
| GoalsPage.SavedGoal | src/pages/Goals.tsx:42-57 | a number that is not NaN and at least 0 becomes the goal; anything else keeps the old goal; an acceptable goal stays acceptable |
| GoalsPage.Acceptable | src/pages/Goals.tsx:44 | a goal is accepted exactly when it is a number at least 0 or positive Infinity |
| GoalsPage.DisplayAfterSave | src/pages/Goals.tsx:38-45 | a refused entry stays in the box; an accepted entry that changes the goal is replaced by the new goal's text |
| GoalsPage.InvalidEntryKeepsGoal | src/pages/Goals.tsx:44-56 | a negative or non-numeric entry is refused: the goal and the text box stay |
| GoalsPage.SaveDisplayedGoal | src/pages/Goals.tsx:36-45 | saving the goal's own printed form keeps the goal and the text |
| GoalsPage.DisplayReadsBack | src/pages/Goals.tsx:38-45 | after a save the text box reads back as the saved goal |
| GoalsPage.GoalsPage.constructor | src/pages/Goals.tsx:35-36 | the text box starts with the stored goal printed |
| GoalsPage.GoalsPage.Edit | src/pages/Goals.tsx:78 | typing replaces the text box |
| GoalsPage.GoalsPage.Save | src/pages/Goals.tsx:38-57 | reports success exactly for an acceptable number; the goal becomes SavedGoal and the text box is reprinted from a changed goal |
| GoalsManager.GoalRequest | src/components/GoalsManager.tsx:49-55 | an insert is made exactly when month and year are truthy and the amount is a number above 0; it carries them |
| GoalsManager.GoalsAfterInsert | src/components/GoalsManager.tsx:62 | no row returned leaves the list; otherwise the first returned row goes to the head |
| GoalsManager.NonPositiveAmountRefused | src/components/GoalsManager.tsx:50-53 | a zero, negative or non-numeric amount is refused |
| GoalsManager.SameMonthTwice | src/components/GoalsManager.tsx:48-63 | nothing stops two goals for the same month: both are listed, newest first |
| GoalsManager.GoalsManager.constructor | src/components/GoalsManager.tsx:29-33 | no goals, the current month and year, empty amount |
| GoalsManager.GoalsManager.FetchGoals | src/components/GoalsManager.tsx:35-42 | the fetched rows (or none for `null`) replace the list; an error keeps it |
| GoalsManager.GoalsManager.CreateGoal | src/components/GoalsManager.tsx:48-63 | sends GoalRequest; refused or failed leaves the state; created clears the amount and adds the returned row at the head |
| ContactsPage.MergeUnchanged | src/pages/Contacts.tsx:43 | submitting the edit form unchanged leaves the contact as it was |
| ContactsPage.Merge | src/pages/Contacts.tsx:43 | the merged contact keeps its id unless the form sends one, and its fields are exactly the form's |
| ContactsPage.EditReadsBack | src/pages/Contacts.tsx:43 | after an edit the contact holds exactly what the form held |
| ContactsPage.UpdateContacts | src/pages/Contacts.tsx:43 | ids and length unchanged; contacts with another id untouched; the edited one holds the form's values |
| ContactsPage.UpdateAbsent | src/pages/Contacts.tsx:43 | editing an id that is not listed changes nothing |
| ContactsPage.NewContact | src/pages/Contacts.tsx:51-54 | the new contact holds the form's values; without an id in the form it gets `contact-<stamp>` |
| ContactsPage.SubmitResult | src/pages/Contacts.tsx:41-61 | a submission with an id is an edit; otherwise one new contact is appended and the rest kept |
| ContactsPage.SubmitKeepsIdsDistinct | src/pages/Contacts.tsx:41-61 | submitting keeps contact ids distinct, provided a new contact's generated id is not taken yet |
| ContactsPage.RemoveContact | src/pages/Contacts.tsx:75 | no contact with the id is left, every other contact is kept, nothing new appears |
| ContactsPage.RemoveCount | src/pages/Contacts.tsx:75 | deleting removes exactly the contacts with that id |
| ContactsPage.CountDistinct | src/pages/Contacts.tsx:75 | with distinct ids an id occurs once or not at all |
| ContactsPage.RemoveOne | src/pages/Contacts.tsx:73-80 | with distinct ids deleting a listed contact removes exactly one |
| ContactsPage.CreateThenDelete | src/pages/Contacts.tsx:41-80 | deleting a contact just created restores the list |
| ContactsPage.CsvRow | src/pages/Contacts.tsx:87 | a contact's line holds no line break and starts with its quoted id |
| ContactsPage.FiveCellsLine | src/pages/Contacts.tsx:87 | five cells without line breaks join into one line that starts with the first cell |
| ContactsPage.CsvRows | src/pages/Contacts.tsx:86-88 | one line per contact, in order |
| ContactsPage.CsvCell | src/pages/Contacts.tsx:87 | a cell is one line that decodes back to the value, blank when missing, and holds a comma exactly when the value does |
| ContactsPage.CsvText | src/pages/Contacts.tsx:84-91 | the exported text starts with the header `id,name,email,phone,company` |
| ContactsPage.HeaderLine | src/pages/Contacts.tsx:83-85 | the header line is `id,name,email,phone,company` |
| ContactsPage.CsvRowOneLine | src/pages/Contacts.tsx:87 | a contact's line holds no line break, whatever its fields hold |
| ContactsPage.CsvLines | src/pages/Contacts.tsx:84-91 | the file splits into the header and one line per contact |
| Text.SplitJoin | src/pages/Contacts.tsx:91 | joining pieces that do not hold the separator and splitting again gives the pieces back |
| ContactsPage.CsvRowReadsBack | src/pages/Contacts.tsx:87 | for fields without commas, a line splits into five cells whose JSON strings read back as the fields |
| ContactsPage.FiveCells | src/pages/Contacts.tsx:87 | five comma-free cells joined by commas split back into the same five |
| ContactsPage.ContactsPage.constructor | src/pages/Contacts.tsx:34-39 | the stored contacts, every dialog closed, nothing selected |
| ContactsPage.ContactsPage.Submit | src/pages/Contacts.tsx:41-61 | the contacts become SubmitResult; an edit closes the edit dialog |
| ContactsPage.ContactsPage.EditRequest | src/pages/Contacts.tsx:63-66 | the edit dialog opens on the contact |
| ContactsPage.ContactsPage.DeleteRequest | src/pages/Contacts.tsx:68-71 | the confirmation opens for the id |
| ContactsPage.ContactsPage.DeleteConfirm | src/pages/Contacts.tsx:73-80 | a pending non-empty id is removed; the confirmation closes and clears |
| ContactsPage.ContactsPage.DeleteCancel | src/pages/Contacts.tsx:151 | the pending id clears |
| ContactsPage.ContactsPage.Import | src/pages/Contacts.tsx:103-106 | the imported contacts are appended |
| ContactsPage.ContactsPage.ExportCsv | src/pages/Contacts.tsx:82-91 | the exported text has one line more than there are contacts |
| ContactsTable.Filtered | src/components/crm/ContactsTable.tsx:29-36 | exactly the contacts whose name, company, email, phone, role or industry contains the search text, ignoring case, are listed |
| ContactsTable.Matches | src/components/crm/ContactsTable.tsx:29-35 | the empty search text matches every contact |
| ContactsTable.EmptySearchListsAll | src/components/crm/ContactsTable.tsx:27-36 | an empty search lists every contact, in order |
| ContactsTable.SearchIgnoresCase | src/components/crm/ContactsTable.tsx:29-36 | searching the lower-cased text lists the same contacts |
| ContactsTable.TypingNarrows | src/components/crm/ContactsTable.tsx:29-36 | a contact found by a longer search is found by each prefix of it |
| ContactsTable.FoundByName | src/components/crm/ContactsTable.tsx:30 | any piece of a contact's name finds it |
| ContactsTable.UnsearchedFields | src/components/crm/ContactsTable.tsx:29-36 | the website and the address play no part in the search |
| ImportContactsDialog.FirstFilled | src/components/crm/ImportContactsDialog.tsx:62-64 | `row.a \|\| row.b \|\| ... \|\| ""`: "" exactly when no listed column is filled; otherwise the value of the first filled column |
| ImportContactsDialog.ImportId | src/components/crm/ImportContactsDialog.tsx:61 | an imported id starts with `contact-` and ends with `-` and the random draw's text |
| ImportContactsDialog.ImportIdInjective | src/components/crm/ImportContactsDialog.tsx:61 | ids from different clock readings or draws differ, as long as the draw's text holds no `-` |
| ImportContactsDialog.RowContact | src/components/crm/ImportContactsDialog.tsx:60-65 | the contact takes the id, and its name, email and phone from the first filled of their columns; nothing else |
| ImportContactsDialog.RowContacts | src/components/crm/ImportContactsDialog.tsx:60-64 | one contact per row, in order, each with its own clock reading and draw |
| ImportContactsDialog.ImportedContacts | src/components/crm/ImportContactsDialog.tsx:60-65 | exactly the rows with a name become contacts |
| ImportContactsDialog.AllNamedImported | src/components/crm/ImportContactsDialog.tsx:65 | when every row has a name, every row is imported |
| ImportContactsDialog.Undouble | src/components/crm/ImportContactsDialog.tsx:40-41 | a quoted cell's body without a double quote is read as it is |
| ImportContactsDialog.CsvField | src/components/crm/ImportContactsDialog.tsx:40-41 | a cell that is not between double quotes is read as it is |
| ImportContactsDialog.CsvFieldPlain | src/pages/Contacts.tsx:87 | a cell the export writes for text without `"`, backslash or control characters reads back as that text |
| ImportContactsDialog.ExportedRowPlain | src/pages/Contacts.tsx:84-88 | the reader's row of an exported line holds a plain name, email and phone unchanged |
| ImportContactsDialog.CellsImported | src/components/crm/ImportContactsDialog.tsx:60-65 | a row of the five exported columns imports as a contact with that name, email and phone, the new id and no company |
| ImportContactsDialog.ExportThenImport | src/components/crm/ImportContactsDialog.tsx:60-65 | importing an exported contact whose name, email and phone are plain text keeps them, gives it a new id and loses the company |
| ImportContactsDialog.ExportedName | src/pages/Contacts.tsx:84-88 | the reader's `name` cell is the decoded quoted name |
| ImportContactsDialog.CsvFieldBackslash | src/pages/Contacts.tsx:87 | a backslash between plain texts is read back doubled |
| ImportContactsDialog.ExportDoublesBackslash | src/pages/Contacts.tsx:87 | a name holding a backslash comes back from export and import with the backslash doubled |
| ImportContactsDialog.ImportContactsDialog.constructor | src/components/crm/ImportContactsDialog.tsx:26-28 | no file, no rows, no headers |
| ImportContactsDialog.ImportContactsDialog.FileChosen | src/components/crm/ImportContactsDialog.tsx:31-37 | the file is remembered |
| ImportContactsDialog.ImportContactsDialog.ParseComplete | src/components/crm/ImportContactsDialog.tsx:43-50 | a parse with errors changes nothing; otherwise the headers (or none) and the rows are kept |
| ImportContactsDialog.ImportContactsDialog.Preview | src/components/crm/ImportContactsDialog.tsx:118 | the preview shows the first five rows, or all of them when there are fewer |
| ImportContactsDialog.ImportContactsDialog.Import | src/components/crm/ImportContactsDialog.tsx:54-70 | no rows: nothing to import and nothing changes; otherwise ImportedContacts is handed over and the dialog resets |
| ImportContactsDialog.ImportContactsDialog.Close | src/components/crm/ImportContactsDialog.tsx:78-83 | closing resets file, rows and headers; opening keeps them |
| TasksCalendar.JoinedTitle | src/components/TasksCalendar.tsx:57 | the joined card's title, or none without a joined card |
| TasksCalendar.GroupKey | src/components/TasksCalendar.tsx:69 | the key is never empty: a task without a due date goes under `no-date`, any other key is the task's own due date |
| TasksCalendar.KeyBefore | src/components/TasksCalendar.tsx:73 | a key never comes before itself and `no-date` never comes first; every dated key comes before `no-date` |
| TasksCalendar.RowsToTasks | src/components/TasksCalendar.tsx:48-58 | one task per row, in order, with the row's id, text, done flag, due date and priority and the joined card's title |
| TasksCalendar.KeyBeforeAsymmetric | src/components/TasksCalendar.tsx:73 | the comparator never puts two keys each before the other |
| TasksCalendar.KeyBeforeTotal | src/components/TasksCalendar.tsx:73 | of two different keys one sorts first |
| TasksCalendar.KeyBeforeTransitive | src/components/TasksCalendar.tsx:73 | the comparator is transitive, so the sort is well defined |
| TasksCalendar.InsertGroup | src/components/TasksCalendar.tsx:73 | inserting a group keeps the list sorted and adds exactly that group |
| TasksCalendar.SortGroups | src/components/TasksCalendar.tsx:73 | the sorted groups are a permutation of the groups, dated groups first by date, the undated one last |
| TasksCalendar.Entries | src/components/TasksCalendar.tsx:73 | `map.entries()`: one group per key, in insertion order |
| TasksCalendar.BucketIsFilter | src/components/TasksCalendar.tsx:68-72 | a key's bucket is the tasks with that key, in list order |
| TasksCalendar.UnseenKey | src/components/TasksCalendar.tsx:68-72 | a key no task has gets no task |
| TasksCalendar.BucketTasks | src/components/TasksCalendar.tsx:67-72 | the loop gives every task's key a non-empty bucket, lists each key once, and each bucket holds exactly the tasks with its key |
| TasksCalendar.FileStep | src/components/TasksCalendar.tsx:69-71 | filing one more task in its key's bucket, opened empty if the key is new, keeps every bucket exactly the tasks with its key and each key listed once |
| TasksCalendar.GroupTasks | src/components/TasksCalendar.tsx:66-74 | the groups are sorted, none is empty, every task's key has one, and each holds exactly its tasks in list order |
| TasksCalendar.TaskInOneGroup | src/components/TasksCalendar.tsx:66-74 | a task is shown in exactly the group of its own key |
| TasksCalendar.TasksCalendar.constructor | src/components/TasksCalendar.tsx:29-30 | no tasks, not loading |
| TasksCalendar.TasksCalendar.FetchStarted | src/components/TasksCalendar.tsx:34 | loading |
| TasksCalendar.TasksCalendar.Fetched | src/components/TasksCalendar.tsx:41-60 | loading stops; an error keeps the tasks; otherwise the tasks become RowsToTasks of the rows |
| CalendarPage.CardEvents | src/pages/Calendar.tsx:40-49 | a card's events are exactly its tasks with a due date, each carrying the task's text and date and the card's title and id |
| CalendarPage.CardEventsInOrder | src/pages/Calendar.tsx:40-49 | a card's k-th event is built from its k-th task with a due date, in task order |
| CalendarPage.Events | src/pages/Calendar.tsx:39-50 | every event carries the title and id of one of the cards |
| CalendarPage.CardEventsCount | src/pages/Calendar.tsx:41 | one event per dated task |
| CalendarPage.EventCount | src/pages/Calendar.tsx:39-50 | the calendar has as many events as all cards have dated tasks |
| CalendarPage.EventsConcat | src/pages/Calendar.tsx:39 | `flatMap` over two lists of cards is the concatenation of their events |
| CalendarPage.EventsFromTasks | src/pages/Calendar.tsx:39-50 | every event comes from a dated task of one of the cards |
| CalendarPage.EventsOn | src/pages/Calendar.tsx:56 | the day's tasks are exactly the events whose date starts with the clicked day |
| CalendarPage.TimestampOnDay | src/pages/Calendar.tsx:56 | an event dated with a time on the clicked day is shown for that day |
| CalendarPage.CalendarPage.constructor | src/pages/Calendar.tsx:23-26 | no events, dialog closed, nothing selected |
| CalendarPage.CalendarPage.Loaded | src/pages/Calendar.tsx:28-52 | the events of the stored cards, or of the sample cards when none are stored |
| CalendarPage.CalendarPage.DateClick | src/pages/Calendar.tsx:54-61 | the dialog opens on the clicked date with EventsOn of that day |
| Permissions.PermissionValue | src/hooks/use-permission.ts:9 | `profile.permissions?.[key]`: undefined when there is no permission map or no entry |
| Permissions.HasPermission | src/hooks/use-permission.ts:6-10 | no profile: false; an admin: true; anyone else: exactly when the entry is present and truthy |
| Permissions.IsManagerOrAdmin | src/hooks/use-permission.ts:12-15 | true exactly when a profile is loaded and its role is admin or gestor |
| Permissions.CanManageUsersIsPermission | src/pages/Users.tsx:101 | the users page's rule equals "manager or admin, and holds `edit_users`" |
| Permissions.CanManageUsers | src/pages/Users.tsx:101 | only a loaded admin or gestor can manage users, and an admin always can |
| Permissions.PlainUserCannotManage | src/pages/Users.tsx:101 | a plain user, or no profile, cannot manage users |
| Permissions.GrantRevoke | src/hooks/use-permission.ts:6-10 | setting an entry to true grants it; setting it to false revokes it for a non-admin |
| Permissions.GrantKeepsOthers | src/hooks/use-permission.ts:6-10 | changing one entry changes no other permission |
| Permissions.CreateErrorMessage | src/pages/Users.tsx:87 | the message the function sent back is shown when there is one, otherwise the client's message |
| CreateUserDialog.RoleOf | src/components/users/CreateUserDialog.tsx:38 | only "user" and "gestor" are accepted roles; the form can never ask for an admin |
| CreateUserDialog.Errors | src/components/users/CreateUserDialog.tsx:33-39 | one error per broken rule, each present exactly when its rule fails: empty first name, bad email, password under 8 UTF-16 units, role not offered |
| CreateUserDialog.Validate | src/components/users/CreateUserDialog.tsx:33-39 | valid exactly when there is no error; a valid result carries the form's values and its role; an invalid one carries the errors |
| CreateUserDialog.ValidExactly | src/components/users/CreateUserDialog.tsx:33-39 | the form passes exactly when the first name is non-empty, the email is valid, the password has at least 8 UTF-16 units and the role is "user" or "gestor" |
| CreateUserDialog.NeverAdmin | src/components/users/CreateUserDialog.tsx:38 | no valid submission creates an admin |
| CreateUserDialog.DefaultsRefused | src/components/users/CreateUserDialog.tsx:51-60 | the untouched form is refused for the first name and the password, not for the role |
| CreateUserDialog.LastNameOptional | src/components/users/CreateUserDialog.tsx:35 | clearing the last name never makes a valid form invalid |
| CreateUserDialog.AstralLength | src/components/users/CreateUserDialog.tsx:37 | characters outside the Basic Multilingual Plane count twice towards the password length |
| CreateUserDialog.CreateUserDialog.constructor | src/components/users/CreateUserDialog.tsx:51-60 | the form starts at the default values |
| CreateUserDialog.CreateUserDialog.Edited | src/components/users/CreateUserDialog.tsx:51 | typing replaces the form's values |
| CreateUserDialog.CreateUserDialog.OpenChanged | src/components/users/CreateUserDialog.tsx:67-72 | closing resets the form to its defaults; opening keeps it |
| CreateUserDialog.CreateUserDialog.Submit | src/components/users/CreateUserDialog.tsx:62-65 | the values are handed over exactly when the form is valid, as Validate gives them |
| UsersEditUserDialog.WithRole | src/components/users/EditUserDialog.tsx:49-52 | the role changes; a gestor keeps the permissions, any other role loses them all; nothing else changes |
| UsersEditUserDialog.WithPermission | src/components/users/EditUserDialog.tsx:54-62 | one switch is set to the value; every other switch and field is unchanged |
| UsersEditUserDialog.AsProfile | src/components/users/EditUserDialog.tsx:64-66 | the saved user, as the permission checks see it: same role, one boolean entry per switch |
| UsersEditUserDialog.SwitchIsPermission | src/hooks/use-permission.ts:6-10 | for a non-admin, the permission check after saving is exactly the switch's state |
| UsersEditUserDialog.DemotedHoldsNothing | src/components/users/EditUserDialog.tsx:49-52 | a user demoted to "user" holds no permission afterwards |
| UsersEditUserDialog.RoleRoundTripForgets | src/components/users/EditUserDialog.tsx:49-52 | leaving gestor and coming back does not bring the permissions back |
| UsersEditUserDialog.SwitchOnOff | src/components/users/EditUserDialog.tsx:54-62 | switching a permission on then off leaves it off and the others as they were |
| UsersEditUserDialog.GestorSwitchGrants | src/components/users/EditUserDialog.tsx:54-62 | for a gestor, switching a permission on grants it and switching it off revokes it |
| UsersEditUserDialog.EditUserDialog.constructor | src/components/users/EditUserDialog.tsx:43 | the edited user starts as the user |
| UsersEditUserDialog.EditUserDialog.UserChanged | src/components/users/EditUserDialog.tsx:45-47 | a new user replaces the edited one |
| UsersEditUserDialog.EditUserDialog.RoleChange | src/components/users/EditUserDialog.tsx:49-52 | the edited user becomes WithRole |
| UsersEditUserDialog.EditUserDialog.PermissionChange | src/components/users/EditUserDialog.tsx:54-62 | the edited user becomes WithPermission |
| UsersEditUserDialog.EditUserDialog.Save | src/components/users/EditUserDialog.tsx:64-66 | the edited user, with every change made, is handed over |
| TeamEditUserDialog.ResetValue | src/components/team/EditUserDialog.tsx:43 | `user.permissions?.[id] \|\| false`: truthy, and exactly `true`, when the user's entry is |
| TeamEditUserDialog.ResetPermissions | src/components/team/EditUserDialog.tsx:42-45 | the reset map has exactly the four listed keys, each holding the user's value or false |
| TeamEditUserDialog.BuildResetPermissions | src/components/team/EditUserDialog.tsx:42-45 | the `reduce` loop builds exactly ResetPermissions |
| TeamEditUserDialog.SavedPermissions | src/components/team/EditUserDialog.tsx:53-58 | exactly the keys whose value is `=== true` are saved, each as true |
| TeamEditUserDialog.PermissionsToSave | src/components/team/EditUserDialog.tsx:53-58 | the filter-and-`reduce` loop over the entries builds exactly SavedPermissions |
| TeamEditUserDialog.ResaveKeepsTrueOnly | src/components/team/EditUserDialog.tsx:42-58 | saving an untouched form keeps exactly the listed permissions the user held as `true` |
| TeamEditUserDialog.GetPath | src/components/team/EditUserDialog.tsx:111 | reading a dotted field name: the empty path is the value itself, a path into a non-object is undefined |
| TeamEditUserDialog.SetPath | src/components/team/EditUserDialog.tsx:111 | writing a dotted field name adds or replaces the first segment and keeps every other key |
| TeamEditUserDialog.GetSetPath | src/components/team/EditUserDialog.tsx:111 | reading back a path just written gives the value written |
| TeamEditUserDialog.CheckedAsWritten | src/components/team/EditUserDialog.tsx:111-115 | the checkbox reads the nested path named by the dotted id; only an id without a dot reads its own flat key |
| TeamEditUserDialog.ToggleAsWritten | src/components/team/EditUserDialog.tsx:111-115 | as written: the checkbox writes to the nested path the dotted name stands for, where the checkbox reads it back |
| TeamEditUserDialog.IdPath | src/components/team/EditUserDialog.tsx:20-25 | each permission id splits into two segments, and its first segment is not itself a permission id |
| TeamEditUserDialog.ResetCheckboxBlankAsWritten | src/components/team/EditUserDialog.tsx:42-115 | as written: after a reset every checkbox reads undefined, even for a permission the user holds |
| TeamEditUserDialog.ToggleIgnoredAsWritten | src/components/team/EditUserDialog.tsx:111-115 | as written: ticking or clearing a checkbox never changes what is saved |
| TeamEditUserDialog.GrantLostAsWritten | src/components/team/EditUserDialog.tsx:53-58 | as written: ticking "funnels.create" for a user who lacks it does not save it |
| TeamEditUserDialog.Checked | src/components/team/EditUserDialog.tsx:115 | corrected: a checkbox shows the form's entry under its id, or undefined |
| TeamEditUserDialog.Toggle | src/components/team/EditUserDialog.tsx:115 | corrected: a checkbox change sets its own entry and keeps every other entry |
| TeamEditUserDialog.ResetCheckboxShowsHeld | src/components/team/EditUserDialog.tsx:42-45 | corrected: after a reset a checkbox is ticked exactly when the user holds the permission |
| TeamEditUserDialog.ToggleSaved | src/components/team/EditUserDialog.tsx:53-58 | corrected: a ticked permission is saved, a cleared one is not, and the others are saved as before |
| TeamEditUserDialog.TeamEditUserDialog.constructor | src/components/team/EditUserDialog.tsx:34-36 | no user, no role, no permissions |
| TeamEditUserDialog.TeamEditUserDialog.UserChanged | src/components/team/EditUserDialog.tsx:38-48 | a user resets the role and the permissions to ResetPermissions; no user leaves the form |
| TeamEditUserDialog.TeamEditUserDialog.RoleSelected | src/components/team/EditUserDialog.tsx:91 | the role becomes the selected one |
| TeamEditUserDialog.TeamEditUserDialog.CheckboxChange | src/components/team/EditUserDialog.tsx:111-115 | as written: the permissions become ToggleAsWritten of the old ones, the value written at the nested path the dotted field name stands for; a new first path segment joins the key order |
| TeamEditUserDialog.TeamEditUserDialog.Submit | src/components/team/EditUserDialog.tsx:50-63 | no user: no update; otherwise the update of that user's id with the role and SavedPermissions |
| Http.Json | supabase/functions/create-card/index.ts:28-31 | a JSON answer keeps its status and body and carries the CORS headers plus the JSON content type |
| Http.ErrorBody | supabase/functions/create-card/index.ts:82 | the error body's `error` entry is the message |
| CreateCardFunction.SplitBody | supabase/functions/create-card/index.ts:34-35 | the body splits into its `tasks` entry and every other entry; a `null` body cannot be split |
| CreateCardFunction.MissingRequired | supabase/functions/create-card/index.ts:38 | a body that passes the check holds both a `title` and a `stage_id` entry |
| CreateCardFunction.CardRow | supabase/functions/create-card/index.ts:48 | the inserted card keeps the body's entries and names the caller as creator, whatever the body said |
| CreateCardFunction.StoredCard | supabase/functions/create-card/index.ts:46-50 | the returned card is the inserted row, with the generated id when the row brought none |
| CreateCardFunction.HasTasks | supabase/functions/create-card/index.ts:58 | a body with tasks has a truthy `tasks` entry; an empty array is truthy yet inserts no tasks |
| CreateCardFunction.TaskRow | supabase/functions/create-card/index.ts:59-63 | each task keeps its own entries and is stamped with the card's id and the caller's id |
| CreateCardFunction.StampTasks | supabase/functions/create-card/index.ts:59-63 | one stamped row per task, in the tasks' order |
| CreateCardFunction.StampedTasksBelong | supabase/functions/create-card/index.ts:59-63 | every inserted task belongs to the new card and to the caller, whatever the body gave it |
| CreateCardFunction.TitleRequired | supabase/functions/create-card/index.ts:38-43 | a body without a title is refused, even with well-formed tasks |
| CreateCardFunction.Database.constructor | supabase/functions/create-card/index.ts:46-47 | the tables start with the given rows |
| CreateCardFunction.InsertCard | supabase/functions/create-card/index.ts:36-77 | 400 exactly when the title or stage is missing; a failed card insert answers 500 and writes nothing; otherwise the card is appended and returned with 201, its tasks are appended only when there are some and their insert succeeds, and a failed task insert keeps the card but answers 500 |
| CreateCardFunction.Handle | supabase/functions/create-card/index.ts:11-87 | preflight, 401 without a caller, 400 exactly when the title or stage is missing, 500 for an unparsable or `null` body or a failed insert, else the card is appended and returned with 201; tasks are appended only when there are some and their insert succeeds, and a failed task insert keeps the card but answers 500 |
| CreateUserFunction.LastNameOptional | supabase/functions/create-user/index.ts:23 | dropping the last name never makes a complete body incomplete |
| CreateUserFunction.MissingRequired | supabase/functions/create-user/index.ts:21-23 | a body that passes the check is an object holding `email`, `password`, `firstName` and `role` entries; the last name may be missing |
| CreateUserFunction.AlreadyRegisteredAnywhere | supabase/functions/create-user/index.ts:43 | any error text holding `already registered` anywhere is taken as a duplicate address |
| CreateUserFunction.Backend.constructor | supabase/functions/create-user/index.ts:16-19 | the accounts and roles start as given |
| CreateUserFunction.Handle | supabase/functions/create-user/index.ts:9-79 | preflight; 500 for an unparsable or `null` body; 400 with nothing created when a required field is missing; 409 for an address already registered, 500 for any other creation error or no account; on success the account is added and its role set; a failed role update leaves the roles as they were and removes the account again when the deletion succeeds |
| GenerateApiKeyFunction.LoadedSecret | supabase/functions/generate-api-key/index.ts:12-15 | the function loads exactly when the secret is set and non-empty |
| GenerateApiKeyFunction.Expiry | supabase/functions/generate-api-key/index.ts:53 | the expiry is the clock in whole seconds, rounded down, plus one year of 365 days |
| GenerateApiKeyFunction.ExpiresInAYear | supabase/functions/generate-api-key/index.ts:53 | the token expires no later than one year after issue and less than a second before that |
| GenerateApiKeyFunction.ExpiryMonotonic | supabase/functions/generate-api-key/index.ts:53 | a later request never gets an earlier expiry |
| GenerateApiKeyFunction.MakePayload | supabase/functions/generate-api-key/index.ts:54-60 | the claims name the caller as subject, the `authenticated` database role, the profile's role, the expiry and the issuer `supabase` |
| GenerateApiKeyFunction.Claims | supabase/functions/generate-api-key/index.ts:54-60 | the signed object holds exactly the five claims, with the payload's values |
| GenerateApiKeyFunction.ClaimsNameTheCaller | supabase/functions/generate-api-key/index.ts:55 | two different callers never receive the same claims |
| GenerateApiKeyFunction.Handle | supabase/functions/generate-api-key/index.ts:12-67 | no answer when the secret is missing; preflight; 401 without a caller; 404 without a profile; otherwise 200 with the signed claims as `apiKey`, or 500 with the error's message when signing throws; a key is only ever issued to a caller with a profile |

## Left out

- Dashboard.SumAmounts, Dashboard.CurrentRevenue, GoalProgressChart.RevenueByMonth and GoalProgressChart.MonthTotal: amounts are summed as exact reals, not as rounded doubles, and the order of the additions is not modelled (0.1 + 0.2 is 0.3 here, 0.30000000000000004 in the program); the proved inequalities hold under rounding too, since rounding is monotone.
- IndexPage.OnBoard: a board card keeps only the id, title and stage; the description and assignee that the column also displays are rendering only and are not modelled.
- `localeCompare` on the calendar's date keys: keys are ordered by code point (`Text.StrLess`), not by locale collation. The two agree on `YYYY-MM-DD` keys.
- Date formatting (`toLocaleDateString`, `formatDateLabel`, the chart's localised month labels): dates are an abstract year, month and day. Time zones and times of day are left out.
- GoalProgressChart: the chart's final sort by the localised month label is not modelled. The rows are stated in the order the code builds them: the goals' order, then the months in the order their revenue was first met. Each row carries its year and month instead of the label.
- CSV parsing (Papa Parse): the parsed rows are a parameter of the import. Only the reading of one cell (`ImportContactsDialog.CsvField`) is modelled, for the export round trip. Papa Parse's recovery from a malformed quoted cell, such as the `\"` the export writes for a double quote, is not modelled.
- ImportContactsDialog.ExportThenImport: holds only when the name, email and phone hold no `"`, backslash or control character. For such characters the export writes JSON escapes, which a CSV reader does not decode (`ImportContactsDialog.ExportDoublesBackslash`).
- File download (`Blob`, object URLs) and toasts: only the CSV text and the outcome of each handler are modelled.
- `Date.now()` and `Math.random()`: they are the parameters `stamp` and `draw`.
- ImportContactsDialog: generated ids are distinct only if the random text has no `-`. The model states that assumption rather than the probability.
- Reading `localStorage`: the parsed value is an `Option` parameter. `JSON.parse` of arbitrary text is not modelled.
- CreateUserDialog.Errors: the schema library's e-mail validation is the parameter `isEmail`.
- GoalGauge: `-0` and infinities are not modelled, because percentages are reals.
- JsNumbers.ParseNumber: reads the exact value of a literal. Rounding to a double is not modelled, so `"1e999"` is a huge finite number, not `Infinity`, and `"-0"` is 0.
- JsNumbers.FormatNumber: prints exact reals as plain decimals. JavaScript's exponent form at or above 1e21 and below 1e-6 (`1e+21`, `1e-7`) and `-0` are not modelled.
- GoalsPage.GoalsPage.constructor: the goal is printed as FormatNumber prints it, so a goal of 1e21 or more or below 1e-6 shows as a plain decimal rather than in exponent form.
- GoalsPage.GoalsPage.Save: inherits the two lines above. An entry of `"1e999"` stores a huge finite goal where the program stores `Infinity`, and the text box is reprinted as a plain decimal.
- CardFormDialog.AcceptNumber: refuses `Infinity`, which `z.number().min(0)` accepts. Amounts are reals, so an infinite amount has no representation.
- Text.LowerChar and Text.Lower: lower-case only A-Z and the Latin-1 capitals À-Þ (except ×). Letters of other scripts are kept as they are (Cyrillic "Иван" is not "иван"), and context-dependent mappings such as the Greek final sigma are not modelled.
- ContactsTable.Filtered: states the search for the Latin-1 lower-casing above. For other scripts the program's `toLowerCase` finds contacts the model does not.
- ContactsTable.TypingNarrows: holds for the Latin-1 lower-casing only. With the final sigma ("ΑΣ" lower-cases to "ας" but its prefix "Σ" to "σ") the program can lose a contact as the search grows.
- ContactsTable.FoundByName: holds for the Latin-1 lower-casing only, as above.
- ContactsTable.SearchIgnoresCase: holds for the Latin-1 lower-casing only, as above.
- GenerateApiKeyFunction.Handle: HS256 signing is the parameter `sign`, which answers the token or the message of the error it throws. The token's header and encoding are not modelled. Errors thrown elsewhere inside the `try` (building the client, a rejected query) are not modelled; a failed lookup is an error answer.
- Backend calls (Supabase queries, auth) are oracle parameters. Network failures are a failed answer.
- CreateCardFunction.Handle and CreateUserFunction.Handle: the message of the runtime `TypeError` thrown when a `null` body is read is the parameter `nullMessage`.
- CreateCardFunction.SplitBody: spreading a string or an array body is modelled as no entries, as is spreading a task that is not an object.
- CreateUserFunction.Handle: the created account in the 200 answer is reduced to its id. A failed compensating deletion is not reported, as in the source.
- CreateCardFunction.StoredCard: the database's generated columns other than `id` (timestamps, defaults) are not modelled.
- TeamEditUserDialog: react-hook-form's array containers (numeric path segments) are not modelled in the form paths. The toast and the closing after an update are left out.
- Users page saving and fetching: only the dialog's result is modelled.
- GoalsManager.GoalsManager.FetchGoals: the rows are taken in the order the database returns them.
- CreateFunnelDialog.DragEndResult: a drop on an id that is not in the list is not modelled, because the drag library only reports ids of the listed items.
- CreateFunnelDialog.RemoveAt and CreateFunnelDialog.InsertAt state only lengths and membership. They are helpers of the drag-and-drop move, whose contract is the permutation.

## Findings

| source | as written | input that shows it | evidently intended | confidence | as-written member | corrected member |
|---|---|---|---|---|---|---|
| src/components/crm/CardFormDialog.tsx:57-60 | the amount's preprocess maps `""` to `undefined` but an untouched field (`undefined`) to `Number(undefined)`, which is `NaN`, and the number schema refuses it | a new card with a title and no amount typed | an untouched amount is a missing amount, so the card is saved without one | not executed | CardFormDialog.NewCardRefusedAsWritten | CardFormDialog.NewCardAccepted |
| src/pages/Funnels.tsx:166-175 | the funnels page opens a new card by handing the form a draft without an amount; the form's edit reset (CardFormDialog.tsx:139-145) leaves the amount `undefined`, the preprocess makes it `NaN`, and the form refuses it | clicking "new card" on the funnels page, typing a title and saving | the new card is saved without an amount, in the first stage | not executed | CardFormDialog.PageNewCardRefusedAsWritten | CardFormDialog.PageNewCardAccepted |
| src/components/crm/CardFormDialog.tsx:142 | opening an existing card turns a missing or zero amount into `undefined` (`value \|\| undefined`), which the amount's preprocess then turns into `NaN` | re-saving, unchanged, a card whose amount is 0 or missing | the card is saved again, its zero amount as a missing one | not executed | CardFormDialog.EditFalsyRefusedAsWritten | CardFormDialog.EditUnchanged |
| src/components/team/EditUserDialog.tsx:111-115 | checkbox fields are named `permissions.<group>.<action>`, but the reset stores the permission ids as flat keys. The form library reads the dots as nesting, so a checkbox reads `undefined` and writes an object under `permissions.<group>`. Saving keeps only the entries equal to `true`, which are the flat ones set by the reset | ticking "funnels.create" for a user without it, then saving | the ticked permission is saved | not executed | TeamEditUserDialog.GrantLostAsWritten | TeamEditUserDialog.ToggleSaved |

=== FILE: calendar_page.dfy ===
/**
 * The calendar page: every task with a due date becomes an event on that
 * date, carrying its card's title and id; clicking a day selects the events
 * whose date text starts with the clicked day's text.
 */
module CalendarPage {
  import opened Wrappers
  import opened Text
  import opened CrmData

  /** A task as it is read back from storage: its due date is the stored text. */
  datatype StoredTask = StoredTask(id: string, text: string, completed: bool, dueDate: Option<string>)

  /** The part of a stored card the calendar reads. */
  datatype StoredCard = StoredCard(id: string, title: string, tasks: seq<StoredTask>)

  /** An event: the task's text on the task's date, with the owning card's title and id. */
  datatype TaskEvent = TaskEvent(title: string, date: string, cardTitle: string, cardId: string)

  /** `task.dueDate` is truthy. */
  predicate Dated(t: StoredTask) {
    t.dueDate.Some? && t.dueDate.value != ""
  }

  /** The events of one card's dated tasks, in task order. */
  function CardEvents(card: StoredCard, tasks: seq<StoredTask>): (r: seq<TaskEvent>)
    ensures |r| <= |tasks|
    ensures forall e :: e in r ==> exists t :: (t in tasks && Dated(t)
      && e == TaskEvent(t.text, t.dueDate.value, card.title, card.id))
    ensures forall t :: t in tasks && Dated(t) ==> TaskEvent(t.text, t.dueDate.value, card.title, card.id) in r
  {
    if tasks == [] then []
    else
      var t := tasks[0];
      var rest := CardEvents(card, tasks[1..]);
      assert forall u :: u in tasks <==> u == t || u in tasks[1..];
      (if Dated(t) then [TaskEvent(t.text, t.dueDate.value, card.title, card.id)] else []) + rest
  }

  /**
   * The events of a card are its dated tasks in task order: the `k`-th event
   * is made from the `k`-th dated task.
   */
  lemma {:induction false} CardEventsInOrder(card: StoredCard, tasks: seq<StoredTask>)
    ensures var dated := Filter(tasks, Dated);
      && |CardEvents(card, tasks)| == |dated|
      && forall k :: 0 <= k < |dated| ==>
           CardEvents(card, tasks)[k] == TaskEvent(dated[k].text, dated[k].dueDate.value, card.title, card.id)
  {
    if tasks != [] {
      CardEventsInOrder(card, tasks[1..]);
      var t := tasks[0];
      var rest := Filter(tasks[1..], Dated);
      if Dated(t) {
        assert Filter(tasks, Dated) == [t] + rest;
      } else {
        assert Filter(tasks, Dated) == rest;
      }
    }
  }

  /** `allCards.flatMap(...)`: every card's events, card after card. */
  function Events(cards: seq<StoredCard>): (r: seq<TaskEvent>)
    ensures forall e :: e in r ==> exists k :: 0 <= k < |cards| && e.cardId == cards[k].id && e.cardTitle == cards[k].title
  {
    if cards == [] then [] else CardEvents(cards[0], cards[0].tasks) + Events(cards[1..])
  }

  /** The number of dated tasks. */
  function DatedCount(tasks: seq<StoredTask>): nat {
    if tasks == [] then 0 else (if Dated(tasks[0]) then 1 else 0) + DatedCount(tasks[1..])
  }

  function DatedTotal(cards: seq<StoredCard>): nat {
    if cards == [] then 0 else DatedCount(cards[0].tasks) + DatedTotal(cards[1..])
  }

  lemma {:induction false} CardEventsCount(card: StoredCard, tasks: seq<StoredTask>)
    ensures |CardEvents(card, tasks)| == DatedCount(tasks)
  {
    if tasks != [] {
      CardEventsCount(card, tasks[1..]);
    }
  }

  /** There is one event per dated task. */
  lemma {:induction false} EventCount(cards: seq<StoredCard>)
    ensures |Events(cards)| == DatedTotal(cards)
  {
    if cards != [] {
      CardEventsCount(cards[0], cards[0].tasks);
      EventCount(cards[1..]);
    }
  }

  /** Events follow card order: the events of two runs of cards are those of the first, then the second's. */
  lemma {:induction false} EventsConcat(a: seq<StoredCard>, b: seq<StoredCard>)
    ensures Events(a + b) == Events(a) + Events(b)
  {
    if a == [] {
      assert a + b == b;
    } else {
      assert (a + b)[1..] == a[1..] + b;
      EventsConcat(a[1..], b);
    }
  }

  /** Every event comes from a dated task of some card, and carries that card's title and id. */
  lemma {:induction false} EventsFromTasks(cards: seq<StoredCard>, e: TaskEvent)
    requires e in Events(cards)
    ensures exists c, t :: (c in cards && t in c.tasks && Dated(t)
      && e == TaskEvent(t.text, t.dueDate.value, c.title, c.id))
  {
    var c := cards[0];
    if e in CardEvents(c, c.tasks) {
      var t :| t in c.tasks && Dated(t) && e == TaskEvent(t.text, t.dueDate.value, c.title, c.id);
      assert c in cards;
    } else {
      EventsFromTasks(cards[1..], e);
      var c', t :| c' in cards[1..] && t in c'.tasks && Dated(t) && e == TaskEvent(t.text, t.dueDate.value, c'.title, c'.id);
      assert c' in cards;
    }
  }

  function StartsOn(day: string): TaskEvent -> bool {
    (e: TaskEvent) => StartsWith(e.date, day)
  }

  /** `events.filter(event => event.date.startsWith(clickedDate))`. */
  function EventsOn(events: seq<TaskEvent>, day: string): (r: seq<TaskEvent>)
    ensures forall i :: 0 <= i < |r| ==> r[i] in events && StartsWith(r[i].date, day)
    ensures forall i :: 0 <= i < |events| && StartsWith(events[i].date, day) ==> events[i] in r
  {
    Filter(events, StartsOn(day))
  }

  /** An event stored with a time after the day (`2024-05-01T03:00:00.000Z`) is still found on that day. */
  lemma TimestampOnDay(events: seq<TaskEvent>, i: nat, day: string, time: string)
    requires i < |events| && events[i].date == day + time
    ensures events[i] in EventsOn(events, day)
  {
    assert (day + time)[..|day|] == day;
  }

  /** The page's state. */
  class CalendarPage {
    var events: seq<TaskEvent>
    var dialogOpen: bool
    var selectedDate: Option<Date>
    var selectedTasks: seq<TaskEvent>

    constructor ()
      ensures events == [] && !dialogOpen && selectedDate.None? && selectedTasks == []
    {
      events, dialogOpen, selectedDate, selectedTasks := [], false, None, [];
    }

    /**
     * The loading effect: the stored cards when storage holds a readable list
     * (`None` when it holds nothing or unreadable text), else the sample cards.
     */
    method Loaded(stored: Option<seq<StoredCard>>, sample: seq<StoredCard>)
      modifies this`events
      ensures events == Events(stored.GetOr(sample))
    {
      var all := if stored.Some? then stored.value else sample;
      events := Events(all);
    }

    /** `handleDateClick`. */
    method DateClick(dateStr: string, date: Date)
      modifies this`selectedDate, this`selectedTasks, this`dialogOpen
      ensures selectedDate == Some(date) && dialogOpen
      ensures selectedTasks == EventsOn(events, dateStr)
    {
      selectedDate := Some(date);
      selectedTasks := EventsOn(events, dateStr);
      dialogOpen := true;
    }
  }
}

=== FILE: card_form_dialog.dfy ===
/**
 * The card form: the values it holds, the schema they must pass before the
 * form hands them over, the task list it appends to, and the values it is
 * reset to when it opens on an existing card or on a new one.
 */
module CardFormDialog {
  import opened Wrappers
  import opened Text
  import opened JsNumbers
  import opened CrmData
  import FunnelsPage

  /**
   * What the amount field holds: nothing yet (`undefined`), a number put there
   * by a reset, or the text of the number input once the user has typed in it.
   */
  datatype AmountField = Unset | NumberField(x: real) | TextField(s: string)

  /** The form's values; a field the form was never given is `None`. */
  datatype FormValues = FormValues(
    id: Option<string>,
    title: Option<string>,
    companyName: Option<string>,
    businessType: Option<string>,
    description: Option<string>,
    contactId: Option<string>,
    stageId: Option<string>,
    tasks: Option<seq<Task>>,
    value: AmountField,
    source: Option<string>)

  // ---------------------------------------------------------------------------
  // The schema

  /** `taskSchema`: a task needs a non-empty text. */
  predicate TaskValid(t: Task) {
    |t.text| >= 1
  }

  predicate TasksValid(tasks: seq<Task>) {
    forall i :: 0 <= i < |tasks| ==> TaskValid(tasks[i])
  }

  /**
   * The `value` rule as written: `""` becomes `undefined`, anything else goes
   * through `Number(...)` and must then be a number of at least 0. The outer
   * `None` is a validation error; `Some(None)` is an accepted missing amount.
   * `Number(undefined)` is NaN, so an untouched field is an error.
   */
  function ParseAmountAsWritten(f: AmountField): (r: Option<Option<real>>)
    ensures f == TextField("") ==> r == Some(None)
    ensures f == Unset ==> r.None?
    ensures f.NumberField? ==> (r.Some? <==> f.x >= 0.0) && (r.Some? ==> r.value == Some(f.x))
    ensures r.Some? && r.value.Some? ==> r.value.value >= 0.0
  {
    match f
    case Unset => AcceptNumber(NaN)
    case NumberField(x) => AcceptNumber(Num(x))
    case TextField(s) => if s == "" then Some(None) else AcceptNumber(ParseNumber(s))
  }

  /** `z.number().min(0)` on the result of `Number(...)`; an infinite amount is refused. */
  function AcceptNumber(n: JsNumber): (r: Option<Option<real>>)
    ensures r.Some? <==> n.Num? && n.value >= 0.0
    ensures r.Some? ==> r.value == Some(n.value)
  {
    if n.Num? && n.value >= 0.0 then Some(Some(n.value)) else None
  }

  /**
   * The `value` rule as evidently intended: an untouched field is a missing
   * amount, like an emptied one.
   */
  function ParseAmount(f: AmountField): (r: Option<Option<real>>)
    ensures f == Unset || f == TextField("") ==> r == Some(None)
    ensures f != Unset ==> r == ParseAmountAsWritten(f)
    ensures r.Some? && r.value.Some? ==> r.value.value >= 0.0
  {
    if f == Unset then Some(None) else ParseAmountAsWritten(f)
  }

  /** Typing the decimal text of an amount gives that amount back. */
  lemma TypedAmountRoundTrip(x: real, j: nat)
    requires x >= 0.0 && j <= 20 && ExactAt(x, j)
    ensures ParseAmount(TextField(FormatNumber(Num(x)))) == Some(Some(x))
  {
    ParseFormatRoundTrip(x, j);
  }

  /** A negative or non-numeric text is refused. */
  lemma BadAmountRefused(s: string)
    requires s != "" && (ParseNumber(s).NaN? || (ParseNumber(s).Num? && ParseNumber(s).value < 0.0))
    ensures ParseAmount(TextField(s)).None?
  {
  }

  /** `cardSchema`: what the form hands over, or `None` when a rule fails. */
  function ValidateWith(v: FormValues, amount: Option<Option<real>>): (r: Option<CardForm>)
    ensures r.Some? <==>
      && v.title.Some? && |v.title.value| >= 1
      && v.stageId.Some? && |v.stageId.value| >= 1
      && (v.tasks.Some? ==> TasksValid(v.tasks.value))
      && amount.Some?
    ensures r.Some? ==>
      && r.value.title == v.title.value && r.value.stageId == v.stageId.value
      && r.value.id == v.id && r.value.tasks == v.tasks && r.value.value == amount.value
      && r.value.contactId == v.contactId && r.value.source == v.source
      && r.value.companyName == v.companyName && r.value.businessType == v.businessType
      && r.value.description == v.description
  {
    if v.title.Some? && |v.title.value| >= 1 && v.stageId.Some? && |v.stageId.value| >= 1
       && (v.tasks.Some? ==> TasksValid(v.tasks.value)) && amount.Some?
    then Some(CardForm(v.id, v.title.value, v.companyName, v.businessType, v.description, v.contactId,
                       v.stageId.value, v.tasks, amount.value, v.source))
    else None
  }

  function ValidateAsWritten(v: FormValues): (r: Option<CardForm>)
    ensures v.value == Unset ==> r.None?
  {
    ValidateWith(v, ParseAmountAsWritten(v.value))
  }

  function Validate(v: FormValues): (r: Option<CardForm>)
    ensures ValidateAsWritten(v).Some? ==> r == ValidateAsWritten(v)
    ensures v.value == Unset ==> (r.Some? <==> ValidateWith(v, Some(None)).Some?)
  {
    ValidateWith(v, ParseAmount(v.value))
  }

  // ---------------------------------------------------------------------------
  // Resets

  /** The form values when it opens on an existing card: a falsy amount (missing or 0) becomes `undefined`. */
  function EditReset(initial: CardDraft): (v: FormValues)
    ensures initial.value.Some? && initial.value.value != 0.0 ==> v.value == NumberField(initial.value.value)
    ensures initial.value.None? || initial.value.value == 0.0 ==> v.value == Unset
    ensures v.tasks == Some(initial.tasks.GetOr([]))
    ensures v.id == initial.id && v.title == initial.title && v.stageId == initial.stageId
  {
    FormValues(initial.id, initial.title, initial.companyName, initial.businessType, initial.description,
               initial.contactId, initial.stageId, Some(initial.tasks.GetOr([])),
               if initial.value.Some? && initial.value.value != 0.0 then NumberField(initial.value.value) else Unset,
               initial.source)
  }

  /** The form values for a new card: blank texts, the first stage, no tasks, no amount. */
  function NewReset(stages: seq<Stage>): (v: FormValues)
    ensures v.id.None? && v.title == Some("") && v.tasks == Some([]) && v.value == Unset
    ensures v.stageId == Some(if stages == [] then "" else stages[0].id)
  {
    FormValues(None, Some(""), Some(""), Some(""), Some(""), Some(""),
               Some(if stages == [] then "" else stages[0].id), Some([]), Unset, Some(""))
  }

  /**
   * As written, a new card cannot be saved until an amount is typed: whatever
   * title and stage are filled in, the untouched amount fails the schema.
   */
  lemma NewCardRefusedAsWritten(stages: seq<Stage>, title: string)
    ensures ValidateAsWritten(NewReset(stages).(title := Some(title))).None?
  {
  }

  /** With the intended rule, a new card with a title and a stage is accepted without an amount. */
  lemma NewCardAccepted(stages: seq<Stage>, title: string)
    requires |title| >= 1 && stages != [] && |stages[0].id| >= 1
    ensures var r := Validate(NewReset(stages).(title := Some(title)));
            r.Some? && r.value.value.None? && r.value.title == title && r.value.stageId == stages[0].id
  {
  }

  /**
   * The funnels page opens the form for a new card on the draft of its "new
   * card" button, so the form takes the card branch of the reset. As written,
   * that card cannot be saved either until an amount is typed: the draft has
   * no amount, the reset leaves the field untouched, and the schema refuses it.
   */
  lemma PageNewCardRefusedAsWritten(stages: seq<Stage>, title: string)
    ensures ValidateAsWritten(EditReset(FunnelsPage.NewCardDraft(stages)).(title := Some(title))).None?
  {
  }

  /**
   * With the intended rule, the page's new card with a title on an existing
   * stage is accepted, with no amount and no tasks.
   */
  lemma PageNewCardAccepted(stages: seq<Stage>, title: string)
    requires |title| >= 1 && stages != [] && |stages[0].id| >= 1
    ensures var r := Validate(EditReset(FunnelsPage.NewCardDraft(stages)).(title := Some(title)));
            && r.Some? && r.value.value.None? && r.value.tasks == Some([])
            && r.value.title == title && r.value.stageId == stages[0].id
  {
  }

  /**
   * As written, opening an existing card and submitting it unchanged hands
   * back its fields when its amount is above 0.
   */
  lemma EditUnchangedAsWritten(c: Card)
    requires |c.title| >= 1 && |c.stageId| >= 1 && TasksValid(c.tasks)
    requires c.value.Some? && c.value.value > 0.0
    ensures var r := ValidateAsWritten(EditReset(CardToDraft(c)));
      && r.Some?
      && r.value == CardForm(Some(c.id), c.title, c.companyName, c.businessType, c.description, c.contactId,
                             c.stageId, Some(c.tasks), c.value, c.source)
  {
  }

  /**
   * As written, a card with no amount or an amount of 0 cannot be saved again
   * unchanged: the reset leaves the amount untouched, and the schema refuses it.
   */
  lemma EditFalsyRefusedAsWritten(c: Card)
    requires c.value.None? || c.value == Some(0.0)
    ensures ValidateAsWritten(EditReset(CardToDraft(c))).None?
  {
  }

  /**
   * With the intended rule, opening an existing card and submitting it
   * unchanged hands back its fields; only an amount of 0 comes back as missing.
   */
  lemma EditUnchanged(c: Card)
    requires |c.title| >= 1 && |c.stageId| >= 1 && TasksValid(c.tasks)
    requires c.value.Some? ==> c.value.value >= 0.0
    ensures var r := Validate(EditReset(CardToDraft(c)));
      && r.Some?
      && r.value == CardForm(Some(c.id), c.title, c.companyName, c.businessType, c.description, c.contactId,
                             c.stageId, Some(c.tasks), if c.value == Some(0.0) then None else c.value, c.source)
  {
  }

  // ---------------------------------------------------------------------------
  // Tasks

  /** `task-${Date.now()}`. */
  function TaskId(stamp: nat): string {
    "task-" + NatToString(stamp)
  }

  /** The task list after `handleAddTask`: a blank text adds nothing. */
  function AddTaskResult(tasks: seq<Task>, text: string, dueDate: Option<Date>, stamp: nat): (r: seq<Task>)
    ensures AllSpace(text) ==> r == tasks
    ensures !AllSpace(text) ==> |r| == |tasks| + 1 && r[..|tasks|] == tasks
    ensures !AllSpace(text) ==> r[|tasks|] == Task(TaskId(stamp), Trim(text), false, dueDate)
  {
    if |Trim(text)| > 0 then
      var r := tasks + [Task(TaskId(stamp), Trim(text), false, dueDate)];
      assert r[..|tasks|] == tasks;
      r
    else tasks
  }

  /** Adding a task keeps every task valid for the schema. */
  lemma AddTaskKeepsValid(tasks: seq<Task>, text: string, dueDate: Option<Date>, stamp: nat)
    requires TasksValid(tasks)
    ensures TasksValid(AddTaskResult(tasks, text, dueDate, stamp))
  {
    var r := AddTaskResult(tasks, text, dueDate, stamp);
    if !AllSpace(text) {
      forall i | 0 <= i < |r| ensures TaskValid(r[i]) {
        if i < |tasks| {
          assert r[i] == r[..|tasks|][i];
        }
      }
    }
  }

  class CardFormDialog {
    var values: FormValues
    var newTaskText: string
    var newTaskDueDate: Option<Date>

    constructor ()
      ensures values.tasks == Some([]) && newTaskText == "" && newTaskDueDate.None?
    {
      values := FormValues(None, None, None, None, None, None, None, Some([]), Unset, None);
      newTaskText, newTaskDueDate := "", None;
    }

    /** `handleAddTask`: appends the task and clears both inputs, or does nothing for a blank text. */
    method AddTask(stamp: nat)
      modifies this`values, this`newTaskText, this`newTaskDueDate
      ensures AllSpace(old(newTaskText)) ==>
        values == old(values) && newTaskText == old(newTaskText) && newTaskDueDate == old(newTaskDueDate)
      ensures !AllSpace(old(newTaskText)) ==>
        && values == old(values).(tasks := Some(AddTaskResult(old(values).tasks.GetOr([]), old(newTaskText), old(newTaskDueDate), stamp)))
        && newTaskText == "" && newTaskDueDate.None?
    {
      if |Trim(newTaskText)| > 0 {
        var tasks := AddTaskResult(values.tasks.GetOr([]), newTaskText, newTaskDueDate, stamp);
        values := values.(tasks := Some(tasks));
        newTaskText := "";
        newTaskDueDate := None;
      }
    }

    /** The reset effect: on opening, the form takes the card's values or the new-card defaults. */
    method Opened(isOpen: bool, initial: Option<CardDraft>, stages: seq<Stage>)
      modifies this`values
      ensures !isOpen ==> values == old(values)
      ensures isOpen && initial.Some? ==> values == EditReset(initial.value)
      ensures isOpen && initial.None? ==> values == NewReset(stages)
    {
      if isOpen && initial.Some? {
        values := EditReset(initial.value);
      } else if isOpen {
        values := NewReset(stages);
      }
    }

    /**
     * `onSubmit`: what reaches `onSave`, if the values pass the schema as
     * written. An untouched amount is refused; otherwise the intended rule
     * gives the same answer.
     */
    function Submitted(): (r: Option<CardForm>)
      reads this
      ensures r.Some? ==> r.value.title != "" && r.value.stageId != ""
      ensures r.Some? && r.value.tasks.Some? ==> TasksValid(r.value.tasks.value)
      ensures r.Some? && r.value.value.Some? ==> r.value.value.value >= 0.0
      ensures values.value == Unset ==> r.None?
      ensures values.value != Unset ==> r == Validate(values)
    {
      ValidateAsWritten(values)
    }

    /** What reaches `onSave` under the intended rule, where an untouched amount is a missing one. */
    function SubmittedIntended(): (r: Option<CardForm>)
      reads this
      ensures r.Some? ==> r.value.title != "" && r.value.stageId != ""
      ensures r.Some? && r.value.tasks.Some? ==> TasksValid(r.value.tasks.value)
      ensures r.Some? && r.value.value.Some? ==> r.value.value.value >= 0.0
      ensures Submitted().Some? ==> r == Submitted()
    {
      Validate(values)
    }
  }
}

=== FILE: contacts.dfy ===
/**
 * The contacts page: the stored contact list, the form that creates or edits
 * a contact, the delete confirmation, the import of parsed rows and the CSV
 * export.
 */
module ContactsPage {
  import opened Wrappers
  import opened Text
  import opened CrmData
  import opened JsonText

  /** What the contact form hands over; it carries an `id` only when it was opened on a stored contact. */
  datatype ContactInput = ContactInput(
    id: Option<string>,
    name: string,
    email: Option<string>,
    phone: Option<string>,
    company: Option<string>,
    role: Option<string>,
    industry: Option<string>,
    companyUrl: Option<string>,
    address: Option<string>)

  /** The form's values when it opens on a stored contact. */
  function ToInput(c: Contact): ContactInput {
    ContactInput(Some(c.id), c.name, c.email, c.phone, c.company, c.role, c.industry, c.companyUrl, c.address)
  }

  /** `if (data.id)`: a submission with a non-empty id edits a stored contact. */
  predicate IsEdit(data: ContactInput) {
    data.id.Some? && data.id.value != ""
  }

  /** `{ ...c, ...data }`: the form carries every field, so each one replaces the stored value. */
  function Merge(c: Contact, data: ContactInput): (r: Contact)
    ensures r.id == (if data.id.Some? then data.id.value else c.id)
    ensures ToInput(r) == data.(id := Some(r.id))
  {
    Contact(if data.id.Some? then data.id.value else c.id,
            data.name, data.email, data.phone, data.company, data.role, data.industry, data.companyUrl, data.address)
  }

  /** Submitting the form unchanged leaves the contact as it was. */
  lemma MergeUnchanged(c: Contact)
    ensures Merge(c, ToInput(c)) == c
  {
  }

  /** Reopening an edited contact shows what was submitted. */
  lemma EditReadsBack(c: Contact, data: ContactInput)
    requires data.id == Some(c.id)
    ensures ToInput(Merge(c, data)) == data
  {
  }

  /** The list after an edit: every contact with the submitted id is merged with the form, the others stay. */
  function UpdateContacts(contacts: seq<Contact>, data: ContactInput): (r: seq<Contact>)
    requires data.id.Some?
    ensures |r| == |contacts|
    ensures forall i :: 0 <= i < |r| ==> r[i].id == contacts[i].id
    ensures forall i :: 0 <= i < |r| && contacts[i].id != data.id.value ==> r[i] == contacts[i]
    ensures forall i :: 0 <= i < |r| && contacts[i].id == data.id.value ==> ToInput(r[i]) == data
  {
    if contacts == [] then []
    else
      var c := contacts[0];
      var rest := UpdateContacts(contacts[1..], data);
      var r := [if c.id == data.id.value then Merge(c, data) else c] + rest;
      assert forall i :: 1 <= i < |r| ==> r[i] == rest[i - 1] && contacts[i] == contacts[1..][i - 1];
      r
  }

  /** An edit whose id matches no contact changes nothing. */
  lemma UpdateAbsent(contacts: seq<Contact>, data: ContactInput)
    requires data.id.Some? && forall i :: 0 <= i < |contacts| ==> contacts[i].id != data.id.value
    ensures UpdateContacts(contacts, data) == contacts
  {
  }

  /** `contact-${Date.now()}`. */
  function ContactId(stamp: nat): string {
    "contact-" + NatToString(stamp)
  }

  /** `{ id: ..., ...data }`: an `id` the form carries wins over the generated one. */
  function NewContact(data: ContactInput, stamp: nat): (c: Contact)
    ensures data.id.None? ==> c.id == ContactId(stamp)
    ensures ToInput(c) == data.(id := Some(c.id))
  {
    Contact(if data.id.Some? then data.id.value else ContactId(stamp),
            data.name, data.email, data.phone, data.company, data.role, data.industry, data.companyUrl, data.address)
  }

  /** The list after `handleContactSubmit`. */
  function SubmitResult(contacts: seq<Contact>, data: ContactInput, stamp: nat): (r: seq<Contact>)
    ensures IsEdit(data) ==> r == UpdateContacts(contacts, data)
    ensures !IsEdit(data) ==> |r| == |contacts| + 1 && r[..|contacts|] == contacts && r[|contacts|] == NewContact(data, stamp)
  {
    if IsEdit(data) then UpdateContacts(contacts, data)
    else
      var r := contacts + [NewContact(data, stamp)];
      assert r[..|contacts|] == contacts;
      r
  }

  /** No two contacts share an id. */
  predicate IdsDistinct(contacts: seq<Contact>) {
    forall i, j :: 0 <= i < j < |contacts| ==> contacts[i].id != contacts[j].id
  }

  predicate HasContact(contacts: seq<Contact>, id: string) {
    exists i :: 0 <= i < |contacts| && contacts[i].id == id
  }

  /**
   * Submitting keeps the ids distinct, provided a new contact's generated id
   * is not taken yet (two creations within the same millisecond would clash).
   */
  lemma SubmitKeepsIdsDistinct(contacts: seq<Contact>, data: ContactInput, stamp: nat)
    requires IdsDistinct(contacts)
    requires !IsEdit(data) ==> !HasContact(contacts, NewContact(data, stamp).id)
    ensures IdsDistinct(SubmitResult(contacts, data, stamp))
  {
    var r := SubmitResult(contacts, data, stamp);
    if !IsEdit(data) {
      forall i, j | 0 <= i < j < |r| ensures r[i].id != r[j].id {
        assert r[i] == contacts[i];
        if j < |contacts| {
          assert r[j] == contacts[j];
        }
      }
    }
  }

  // ---------------------------------------------------------------------------
  // Deleting

  function KeepsOut(id: string): Contact -> bool {
    (c: Contact) => c.id != id
  }

  /** `prev.filter(c => c.id !== contactToDelete)`. */
  function RemoveContact(contacts: seq<Contact>, id: string): (r: seq<Contact>)
    ensures !HasContact(r, id)
    ensures forall i :: 0 <= i < |contacts| && contacts[i].id != id ==> contacts[i] in r
    ensures forall i :: 0 <= i < |r| ==> r[i] in contacts
  {
    Filter(contacts, KeepsOut(id))
  }

  /** The number of contacts with the given id. */
  function CountWithId(contacts: seq<Contact>, id: string): nat {
    if contacts == [] then 0 else (if contacts[0].id == id then 1 else 0) + CountWithId(contacts[1..], id)
  }

  /** Deleting takes away exactly the contacts with that id. */
  lemma {:induction false} RemoveCount(contacts: seq<Contact>, id: string)
    ensures |RemoveContact(contacts, id)| == |contacts| - CountWithId(contacts, id)
  {
    if contacts != [] {
      RemoveCount(contacts[1..], id);
    }
  }

  /** With distinct ids, at most one contact has a given id, and one does when it is listed. */
  lemma {:induction false} CountDistinct(contacts: seq<Contact>, id: string)
    requires IdsDistinct(contacts)
    ensures CountWithId(contacts, id) == if HasContact(contacts, id) then 1 else 0
  {
    if contacts != [] {
      var rest := contacts[1..];
      assert IdsDistinct(rest) by {
        forall i, j | 0 <= i < j < |rest| ensures rest[i].id != rest[j].id {
          assert rest[i] == contacts[i + 1] && rest[j] == contacts[j + 1];
        }
      }
      CountDistinct(rest, id);
      if HasContact(rest, id) {
        var k :| 0 <= k < |rest| && rest[k].id == id;
        assert contacts[k + 1] == rest[k];
      }
      if HasContact(contacts, id) && contacts[0].id != id {
        var k :| 0 <= k < |contacts| && contacts[k].id == id;
        assert rest[k - 1] == contacts[k];
      }
    }
  }

  /** Deleting a listed contact shortens a list of distinct ids by exactly one. */
  lemma RemoveOne(contacts: seq<Contact>, id: string)
    requires IdsDistinct(contacts) && HasContact(contacts, id)
    ensures |RemoveContact(contacts, id)| == |contacts| - 1
  {
    RemoveCount(contacts, id);
    CountDistinct(contacts, id);
  }

  /** Creating a contact and deleting it again restores the list. */
  lemma CreateThenDelete(contacts: seq<Contact>, data: ContactInput, stamp: nat)
    requires !IsEdit(data)
    requires !HasContact(contacts, NewContact(data, stamp).id)
    ensures RemoveContact(SubmitResult(contacts, data, stamp), NewContact(data, stamp).id) == contacts
  {
    var c := NewContact(data, stamp);
    assert SubmitResult(contacts, data, stamp) == contacts + [c];
    FilterConcat(contacts, [c], KeepsOut(c.id));
    FilterAll(contacts, KeepsOut(c.id));
    assert Filter([c], KeepsOut(c.id)) == [];
  }

  // ---------------------------------------------------------------------------
  // Exporting

  /** The exported columns. */
  const CsvHeaders: seq<string> := ["id", "name", "email", "phone", "company"]

  /** `JSON.stringify(value || '')`. */
  function CsvCell(value: Option<string>): (r: string)
    ensures Unquote(r) == Some(value.GetOr(""))
    ensures '\n' !in r
    ensures ',' in r <==> ',' in value.GetOr("")
  {
    UnquoteQuote(value.GetOr(""));
    Quote(value.GetOr(""))
  }

  /** One contact's line: the five cells joined by commas. */
  function CsvRow(c: Contact): (r: string)
    ensures '\n' !in r
    ensures |r| >= |Quote(c.id)| && r[..|Quote(c.id)|] == Quote(c.id)
  {
    FiveCellsLine(Quote(c.id), Quote(c.name), CsvCell(c.email), CsvCell(c.phone), CsvCell(c.company));
    Join([Quote(c.id), Quote(c.name), CsvCell(c.email), CsvCell(c.phone), CsvCell(c.company)], ',')
  }

  function CsvRows(contacts: seq<Contact>): (r: seq<string>)
    ensures |r| == |contacts|
    ensures forall k :: 0 <= k < |r| ==> r[k] == CsvRow(contacts[k])
  {
    if contacts == [] then [] else [CsvRow(contacts[0])] + CsvRows(contacts[1..])
  }

  /** The text of the exported file: the header line, then one line per contact. */
  function CsvText(contacts: seq<Contact>): (r: string)
    ensures |r| >= 27 && r[..27] == "id,name,email,phone,company"
  {
    HeaderLine();
    Join([Join(CsvHeaders, ',')] + CsvRows(contacts), '\n')
  }

  /** The header line names the columns, separated by commas. */
  lemma HeaderLine()
    ensures Join(CsvHeaders, ',') == "id,name,email,phone,company"
  {
    JoinFive("id", "name", "email", "phone", "company");
  }

  /** No line of the export holds a line break, since every cell is a JSON string literal. */
  lemma CsvRowOneLine(c: Contact)
    ensures '\n' !in CsvRow(c)
  {
  }

  lemma HeaderOneLine()
    ensures '\n' !in Join(CsvHeaders, ',')
  {
    HeaderLine();
  }

  /** No contact's line holds a line break. */
  lemma CsvRowsOneLine(contacts: seq<Contact>)
    ensures forall k :: 0 <= k < |CsvRows(contacts)| ==> '\n' !in CsvRows(contacts)[k]
  {
    forall k | 0 <= k < |contacts| ensures '\n' !in CsvRow(contacts[k]) {
      CsvRowOneLine(contacts[k]);
    }
  }

  /** The exported file has the header line and then exactly one line per contact, in list order. */
  lemma CsvLines(contacts: seq<Contact>)
    ensures Split(CsvText(contacts), '\n') == [Join(CsvHeaders, ',')] + CsvRows(contacts)
    ensures |Split(CsvText(contacts), '\n')| == |contacts| + 1
  {
    var rows := CsvRows(contacts);
    var lines := [Join(CsvHeaders, ',')] + rows;
    HeaderOneLine();
    CsvRowsOneLine(contacts);
    forall i | 0 <= i < |lines| ensures '\n' !in lines[i] {
      if i > 0 {
        assert lines[i] == rows[i - 1];
      }
    }
    SplitJoin(lines, '\n');
  }

  /** Five pieces joined by commas, written out. */
  lemma JoinFive(a: string, b: string, c: string, d: string, e: string)
    ensures Join([a, b, c, d, e], ',') == a + [','] + b + [','] + c + [','] + d + [','] + e
  {
    assert [d, e][1..] == [e];
    assert Join([d, e], ',') == d + [','] + e;
    assert [c, d, e][1..] == [d, e];
    assert Join([c, d, e], ',') == c + [','] + (d + [','] + e);
    assert [b, c, d, e][1..] == [c, d, e];
    assert Join([b, c, d, e], ',') == b + [','] + (c + [','] + (d + [','] + e));
    assert [a, b, c, d, e][1..] == [b, c, d, e];
    assert Join([a, b, c, d, e], ',') == a + [','] + (b + [','] + (c + [','] + (d + [','] + e)));
  }

  /** Five cells without line breaks make one line, which starts with the first cell. */
  lemma FiveCellsLine(a: string, b: string, c: string, d: string, e: string)
    requires '\n' !in a && '\n' !in b && '\n' !in c && '\n' !in d && '\n' !in e
    ensures '\n' !in Join([a, b, c, d, e], ',')
    ensures |Join([a, b, c, d, e], ',')| >= |a| && Join([a, b, c, d, e], ',')[..|a|] == a
  {
    JoinAvoids([a, b, c, d, e], ',', '\n');
  }

  /** Five comma-free cells joined by commas split back into the same five cells. */
  lemma FiveCells(a: string, b: string, c: string, d: string, e: string)
    requires ',' !in a && ',' !in b && ',' !in c && ',' !in d && ',' !in e
    ensures Split(Join([a, b, c, d, e], ','), ',') == [a, b, c, d, e]
  {
    SplitJoin([a, b, c, d, e], ',');
  }

  /**
   * A line reads back cell by cell when no exported value holds a comma: it
   * splits into five JSON string literals that decode to the id, the name and
   * the email, phone and company (blank when missing).
   */
  lemma CsvRowReadsBack(c: Contact)
    requires ',' !in c.id && ',' !in c.name
    requires ',' !in c.email.GetOr("") && ',' !in c.phone.GetOr("") && ',' !in c.company.GetOr("")
    ensures var cells := Split(CsvRow(c), ',');
      && |cells| == 5
      && Unquote(cells[0]) == Some(c.id) && Unquote(cells[1]) == Some(c.name)
      && Unquote(cells[2]) == Some(c.email.GetOr("")) && Unquote(cells[3]) == Some(c.phone.GetOr(""))
      && Unquote(cells[4]) == Some(c.company.GetOr(""))
  {
    FiveCells(Quote(c.id), Quote(c.name), CsvCell(c.email), CsvCell(c.phone), CsvCell(c.company));
    UnquoteQuote(c.id);
    UnquoteQuote(c.name);
  }

  // ---------------------------------------------------------------------------
  // The page

  class ContactsPage {
    var contacts: seq<Contact>
    var importOpen: bool
    var deleteConfirmOpen: bool
    var contactToDelete: Option<string>
    var editOpen: bool
    var contactToEdit: Option<Contact>

    /** The page starts from the stored list (or the sample contacts), with every dialog closed. */
    constructor (stored: seq<Contact>)
      ensures contacts == stored && !importOpen && !deleteConfirmOpen && !editOpen
      ensures contactToDelete.None? && contactToEdit.None?
    {
      contacts := stored;
      importOpen, deleteConfirmOpen, editOpen := false, false, false;
      contactToDelete, contactToEdit := None, None;
    }

    /** `handleContactSubmit`: an edit also closes the edit dialog. */
    method Submit(data: ContactInput, stamp: nat)
      modifies this`contacts, this`editOpen, this`contactToEdit
      ensures contacts == SubmitResult(old(contacts), data, stamp)
      ensures IsEdit(data) ==> !editOpen && contactToEdit.None?
      ensures !IsEdit(data) ==> editOpen == old(editOpen) && contactToEdit == old(contactToEdit)
    {
      if data.id.Some? && data.id.value != "" {
        contacts := UpdateContacts(contacts, data);
        editOpen := false;
        contactToEdit := None;
      } else {
        contacts := contacts + [NewContact(data, stamp)];
      }
    }

    /** `handleEditRequest`. */
    method EditRequest(c: Contact)
      modifies this`contactToEdit, this`editOpen
      ensures contactToEdit == Some(c) && editOpen
    {
      contactToEdit := Some(c);
      editOpen := true;
    }

    /** `handleDeleteRequest`: remember the id and ask for confirmation. */
    method DeleteRequest(id: string)
      modifies this`contactToDelete, this`deleteConfirmOpen
      ensures contactToDelete == Some(id) && deleteConfirmOpen
    {
      contactToDelete := Some(id);
      deleteConfirmOpen := true;
    }

    /** `handleDeleteConfirm`: delete when an id is pending, then close and forget it. */
    method DeleteConfirm()
      modifies this`contacts, this`deleteConfirmOpen, this`contactToDelete
      ensures old(contactToDelete).Some? && old(contactToDelete).value != "" ==>
        contacts == RemoveContact(old(contacts), old(contactToDelete).value)
      ensures old(contactToDelete).None? || old(contactToDelete).value == "" ==> contacts == old(contacts)
      ensures !deleteConfirmOpen && contactToDelete.None?
    {
      if contactToDelete.Some? && contactToDelete.value != "" {
        contacts := RemoveContact(contacts, contactToDelete.value);
      }
      deleteConfirmOpen := false;
      contactToDelete := None;
    }

    /** The "Cancelar" button forgets the pending id; the list stays. */
    method DeleteCancel()
      modifies this`contactToDelete
      ensures contactToDelete.None?
    {
      contactToDelete := None;
    }

    /** `handleImport`: the imported contacts go after the stored ones. */
    method Import(newContacts: seq<Contact>)
      modifies this`contacts
      ensures contacts == old(contacts) + newContacts
    {
      contacts := contacts + newContacts;
    }

    /** `handleExportCSV`: the text of `contatos.csv`, one line per contact after the header. */
    function ExportCsv(): (text: string)
      reads this
      ensures |Split(text, '\n')| == |contacts| + 1
    {
      CsvLines(contacts);
      CsvText(contacts)
    }
  }
}

=== FILE: contacts_table.dfy ===
/**
 * The contacts table's search box: a contact is listed when the search text,
 * lower-cased, occurs in its lower-cased name, company, email, phone, role or
 * industry.
 */
module ContactsTable {
  import opened Wrappers
  import opened Text
  import opened CrmData

  /** `field?.toLowerCase().includes(q)`: a missing field never matches. */
  predicate FieldMatches(field: Option<string>, q: string) {
    field.Some? && Contains(Lower(field.value), q)
  }

  /** The test `filteredContacts` applies to each contact. */
  predicate Matches(c: Contact, term: string)
    ensures term == [] ==> Matches(c, term)
  {
    var q := Lower(term);
    || Contains(Lower(c.name), q)
    || FieldMatches(c.company, q) || FieldMatches(c.email, q) || FieldMatches(c.phone, q)
    || FieldMatches(c.role, q) || FieldMatches(c.industry, q)
  }

  function MatchesTerm(term: string): Contact -> bool {
    (c: Contact) => Matches(c, term)
  }

  /** The contacts listed for a search text, in list order. */
  function Filtered(contacts: seq<Contact>, term: string): (r: seq<Contact>)
    ensures forall i :: 0 <= i < |r| ==> r[i] in contacts && Matches(r[i], term)
    ensures forall i :: 0 <= i < |contacts| && Matches(contacts[i], term) ==> contacts[i] in r
  {
    Filter(contacts, MatchesTerm(term))
  }

  /** Every text contains the empty text. */
  lemma ContainsEmpty(s: string)
    ensures Contains(s, "")
  {
    assert s[..0] == "";
  }

  /** An empty search box lists every contact. */
  lemma EmptySearchListsAll(contacts: seq<Contact>)
    ensures Filtered(contacts, "") == contacts
  {
    forall i | 0 <= i < |contacts| ensures Matches(contacts[i], "") {
      ContainsEmpty(Lower(contacts[i].name));
      assert Lower("") == "";
    }
    FilterAll(contacts, MatchesTerm(""));
  }

  /** Lower-casing twice is lower-casing once. */
  lemma LowerIdempotent(s: string)
    ensures Lower(Lower(s)) == Lower(s)
  {
  }

  /** Searching ignores letter case: a term and its lower-case form list the same contacts. */
  lemma SearchIgnoresCase(contacts: seq<Contact>, term: string)
    ensures Filtered(contacts, Lower(term)) == Filtered(contacts, term)
  {
    LowerIdempotent(term);
    FilterSameTest(contacts, MatchesTerm(Lower(term)), MatchesTerm(term));
  }

  /** Two tests that agree on every element keep the same elements. */
  lemma {:induction false} FilterSameTest<T>(xs: seq<T>, p: T -> bool, q: T -> bool)
    requires forall i :: 0 <= i < |xs| ==> p(xs[i]) == q(xs[i])
    ensures Filter(xs, p) == Filter(xs, q)
  {
    if xs != [] {
      FilterSameTest(xs[1..], p, q);
    }
  }

  /** An occurrence of `t + u` is an occurrence of `t`. */
  lemma {:induction false} ContainsPrefix(s: string, t: string, u: string)
    requires Contains(s, t + u)
    ensures Contains(s, t)
    decreases |s|
  {
    if StartsWith(s, t + u) {
      assert s[..|t|] == (t + u)[..|t|] == t;
    } else {
      ContainsPrefix(s[1..], t, u);
    }
  }

  /** Typing more characters into the search box only narrows the list. */
  lemma TypingNarrows(c: Contact, term: string, more: string)
    requires Matches(c, term + more)
    ensures Matches(c, term)
  {
    var q, q2 := Lower(term), Lower(more);
    assert Lower(term + more) == q + q2;
    if Contains(Lower(c.name), q + q2) {
      ContainsPrefix(Lower(c.name), q, q2);
    } else if FieldMatches(c.company, q + q2) {
      ContainsPrefix(Lower(c.company.value), q, q2);
    } else if FieldMatches(c.email, q + q2) {
      ContainsPrefix(Lower(c.email.value), q, q2);
    } else if FieldMatches(c.phone, q + q2) {
      ContainsPrefix(Lower(c.phone.value), q, q2);
    } else if FieldMatches(c.role, q + q2) {
      ContainsPrefix(Lower(c.role.value), q, q2);
    } else {
      ContainsPrefix(Lower(c.industry.value), q, q2);
    }
  }

  /** A contact is found by any part of its name, whatever the letter case of either. */
  lemma FoundByName(c: Contact, a: string, t: string, b: string)
    requires c.name == a + t + b
    ensures Matches(c, t)
  {
    ContainsInfix(a, t, b);
    LowerKeepsContains(c.name, t);
  }

  /** The URL and the address are not searched: changing them does not change the list. */
  lemma UnsearchedFields(c: Contact, term: string, url: Option<string>, address: Option<string>)
    ensures Matches(c.(companyUrl := url, address := address), term) == Matches(c, term)
  {
  }
}

=== FILE: create_card_fn.dfy ===
/**
 * The `create-card` backend function: an authenticated request creates one
 * card from the request body and then the body's tasks, each stamped with the
 * new card's id and the caller's id.
 */
module CreateCardFunction {
  import opened Wrappers
  import opened JsValues
  import opened Http

  /** A table row: column name to value. */
  type Row = map<string, JsValue>

  /** The request body: parsed JSON, or text that does not parse (with the parser's message). */
  datatype Body = JsonBody(value: JsValue) | BadJson(message: string)

  datatype Request = Request(httpMethod: string, body: Body)

  /** What the database answers to the card insert: the generated id, or an error message. */
  datatype CardInsert = CardInserted(generatedId: string) | CardFailed(message: string)

  /**
   * `const { tasks, ...cardData } = body`: the `tasks` entry and every other
   * entry; `None` when the body is `null` (the destructuring throws).
   */
  function SplitBody(body: JsValue): (r: Option<(JsValue, Row)>)
    ensures r.None? <==> body.Null? || body.Undefined?
    ensures r.Some? ==> r.value.0 == body.Get("tasks") && "tasks" !in r.value.1
    ensures r.Some? && body.Obj? ==> r.value.1 == body.fields - {"tasks"}
  {
    match body
    case Null => None
    case Undefined => None
    case Obj(fields) => Some((body.Get("tasks"), fields - {"tasks"}))
    case _ => Some((Undefined, map[]))
  }

  /** `!cardData.title || !cardData.stage_id`. */
  predicate MissingRequired(cardData: Row)
    ensures !MissingRequired(cardData) ==> "title" in cardData && "stage_id" in cardData
  {
    !Obj(cardData).Get("title").Truthy() || !Obj(cardData).Get("stage_id").Truthy()
  }

  /** `{ ...cardData, created_by: user.id }`: the caller is the creator, whatever the body said. */
  function CardRow(cardData: Row, userId: string): (r: Row)
    ensures r.Keys == cardData.Keys + {"created_by"} && r["created_by"] == Str(userId)
    ensures forall k :: k in cardData && k != "created_by" ==> r[k] == cardData[k]
  {
    cardData["created_by" := Str(userId)]
  }

  /** The row the insert returns: the inserted row, with the generated id when the row brought none. */
  function StoredCard(row: Row, generatedId: string): (r: Row)
    ensures "id" in r && r.Keys == row.Keys + {"id"}
    ensures "id" in row ==> r == row
    ensures "id" !in row ==> r["id"] == Str(generatedId)
    ensures forall k :: k in row ==> r[k] == row[k]
  {
    if "id" in row then row else row["id" := Str(generatedId)]
  }

  /** `tasks && Array.isArray(tasks) && tasks.length > 0`. */
  predicate HasTasks(tasks: JsValue)
    ensures HasTasks(tasks) ==> tasks.Truthy()
    ensures tasks.Arr? && |tasks.items| == 0 ==> tasks.Truthy() && !HasTasks(tasks)
  {
    tasks.Arr? && |tasks.items| > 0
  }

  /** The spread of a task: an object's entries, nothing for anything else. */
  function Entries(task: JsValue): Row {
    if task.Obj? then task.fields else map[]
  }

  /** `{ ...task, card_id: newCard.id, created_by: user.id }`. */
  function TaskRow(task: JsValue, cardId: JsValue, userId: string): (r: Row)
    ensures r.Keys == Entries(task).Keys + {"card_id", "created_by"}
    ensures r["card_id"] == cardId && r["created_by"] == Str(userId)
    ensures forall k :: k in Entries(task) && k != "card_id" && k != "created_by" ==> r[k] == Entries(task)[k]
  {
    Entries(task)["card_id" := cardId]["created_by" := Str(userId)]
  }

  /** `tasks.map(...)`: one row per task, in order, each stamped with the card and the creator. */
  function StampTasks(tasks: seq<JsValue>, cardId: JsValue, userId: string): (r: seq<Row>)
    ensures |r| == |tasks|
    ensures forall i :: 0 <= i < |r| ==> r[i] == TaskRow(tasks[i], cardId, userId)
  {
    seq(|tasks|, i requires 0 <= i < |tasks| => TaskRow(tasks[i], cardId, userId))
  }

  /** Every stamped task belongs to the new card and to the caller, whatever `card_id` or `created_by` the body gave it. */
  lemma StampedTasksBelong(tasks: seq<JsValue>, cardId: JsValue, userId: string)
    ensures forall r :: r in StampTasks(tasks, cardId, userId) ==>
      "card_id" in r && r["card_id"] == cardId && "created_by" in r && r["created_by"] == Str(userId)
  {
  }

  /** A body without `title` or `stage_id` is refused, even when its tasks are well-formed. */
  lemma TitleRequired(fields: Row)
    requires "title" !in fields
    ensures var r := SplitBody(Obj(fields)); r.Some? && MissingRequired(r.value.1)
  {
  }

  /** The tables the function writes to. */
  class Database {
    var cards: seq<Row>
    var tasks: seq<Row>

    constructor (cards: seq<Row>, tasks: seq<Row>)
      ensures this.cards == cards && this.tasks == tasks
    {
      this.cards, this.tasks := cards, tasks;
    }
  }

  /**
   * The part of the handler after the body is destructured: the required
   * fields are checked, the card is inserted, then its tasks.
   */
  method InsertCard(db: Database, taskList: JsValue, cardData: Row, userId: string, cardInsert: CardInsert, tasksError: Option<string>)
    returns (res: Response)
    modifies db
    ensures res.status == 400 <==> MissingRequired(cardData)
    ensures MissingRequired(cardData) ==>
      res == Json(400, ErrorBody("Title and stage_id are required")) && db.cards == old(db.cards) && db.tasks == old(db.tasks)
    ensures !MissingRequired(cardData) && cardInsert.CardFailed? ==>
      res == Json(500, ErrorBody("Failed to create card: " + cardInsert.message))
      && db.cards == old(db.cards) && db.tasks == old(db.tasks)
    ensures !MissingRequired(cardData) && cardInsert.CardInserted? ==>
      var card := StoredCard(CardRow(cardData, userId), cardInsert.generatedId);
      && db.cards == old(db.cards) + [card]
      && (!HasTasks(taskList) ==> db.tasks == old(db.tasks) && res == Json(201, Obj(card)))
      && (HasTasks(taskList) && tasksError.None? ==>
            db.tasks == old(db.tasks) + StampTasks(taskList.items, card["id"], userId)
            && res == Json(201, Obj(card)))
      && (HasTasks(taskList) && tasksError.Some? ==>
            db.tasks == old(db.tasks)
            && res == Json(500, ErrorBody("Card created, but failed to create tasks: " + tasksError.value)))
  {
    if MissingRequired(cardData) {
      return Json(400, ErrorBody("Title and stage_id are required"));
    }
    if cardInsert.CardFailed? {
      return Json(500, ErrorBody("Failed to create card: " + cardInsert.message));
    }
    var card := StoredCard(CardRow(cardData, userId), cardInsert.generatedId);
    db.cards := db.cards + [card];
    if HasTasks(taskList) {
      if tasksError.Some? {
        return Json(500, ErrorBody("Card created, but failed to create tasks: " + tasksError.value));
      }
      db.tasks := db.tasks + StampTasks(taskList.items, card["id"], userId);
    }
    res := Json(201, Obj(card));
  }

  /**
   * The request handler. `user` is the caller the session resolves to;
   * `cardInsert` and `tasksError` are the database's answers to the two
   * inserts (the task insert is all-or-nothing). A body of `null` cannot be
   * destructured; that is the 500 with `nullMessage`.
   */
  method Handle(db: Database, req: Request, user: Option<string>, cardInsert: CardInsert, tasksError: Option<string>,
                nullMessage: string)
    returns (res: Response)
    modifies db
    ensures req.httpMethod == "OPTIONS" ==> res == Preflight && db.cards == old(db.cards) && db.tasks == old(db.tasks)
    ensures req.httpMethod != "OPTIONS" && user.None? ==>
      res == Json(401, ErrorBody("Unauthorized")) && db.cards == old(db.cards) && db.tasks == old(db.tasks)
    ensures res.status == 400 ==>
      res.body == ErrorBody("Title and stage_id are required") && db.cards == old(db.cards) && db.tasks == old(db.tasks)
    ensures req.httpMethod != "OPTIONS" && user.Some? && req.body.JsonBody? && SplitBody(req.body.value).Some? ==>
      var (taskList, cardData) := SplitBody(req.body.value).value;
      && (res.status == 400 <==> MissingRequired(cardData))
      && (!MissingRequired(cardData) && cardInsert.CardFailed? ==>
            res == Json(500, ErrorBody("Failed to create card: " + cardInsert.message))
            && db.cards == old(db.cards) && db.tasks == old(db.tasks))
      && (!MissingRequired(cardData) && cardInsert.CardInserted? ==>
            var card := StoredCard(CardRow(cardData, user.value), cardInsert.generatedId);
            && db.cards == old(db.cards) + [card]
            && (!HasTasks(taskList) ==> db.tasks == old(db.tasks) && res == Json(201, Obj(card)))
            && (HasTasks(taskList) && tasksError.None? ==>
                  db.tasks == old(db.tasks) + StampTasks(taskList.items, card["id"], user.value)
                  && res == Json(201, Obj(card)))
            && (HasTasks(taskList) && tasksError.Some? ==>
                  db.tasks == old(db.tasks)
                  && res == Json(500, ErrorBody("Card created, but failed to create tasks: " + tasksError.value))))
    ensures req.httpMethod != "OPTIONS" && user.Some? && req.body.BadJson? ==>
      res == Json(500, ErrorBody(req.body.message)) && db.cards == old(db.cards) && db.tasks == old(db.tasks)
    ensures req.httpMethod != "OPTIONS" && user.Some? && req.body.JsonBody? && SplitBody(req.body.value).None? ==>
      res == Json(500, ErrorBody(nullMessage)) && db.cards == old(db.cards) && db.tasks == old(db.tasks)
  {
    if req.httpMethod == "OPTIONS" {
      return Preflight;
    }
    if user.None? {
      return Json(401, ErrorBody("Unauthorized"));
    }
    if req.body.BadJson? {
      return Json(500, ErrorBody(req.body.message));
    }
    var split := SplitBody(req.body.value);
    if split.None? {
      return Json(500, ErrorBody(nullMessage));
    }
    var (taskList, cardData) := split.value;
    res := InsertCard(db, taskList, cardData, user.value, cardInsert, tasksError);
  }
}

=== FILE: create_funnel_dialog.dfy ===
/**
 * The dialog that creates a funnel: a funnel name, a text box for one more
 * stage name, and the ordered list of stage names the user builds by adding,
 * removing and dragging entries.
 */
module CreateFunnelDialog {
  import opened Wrappers
  import opened Text
  import CrmData

  /** The stage list the dialog starts from and returns to when closed. */
  const DefaultStages: seq<string> := ["Novo", "Contato Feito", "Proposta", "Fechado"]

  /** No name occurs twice. */
  predicate Distinct(xs: seq<string>) {
    forall i, j :: 0 <= i < j < |xs| ==> xs[i] != xs[j]
  }

  lemma DefaultStagesDistinct()
    ensures Distinct(DefaultStages)
  {
  }

  // ---------------------------------------------------------------------------
  // Adding and removing names

  /** The list after `handleAddStage` with `stageName` in the text box. */
  function AddStageResult(stages: seq<string>, stageName: string): (r: seq<string>)
    ensures AllSpace(stageName) ==> r == stages
    ensures !AllSpace(stageName) ==> Trim(stageName) in r && (r == stages <==> Trim(stageName) in stages)
    ensures r == stages || r == stages + [Trim(stageName)]
  {
    var t := Trim(stageName);
    if |t| > 0 && t !in stages then
      assert (stages + [t])[|stages|] == t;
      stages + [t]
    else stages
  }

  /** Adding never creates a duplicate: a list of distinct names stays distinct. */
  lemma AddStageKeepsDistinct(stages: seq<string>, stageName: string)
    requires Distinct(stages)
    ensures Distinct(AddStageResult(stages, stageName))
  {
    var r := AddStageResult(stages, stageName);
    if r != stages {
      forall i, j | 0 <= i < j < |r| ensures r[i] != r[j] {
        if j == |stages| {
          assert r[i] == stages[i];
        }
      }
    }
  }

  /** The list after `handleRemoveStage(name)`: every entry equal to `name` goes, the rest keep their order. */
  function RemoveStageResult(stages: seq<string>, name: string): (r: seq<string>)
    ensures |r| <= |stages|
  {
    if |stages| == 0 then []
    else (if stages[0] != name then [stages[0]] else []) + RemoveStageResult(stages[1..], name)
  }

  /** The test the removal's `filter` applies: the entry is not `name`. */
  function OtherThan(name: string): string -> bool {
    (s: string) => s != name
  }

  /** The removal is the `filter` of the entries other than `name`, so the rest keep their order. */
  lemma {:induction false} RemoveStageIsFilter(stages: seq<string>, name: string)
    ensures RemoveStageResult(stages, name) == CrmData.Filter(stages, OtherThan(name))
    decreases |stages|
  {
    if |stages| > 0 {
      RemoveStageIsFilter(stages[1..], name);
    }
  }

  lemma HeadTail(s: seq<string>)
    requires |s| > 0
    ensures [s[0]] + s[1..] == s
  {
  }

  lemma TailConcat(xs: seq<string>, ys: seq<string>)
    requires |xs| > 0
    ensures (xs + ys)[0] == xs[0] && (xs + ys)[1..] == xs[1..] + ys
  {
  }

  /** Removing takes away every copy of `name` and nothing else. */
  lemma {:induction false} RemoveStageCounts(stages: seq<string>, name: string)
    ensures multiset(RemoveStageResult(stages, name)) == multiset(stages)[name := 0]
  {
    if |stages| > 0 {
      RemoveStageCounts(stages[1..], name);
      HeadTail(stages);
      assert multiset(stages) == multiset([stages[0]]) + multiset(stages[1..]);
    }
  }

  /** After removing, `name` is gone and every remaining entry was in the list. */
  lemma RemoveStageRemovesName(stages: seq<string>, name: string)
    ensures name !in RemoveStageResult(stages, name)
    ensures forall x :: x in RemoveStageResult(stages, name) ==> x in stages && x != name
  {
    var r := RemoveStageResult(stages, name);
    RemoveStageCounts(stages, name);
    assert multiset(r)[name] == 0;
    forall x | x in r ensures x in stages && x != name {
      assert multiset(r)[x] > 0;
    }
  }

  /** Removing a name that is not listed changes nothing. */
  lemma {:induction false} RemoveAbsentStage(stages: seq<string>, name: string)
    requires name !in stages
    ensures RemoveStageResult(stages, name) == stages
  {
    if |stages| > 0 {
      RemoveAbsentStage(stages[1..], name);
      HeadTail(stages);
    }
  }

  /** Adding a name and removing it again gives the list back. */
  lemma AddThenRemove(stages: seq<string>, stageName: string)
    requires Trim(stageName) !in stages
    ensures RemoveStageResult(AddStageResult(stages, stageName), Trim(stageName)) == stages
  {
    var t := Trim(stageName);
    RemoveAbsentStage(stages, t);
    if |t| > 0 {
      RemoveConcat(stages, [t], t);
      assert [t][1..] == [];
    }
  }

  lemma {:induction false} RemoveConcat(xs: seq<string>, ys: seq<string>, name: string)
    ensures RemoveStageResult(xs + ys, name) == RemoveStageResult(xs, name) + RemoveStageResult(ys, name)
  {
    if |xs| == 0 {
      assert xs + ys == ys;
    } else {
      TailConcat(xs, ys);
      RemoveConcat(xs[1..], ys, name);
    }
  }

  // ---------------------------------------------------------------------------
  // Reordering

  /** `items.indexOf(x)`, for an `x` that is in the list. */
  function IndexOf(xs: seq<string>, x: string): (i: nat)
    requires x in xs
    ensures i < |xs| && xs[i] == x
    ensures forall j :: 0 <= j < i ==> xs[j] != x
  {
    if xs[0] == x then 0 else 1 + IndexOf(xs[1..], x)
  }

  function RemoveAt(xs: seq<string>, i: nat): (r: seq<string>)
    requires i < |xs|
    ensures |r| == |xs| - 1
  {
    xs[..i] + xs[i + 1..]
  }

  function InsertAt(xs: seq<string>, i: nat, x: string): (r: seq<string>)
    requires i <= |xs|
    ensures |r| == |xs| + 1
  {
    xs[..i] + [x] + xs[i..]
  }

  /** dnd-kit's `arrayMove(items, from, to)`: take the item at `from` out and put it back in at `to`. */
  function ArrayMove(xs: seq<string>, from: nat, to: nat): (r: seq<string>)
    requires from < |xs| && to < |xs|
    ensures |r| == |xs| && r[to] == xs[from]
    ensures multiset(r) == multiset(xs)
  {
    var rest := RemoveAt(xs, from);
    assert xs == xs[..from] + [xs[from]] + xs[from + 1..];
    var r := InsertAt(rest, to, xs[from]);
    assert r == rest[..to] + [xs[from]] + rest[to..];
    assert rest == rest[..to] + rest[to..];
    assert multiset(rest) == multiset(xs[..from]) + multiset(xs[from + 1..]);
    assert multiset(r) == multiset(rest) + multiset([xs[from]]);
    r
  }

  lemma RemoveInserted(xs: seq<string>, i: nat, x: string)
    requires i <= |xs|
    ensures RemoveAt(InsertAt(xs, i, x), i) == xs
  {
    var ys := InsertAt(xs, i, x);
    assert ys[..i] == xs[..i];
    assert ys[i + 1..] == xs[i..];
  }

  lemma InsertRemoved(xs: seq<string>, i: nat)
    requires i < |xs|
    ensures InsertAt(RemoveAt(xs, i), i, xs[i]) == xs
  {
    var ys := RemoveAt(xs, i);
    assert ys[..i] == xs[..i];
    assert ys[i..] == xs[i + 1..];
  }

  /** Dragging back undoes a drag: moving from `to` to `from` restores the list. */
  lemma ArrayMoveUndo(xs: seq<string>, from: nat, to: nat)
    requires from < |xs| && to < |xs|
    ensures ArrayMove(ArrayMove(xs, from, to), to, from) == xs
  {
    var moved := ArrayMove(xs, from, to);
    RemoveInserted(RemoveAt(xs, from), to, xs[from]);
    InsertRemoved(xs, from);
  }

  /** Reordering keeps the names distinct. */
  lemma ArrayMoveKeepsDistinct(xs: seq<string>, from: nat, to: nat)
    requires from < |xs| && to < |xs| && Distinct(xs)
    ensures Distinct(ArrayMove(xs, from, to))
  {
    var r := ArrayMove(xs, from, to);
    forall i, j | 0 <= i < j < |r| ensures r[i] != r[j] {
      if r[i] == r[j] {
        DistinctCount(xs, r[i]);
        CountTwo(r, i, j);
      }
    }
  }

  /** In a list of distinct names every name occurs at most once. */
  lemma {:induction false} DistinctCount(xs: seq<string>, x: string)
    requires Distinct(xs)
    ensures multiset(xs)[x] <= 1
  {
    if xs != [] {
      assert xs == [xs[0]] + xs[1..];
      DistinctCount(xs[1..], x);
      if xs[0] == x {
        assert x !in xs[1..] by {
          forall k | 0 <= k < |xs[1..]| ensures xs[1..][k] != x {
            assert xs[1..][k] == xs[k + 1];
          }
        }
      }
    }
  }

  /** A value at two positions occurs at least twice. */
  lemma CountTwo(xs: seq<string>, i: nat, j: nat)
    requires i < j < |xs| && xs[i] == xs[j]
    ensures multiset(xs)[xs[i]] >= 2
  {
    assert xs == xs[..i] + [xs[i]] + xs[i + 1..j] + [xs[j]] + xs[j + 1..];
  }

  /**
   * The list after `handleDragEnd`: nothing without a drop target or when an item
   * is dropped on itself, otherwise the dragged name moves to the target's place.
   * dnd-kit only reports ids of the listed items, so both are in the list.
   */
  function DragEndResult(stages: seq<string>, active: string, over: Option<string>): (r: seq<string>)
    requires active in stages && (over.Some? ==> over.value in stages)
    ensures over.None? || over.value == active ==> r == stages
    ensures |r| == |stages| && multiset(r) == multiset(stages)
    ensures over.Some? && over.value != active ==> r[IndexOf(stages, over.value)] == active
  {
    if over.Some? && active != over.value then
      ArrayMove(stages, IndexOf(stages, active), IndexOf(stages, over.value))
    else stages
  }

  // ---------------------------------------------------------------------------
  // Creating

  datatype CreateOutcome =
    | MissingName      // "Nome do funil é obrigatório"
    | MissingStages    // "Funil precisa de estágios"
    | Create(funnelName: string, stageNames: seq<string>)

  class CreateFunnelDialog {
    var name: string
    var stageName: string
    var stages: seq<string>

    constructor ()
      ensures name == "" && stageName == "" && stages == DefaultStages
    {
      name, stageName, stages := "", "", DefaultStages;
    }

    /** `handleAddStage`: the text box is cleared only when the name was added. */
    method AddStage()
      modifies this`stages, this`stageName
      ensures stages == AddStageResult(old(stages), old(stageName))
      ensures stageName == if stages != old(stages) then "" else old(stageName)
    {
      var t := Trim(stageName);
      if t != [] && t !in stages {
        stages := stages + [t];
        stageName := "";
      }
    }

    /** `handleRemoveStage`. */
    method RemoveStage(stageToRemove: string)
      modifies this`stages
      ensures stages == RemoveStageResult(old(stages), stageToRemove)
    {
      stages := RemoveStageResult(stages, stageToRemove);
    }

    /**
     * `handleCreate`: a blank funnel name or an empty stage list is refused;
     * otherwise the trimmed name and the stage list are handed on and the dialog closes.
     */
    function CreateRequest(): (r: CreateOutcome)
      reads this
      ensures r == MissingName <==> AllSpace(name)
      ensures r == MissingStages <==> !AllSpace(name) && stages == []
      ensures r.Create? ==> r.funnelName == Trim(name) && r.funnelName != [] && r.stageNames == stages && stages != []
    {
      if |Trim(name)| == 0 then MissingName
      else if |stages| == 0 then MissingStages
      else Create(Trim(name), stages)
    }

    /** The effect on `isOpen`: closing resets the name, the text box and the stage list. */
    method OpenChanged(isOpen: bool)
      modifies this`name, this`stageName, this`stages
      ensures !isOpen ==> name == "" && stageName == "" && stages == DefaultStages
      ensures isOpen ==> name == old(name) && stageName == old(stageName) && stages == old(stages)
    {
      if !isOpen {
        name, stageName, stages := "", "", DefaultStages;
      }
    }

    /** `handleDragEnd`. */
    method DragEnd(active: string, over: Option<string>)
      requires active in stages && (over.Some? ==> over.value in stages)
      modifies this`stages
      ensures stages == DragEndResult(old(stages), active, over)
    {
      if over.Some? && active != over.value {
        var oldIndex := IndexOf(stages, active);
        var newIndex := IndexOf(stages, over.value);
        stages := ArrayMove(stages, oldIndex, newIndex);
      }
    }
  }
}

=== FILE: create_stage_dialog.dfy ===
/** The dialog that adds one stage to the selected funnel. */
module CreateStageDialog {
  import opened Wrappers
  import opened Text

  /** The name `handleCreate` passes on: the trimmed text, or nothing when the text is blank. */
  function StageToCreate(name: string): (r: Option<string>)
    ensures r.None? <==> AllSpace(name)
    ensures r.Some? ==> r.value == Trim(name) && |r.value| > 0
  {
    var t := Trim(name);
    if |t| > 0 then Some(t) else None
  }

  /** The name handed on is already trimmed. */
  lemma StageToCreateTrimmed(name: string)
    requires StageToCreate(name).Some?
    ensures Trim(StageToCreate(name).value) == StageToCreate(name).value
  {
    TrimIdempotent(name);
  }

  class CreateStageDialog {
    var name: string
    var isOpen: bool

    constructor (isOpen0: bool)
      ensures name == "" && isOpen == isOpen0
    {
      name, isOpen := "", isOpen0;
    }

    /**
     * `handleCreate`: a non-blank name is handed on once, trimmed, and then the
     * text box is cleared and the dialog closes; a blank one changes nothing.
     */
    method Create() returns (created: Option<string>)
      modifies this`name, this`isOpen
      ensures created == StageToCreate(old(name))
      ensures created.Some? ==> name == "" && !isOpen
      ensures created.None? ==> name == old(name) && isOpen == old(isOpen)
    {
      created := StageToCreate(name);
      if created.Some? {
        name := "";
        isOpen := false;
      }
    }
  }
}

=== FILE: create_user_dialog.dfy ===
/**
 * The dialog that creates a user: the form's fields, the schema they are
 * checked against before the values are handed on, and the reset to the
 * defaults when the dialog closes.
 */
module CreateUserDialog {
  import opened Wrappers
  import opened Text
  import opened Permissions

  /** The form's fields as typed; the role is the value of the role picker. */
  datatype FormValues = FormValues(firstName: string, lastName: string, email: string, password: string, role: string)

  /** The values handed on once the schema accepts them. */
  datatype CreateUserValues = CreateUserValues(firstName: string, lastName: string, email: string, password: string, role: Role)

  /** One schema failure, one per field. */
  datatype FieldError = FirstNameRequired | InvalidEmail | PasswordTooShort | RoleRequired

  const Defaults: FormValues := FormValues("", "", "", "", "user")

  /** The roles the schema accepts: a user or a gestor, never an admin. */
  function RoleOf(role: string): (r: Option<Role>)
    ensures r.Some? <==> role == "user" || role == "gestor"
    ensures r.Some? ==> r.value != Admin
  {
    if role == "user" then Some(User) else if role == "gestor" then Some(Gestor) else None
  }

  /**
   * Every failure of the schema, in field order; string lengths are counted
   * in UTF-16 code units. The email format check is the parameter `isEmail`.
   */
  function Errors(v: FormValues, isEmail: string -> bool): (errs: seq<FieldError>)
    ensures FirstNameRequired in errs <==> v.firstName == ""
    ensures InvalidEmail in errs <==> !isEmail(v.email)
    ensures PasswordTooShort in errs <==> Utf16Length(v.password) < 8
    ensures RoleRequired in errs <==> RoleOf(v.role).None?
  {
    (if Utf16Length(v.firstName) < 1 then [FirstNameRequired] else [])
    + (if !isEmail(v.email) then [InvalidEmail] else [])
    + (if Utf16Length(v.password) < 8 then [PasswordTooShort] else [])
    + (if RoleOf(v.role).None? then [RoleRequired] else [])
  }

  /** The schema: the checked values when nothing fails, otherwise the failures. */
  function Validate(v: FormValues, isEmail: string -> bool): (r: Result)
    ensures r.Valid? <==> Errors(v, isEmail) == []
    ensures r.Valid? ==>
              r.values.firstName == v.firstName && r.values.lastName == v.lastName
              && r.values.email == v.email && r.values.password == v.password && Some(r.values.role) == RoleOf(v.role)
    ensures r.Invalid? ==> r.errors == Errors(v, isEmail)
  {
    var errs := Errors(v, isEmail);
    if errs == [] then Valid(CreateUserValues(v.firstName, v.lastName, v.email, v.password, RoleOf(v.role).value))
    else Invalid(errs)
  }

  datatype Result = Valid(values: CreateUserValues) | Invalid(errors: seq<FieldError>)

  /** A form passes exactly when the first name is filled, the email well-formed, the password long enough and the role allowed. */
  lemma ValidExactly(v: FormValues, isEmail: string -> bool)
    ensures Validate(v, isEmail).Valid? <==>
      v.firstName != "" && isEmail(v.email) && Utf16Length(v.password) >= 8 && (v.role == "user" || v.role == "gestor")
  {
    var errs := Errors(v, isEmail);
    if errs != [] {
      assert errs[0] in errs;
    }
  }

  /** No admin is ever created from this dialog. */
  lemma NeverAdmin(v: FormValues, isEmail: string -> bool)
    requires Validate(v, isEmail).Valid?
    ensures Validate(v, isEmail).values.role != Admin
  {
  }

  /** The untouched form is refused: the first name and the password are missing. */
  lemma DefaultsRefused(isEmail: string -> bool)
    ensures var r := Validate(Defaults, isEmail);
      r.Invalid? && FirstNameRequired in r.errors && PasswordTooShort in r.errors && RoleRequired !in r.errors
  {
  }

  /** The last name may stay blank. */
  lemma LastNameOptional(v: FormValues, isEmail: string -> bool)
    requires Validate(v, isEmail).Valid?
    ensures Validate(v.(lastName := ""), isEmail).Valid?
  {
    ValidExactly(v, isEmail);
    ValidExactly(v.(lastName := ""), isEmail);
  }

  /**
   * Length is counted in UTF-16 code units: characters outside the Basic
   * Multilingual Plane count twice, so four of them make a long enough password.
   */
  lemma {:induction false} AstralLength(p: string)
    requires forall i :: 0 <= i < |p| ==> p[i] as int >= 0x1_0000
    ensures Utf16Length(p) == 2 * |p|
    decreases |p|
  {
    if p != [] {
      AstralLength(p[..|p| - 1]);
    }
  }

  class CreateUserDialog {
    var values: FormValues

    constructor ()
      ensures values == Defaults
    {
      values := Defaults;
    }

    method Edited(v: FormValues)
      modifies this`values
      ensures values == v
    {
      values := v;
    }

    /** The effect on `isOpen`: closing resets the form to its defaults. */
    method OpenChanged(isOpen: bool)
      modifies this`values
      ensures !isOpen ==> values == Defaults
      ensures isOpen ==> values == old(values)
    {
      if !isOpen {
        values := Defaults;
      }
    }

    /** Submitting hands the checked values on, and nothing when the schema refuses them; the form stays as it is. */
    method Submit(isEmail: string -> bool) returns (created: Option<CreateUserValues>)
      ensures created.Some? <==> Validate(values, isEmail).Valid?
      ensures created.Some? ==> created.value == Validate(values, isEmail).values
    {
      var r := Validate(values, isEmail);
      created := if r.Valid? then Some(r.values) else None;
    }
  }
}

=== FILE: create_user_fn.dfy ===
/**
 * The `create-user` backend function: with the service key it creates a
 * confirmed sign-in account, then sets the role on the profile the database
 * made for it; when setting the role fails the account is deleted again.
 */
module CreateUserFunction {
  import opened Wrappers
  import opened Text
  import opened JsValues
  import opened Http

  /** The request body: parsed JSON, or text that does not parse (with the parser's message). */
  datatype Body = JsonBody(value: JsValue) | BadJson(message: string)

  datatype Request = Request(httpMethod: string, body: Body)

  /** What the account service answers to the creation: the new account's id, no account, or an error message. */
  datatype CreateAnswer = Created(id: string) | NoAccount | CreateFailed(message: string)

  /** An account as the function creates it: confirmed, with the names as metadata. */
  datatype Account = Account(id: string, email: JsValue, password: JsValue, firstName: JsValue, lastName: JsValue)

  const MissingFieldsMessage: string := "Campos obrigatórios ausentes: email, senha, nome e função."
  const EmailInUseMessage: string := "Este endereço de e-mail já está em uso."
  const NoAccountMessage: string := "Falha ao criar usuário, nenhum usuário foi retornado."
  const CreatedMessage: string := "Usuário criado com sucesso!"

  /** `!email || !password || !firstName || !role`; the last name may be missing. */
  predicate MissingRequired(body: JsValue)
    ensures !MissingRequired(body) ==>
      && body.Obj? && "email" in body.fields && "password" in body.fields
      && "firstName" in body.fields && "role" in body.fields
  {
    || !body.Get("email").Truthy() || !body.Get("password").Truthy()
    || !body.Get("firstName").Truthy() || !body.Get("role").Truthy()
  }

  /** The account service's duplicate-address error is recognised by its text. */
  predicate AlreadyRegistered(message: string) {
    Contains(message, "already registered")
  }

  /** Any error text with `already registered` somewhere in it is taken as a duplicate address. */
  lemma AlreadyRegisteredAnywhere(before: string, after: string)
    ensures AlreadyRegistered(before + "already registered" + after)
  {
    ContainsInfix(before, "already registered", after);
  }

  lemma LastNameOptional(body: JsValue)
    requires body.Obj? && !MissingRequired(body)
    ensures !MissingRequired(Obj(body.fields - {"lastName"}))
  {
    assert body.Get("email") == Obj(body.fields - {"lastName"}).Get("email");
  }

  /** The accounts and the profiles' roles. */
  class Backend {
    var accounts: seq<Account>
    var roles: map<string, JsValue>

    constructor (accounts: seq<Account>, roles: map<string, JsValue>)
      ensures this.accounts == accounts && this.roles == roles
    {
      this.accounts, this.roles := accounts, roles;
    }
  }

  /**
   * The request handler. `create` is the account service's answer,
   * `updateError` the answer to the role update, and `deleteSucceeds` whether
   * the compensating deletion goes through (its failure is not reported).
   * A body of `null` makes every field read fail; that is the 500 with
   * `nullMessage`.
   */
  method Handle(b: Backend, req: Request, create: CreateAnswer, updateError: Option<string>, deleteSucceeds: bool,
                nullMessage: string)
    returns (res: Response)
    modifies b
    ensures req.httpMethod == "OPTIONS" ==> res == Preflight && b.accounts == old(b.accounts) && b.roles == old(b.roles)
    ensures req.httpMethod != "OPTIONS" && req.body.BadJson? ==>
      res == Json(500, ErrorBody(req.body.message)) && b.accounts == old(b.accounts) && b.roles == old(b.roles)
    ensures req.httpMethod != "OPTIONS" && req.body.JsonBody? && (req.body.value.Null? || req.body.value.Undefined?) ==>
      res == Json(500, ErrorBody(nullMessage)) && b.accounts == old(b.accounts) && b.roles == old(b.roles)
    ensures req.httpMethod != "OPTIONS" && req.body.JsonBody? && !req.body.value.Null? && !req.body.value.Undefined? ==>
      var body := req.body.value;
      && (MissingRequired(body) ==>
            res == Json(400, ErrorBody(MissingFieldsMessage)) && b.accounts == old(b.accounts) && b.roles == old(b.roles))
      && (!MissingRequired(body) && create.CreateFailed? ==>
            b.accounts == old(b.accounts) && b.roles == old(b.roles)
            && res == Json(if AlreadyRegistered(create.message) then 409 else 500,
                           ErrorBody(if AlreadyRegistered(create.message) then EmailInUseMessage else create.message)))
      && (!MissingRequired(body) && create.NoAccount? ==>
            res == Json(500, ErrorBody(NoAccountMessage)) && b.accounts == old(b.accounts) && b.roles == old(b.roles))
      && (!MissingRequired(body) && create.Created? ==>
            var account := Account(create.id, body.Get("email"), body.Get("password"), body.Get("firstName"), body.Get("lastName"));
            && (updateError.None? ==>
                  b.accounts == old(b.accounts) + [account]
                  && b.roles == old(b.roles)[create.id := body.Get("role")]
                  && res.status == 200)
            && (updateError.Some? ==>
                  b.roles == old(b.roles)
                  && b.accounts == (if deleteSucceeds then old(b.accounts) else old(b.accounts) + [account])
                  && res == Json(500, ErrorBody(updateError.value))))
  {
    if req.httpMethod == "OPTIONS" {
      return Preflight;
    }
    if req.body.BadJson? {
      return Json(500, ErrorBody(req.body.message));
    }
    var body := req.body.value;
    if body.Null? || body.Undefined? {
      return Json(500, ErrorBody(nullMessage));
    }
    if MissingRequired(body) {
      return Json(400, ErrorBody(MissingFieldsMessage));
    }
    match create
    case CreateFailed(message) =>
      if AlreadyRegistered(message) {
        return Json(409, ErrorBody(EmailInUseMessage));
      }
      return Json(500, ErrorBody(message));
    case NoAccount =>
      return Json(500, ErrorBody(NoAccountMessage));
    case Created(id) =>
      var account := Account(id, body.Get("email"), body.Get("password"), body.Get("firstName"), body.Get("lastName"));
      b.accounts := b.accounts + [account];
      if updateError.Some? {
        if deleteSucceeds {
          b.accounts := b.accounts[..|b.accounts| - 1];
        }
        return Json(500, ErrorBody(updateError.value));
      }
      b.roles := b.roles[id := body.Get("role")];
      res := Json(200, Obj(map["message" := Str(CreatedMessage), "user" := Obj(map["id" := Str(id)])]));
  }
}

=== FILE: crm_data.dfy ===
/**
 * The CRM's entities as the front end keeps them: funnels, their stages, the
 * cards that move through the stages (with tasks and a history), contacts,
 * and the six-colour palette stages are painted with.
 *
 * Timestamps are calendar days: the time of day and the time zone are not
 * part of the model, and "now" is always passed in by the caller.
 */
module CrmData {
  import opened Wrappers

  /** A calendar day; `month` runs from 1 to 12. */
  datatype Date = Date(year: int, month: int, day: int)
  {
    /** Strictly earlier, comparing year, then month, then day. */
    predicate Before(other: Date) {
      year < other.year
      || (year == other.year && month < other.month)
      || (year == other.year && month == other.month && day < other.day)
    }

    predicate SameMonth(other: Date) {
      year == other.year && month == other.month
    }
  }

  datatype HistoryEntry = HistoryEntry(id: string, date: Date, description: string)

  datatype Task = Task(id: string, text: string, completed: bool, dueDate: Option<Date>)

  /** A card of a funnel board; `value` is `None` when the amount was left undefined. */
  datatype Card = Card(
    id: string,
    title: string,
    companyName: Option<string>,
    businessType: Option<string>,
    description: Option<string>,
    contactId: Option<string>,
    tasks: seq<Task>,
    stageId: string,
    value: Option<real>,
    source: Option<string>,
    createdAt: Option<Date>,
    history: seq<HistoryEntry>)
  {
    /** `card.value || 0`. */
    function Amount(): real {
      if value.Some? then value.value else 0.0
    }
  }

  /** A card as far as it is known before it is saved (`Partial<CardData>`): every field may be missing. */
  datatype CardDraft = CardDraft(
    id: Option<string>,
    title: Option<string>,
    companyName: Option<string>,
    businessType: Option<string>,
    description: Option<string>,
    contactId: Option<string>,
    tasks: Option<seq<Task>>,
    stageId: Option<string>,
    value: Option<real>,
    source: Option<string>,
    createdAt: Option<Date>,
    history: Option<seq<HistoryEntry>>)

  /** An existing card seen as a draft, as the card form receives it for editing. */
  function CardToDraft(c: Card): (d: CardDraft)
    ensures d.id == Some(c.id) && d.title == Some(c.title) && d.stageId == Some(c.stageId)
    ensures d.tasks == Some(c.tasks) && d.value == c.value && d.history == Some(c.history)
  {
    CardDraft(Some(c.id), Some(c.title), c.companyName, c.businessType, c.description, c.contactId,
              Some(c.tasks), Some(c.stageId), c.value, c.source, c.createdAt, Some(c.history))
  }

  /** The values the card form hands over once they pass validation. */
  datatype CardForm = CardForm(
    id: Option<string>,
    title: string,
    companyName: Option<string>,
    businessType: Option<string>,
    description: Option<string>,
    contactId: Option<string>,
    stageId: string,
    tasks: Option<seq<Task>>,
    value: Option<real>,
    source: Option<string>)

  datatype Color = Color(bg: string, text: string)

  datatype Stage = Stage(id: string, name: string, funnelId: string, color: Color)

  datatype Funnel = Funnel(id: string, name: string)

  /** A contact; every field but `id` and `name` may be missing. */
  datatype Contact = Contact(
    id: string,
    name: string,
    email: Option<string>,
    phone: Option<string>,
    company: Option<string>,
    role: Option<string>,
    industry: Option<string>,
    companyUrl: Option<string>,
    address: Option<string>)

  /** The six stage colours, in the order stages cycle through them. */
  const Palette: seq<Color> := [
    Color("bg-sky-100", "text-sky-800"),
    Color("bg-green-100", "text-green-800"),
    Color("bg-amber-100", "text-amber-800"),
    Color("bg-rose-100", "text-rose-800"),
    Color("bg-indigo-100", "text-indigo-800"),
    Color("bg-teal-100", "text-teal-800")
  ]

  /** `stageColorStyles[i % stageColorStyles.length]`. */
  function PaletteColor(i: nat): (c: Color)
    ensures c in Palette
    ensures c == Palette[i % 6]
  {
    Palette[i % |Palette|]
  }

  /** Stages `i` and `i + 6` share a colour; neighbouring stages never do. */
  lemma PaletteCycles(i: nat)
    ensures PaletteColor(i + 6) == PaletteColor(i)
    ensures PaletteColor(i + 1) != PaletteColor(i)
  {
    assert (i + 6) % 6 == i % 6;
    if i % 6 == 5 {
      assert (i + 1) % 6 == 0;
    } else {
      assert (i + 1) % 6 == i % 6 + 1;
    }
  }

  /** The first element satisfying `p`, as `Array.prototype.find` returns it. */
  function Find<T>(xs: seq<T>, p: T -> bool): (r: Option<T>)
    ensures r.Some? ==> r.value in xs && p(r.value)
    ensures r.None? <==> forall i :: 0 <= i < |xs| ==> !p(xs[i])
    ensures r.Some? ==> exists i :: 0 <= i < |xs| && xs[i] == r.value && forall j :: 0 <= j < i ==> !p(xs[j])
  {
    if xs == [] then None
    else if p(xs[0]) then Some(xs[0])
    else
      var r := Find(xs[1..], p);
      assert r.Some? ==> exists i :: 0 <= i < |xs| && xs[i] == r.value && forall j :: 0 <= j < i ==> !p(xs[j]) by {
        if r.Some? {
          var i :| 0 <= i < |xs[1..]| && xs[1..][i] == r.value && forall j :: 0 <= j < i ==> !p(xs[1..][j]);
          assert xs[i + 1] == r.value;
          forall j | 0 <= j < i + 1 ensures !p(xs[j]) {
            if j > 0 { assert xs[j] == xs[1..][j - 1]; }
          }
        }
      }
      r
  }

  /** `xs.filter(p)`. */
  function Filter<T>(xs: seq<T>, p: T -> bool): (r: seq<T>)
    ensures |r| <= |xs|
    ensures forall i :: 0 <= i < |r| ==> r[i] in xs && p(r[i])
    ensures forall i :: 0 <= i < |xs| && p(xs[i]) ==> xs[i] in r
  {
    if xs == [] then [] else (if p(xs[0]) then [xs[0]] else []) + Filter(xs[1..], p)
  }

  lemma FilterSingle<T>(x: T, p: T -> bool)
    ensures Filter([x], p) == if p(x) then [x] else []
  {
    assert [x][1..] == [];
  }

  lemma {:induction false} FilterConcat<T>(xs: seq<T>, ys: seq<T>, p: T -> bool)
    ensures Filter(xs + ys, p) == Filter(xs, p) + Filter(ys, p)
    decreases |xs|
  {
    if xs == [] {
      assert xs + ys == ys;
    } else {
      var head := if p(xs[0]) then [xs[0]] else [];
      assert (xs + ys)[0] == xs[0];
      assert (xs + ys)[1..] == xs[1..] + ys;
      FilterConcat(xs[1..], ys, p);
      assert head + (Filter(xs[1..], p) + Filter(ys, p)) == head + Filter(xs[1..], p) + Filter(ys, p);
    }
  }

  /** `a` stands before `b` in `xs`. */
  predicate Precedes<T(==)>(xs: seq<T>, a: T, b: T) {
    exists p, q :: 0 <= p < q < |xs| && xs[p] == a && xs[q] == b
  }

  /** The `i`-th kept element, read off the first element and the rest. */
  lemma FilterAt<T>(xs: seq<T>, p: T -> bool, i: nat)
    requires i < |Filter(xs, p)|
    ensures |xs| > 0
    ensures |Filter(xs, p)| == (if p(xs[0]) then 1 else 0) + |Filter(xs[1..], p)|
    ensures Filter(xs, p)[i] ==
      if !p(xs[0]) then Filter(xs[1..], p)[i] else if i == 0 then xs[0] else Filter(xs[1..], p)[i - 1]
  {
    var rest := Filter(xs[1..], p);
    if p(xs[0]) {
      assert Filter(xs, p) == [xs[0]] + rest;
    } else {
      assert Filter(xs, p) == rest;
    }
  }

  /** Where two kept elements stand in the input: in the same order. */
  lemma {:induction false} FilterPositions<T>(xs: seq<T>, p: T -> bool, i: nat, j: nat) returns (a: nat, b: nat)
    requires i < j < |Filter(xs, p)|
    ensures a < b < |xs| && xs[a] == Filter(xs, p)[i] && xs[b] == Filter(xs, p)[j]
    decreases |xs|
  {
    FilterAt(xs, p, i);
    FilterAt(xs, p, j);
    if p(xs[0]) && i == 0 {
      var k := FilterPosition(xs[1..], p, j - 1);
      a, b := 0, k + 1;
      assert xs[b] == xs[1..][k];
    } else {
      var d := if p(xs[0]) then 1 else 0;
      var i', j' := i - d, j - d;
      var a', b' := FilterPositions(xs[1..], p, i', j');
      a, b := a' + 1, b' + 1;
      assert xs[a] == xs[1..][a'] && xs[b] == xs[1..][b'];
    }
  }

  /** Where the `j`-th kept element sits in the original list. */
  lemma {:induction false} FilterPosition<T>(xs: seq<T>, p: T -> bool, j: nat) returns (b: nat)
    requires j < |Filter(xs, p)|
    ensures b < |xs| && xs[b] == Filter(xs, p)[j]
    decreases |xs|
  {
    FilterAt(xs, p, j);
    if p(xs[0]) && j == 0 {
      b := 0;
    } else {
      var b' := FilterPosition(xs[1..], p, if p(xs[0]) then j - 1 else j);
      b := b' + 1;
      assert xs[b] == xs[1..][b'];
    }
  }

  /** Filtering keeps every element when all pass. */
  lemma {:induction false} FilterAll<T>(xs: seq<T>, p: T -> bool)
    requires forall i :: 0 <= i < |xs| ==> p(xs[i])
    ensures Filter(xs, p) == xs
    decreases |xs|
  {
    if |xs| > 0 {
      FilterAll(xs[1..], p);
      assert xs == [xs[0]] + xs[1..];
    }
  }
}

=== FILE: dashboard.dfy ===
/**
 * The dashboard's revenue for the current month: the amounts of the cards
 * that sit on a closed stage ("fechado", in any letter case) and reached it,
 * or were created, in the current month.
 */
module Dashboard {
  import opened Wrappers
  import opened Text
  import opened CrmData
  import FunnelsPage

  /** `s.name.toLowerCase() === 'fechado'`. */
  predicate IsClosed(s: Stage)
    ensures IsClosed(s) ==> |s.name| == 7
  {
    Lower(s.name) == "fechado"
  }

  /** The ids of the closed stages, in stage order. */
  function ClosedStageIds(stages: seq<Stage>): (r: seq<string>)
    ensures forall id :: id in r <==> exists i :: 0 <= i < |stages| && stages[i].id == id && IsClosed(stages[i])
  {
    if stages == [] then []
    else
      var rest := ClosedStageIds(stages[1..]);
      var r := (if IsClosed(stages[0]) then [stages[0].id] else []) + rest;
      assert forall id :: id in r <==> exists i :: 0 <= i < |stages| && stages[i].id == id && IsClosed(stages[i]) by {
        forall id ensures id in r <==> exists i :: 0 <= i < |stages| && stages[i].id == id && IsClosed(stages[i]) {
          if id in rest {
            var i :| 0 <= i < |stages[1..]| && stages[1..][i].id == id && IsClosed(stages[1..][i]);
            assert stages[i + 1] == stages[1..][i];
          }
          if exists i :: 0 <= i < |stages| && stages[i].id == id && IsClosed(stages[i]) {
            var i :| 0 <= i < |stages| && stages[i].id == id && IsClosed(stages[i]);
            if i > 0 {
              assert stages[1..][i - 1] == stages[i];
            }
          }
        }
      }
      r
  }

  /** `history.slice().reverse().find(h => h.description.includes(needle))`: the latest entry mentioning `needle`. */
  function LastMentioning(history: seq<HistoryEntry>, needle: string): (r: Option<HistoryEntry>)
    ensures r.None? <==> forall i :: 0 <= i < |history| ==> !Contains(history[i].description, needle)
    ensures r.Some? ==> exists i :: (0 <= i < |history| && history[i] == r.value
      && Contains(r.value.description, needle)
      && forall j :: i < j < |history| ==> !Contains(history[j].description, needle))
  {
    if history == [] then None
    else
      var last := history[|history| - 1];
      if Contains(last.description, needle) then Some(last)
      else
        var prefix := history[..|history| - 1];
        var r := LastMentioning(prefix, needle);
        assert r.Some? ==> exists i :: (0 <= i < |history| && history[i] == r.value
          && Contains(r.value.description, needle)
          && forall j :: i < j < |history| ==> !Contains(history[j].description, needle)) by {
          if r.Some? {
            var i :| 0 <= i < |prefix| && prefix[i] == r.value
              && Contains(r.value.description, needle)
              && forall j :: i < j < |prefix| ==> !Contains(prefix[j].description, needle);
            forall j | i < j < |history| ensures !Contains(history[j].description, needle) {
              if j < |prefix| {
                assert history[j] == prefix[j];
              }
            }
          }
        }
        assert r.None? ==> forall i :: 0 <= i < |history| ==> !Contains(history[i].description, needle) by {
          if r.None? {
            forall i | 0 <= i < |history| ensures !Contains(history[i].description, needle) {
              if i < |prefix| {
                assert history[i] == prefix[i];
              }
            }
          }
        }
        r
  }

  /** `closedEntry?.date || card.createdAt`. */
  function RelevantDate(card: Card, needle: string): (d: Option<Date>)
    ensures LastMentioning(card.history, needle).Some? ==> d == Some(LastMentioning(card.history, needle).value.date)
    ensures LastMentioning(card.history, needle).None? ==> d == card.createdAt
  {
    match LastMentioning(card.history, needle)
    case Some(entry) => Some(entry.date)
    case None => card.createdAt
  }

  /** The test the `filter` applies: on a closed stage, and moved there (or created) this month. */
  predicate Counted(card: Card, stages: seq<Stage>, now: Date)
    ensures Counted(card, stages, now) ==> exists i :: 0 <= i < |stages| && stages[i].id == card.stageId && IsClosed(stages[i])
    ensures (forall i :: 0 <= i < |stages| ==> !IsClosed(stages[i])) ==> !Counted(card, stages, now)
  {
    && card.stageId in ClosedStageIds(stages)
    && var stage := FunnelsPage.StageById(stages, card.stageId);
    && stage.Some? && stage.value.name != ""
    && var d := RelevantDate(card, "para '" + stage.value.name + "'");
    && d.Some? && d.value.SameMonth(now)
  }

  function CountedIn(stages: seq<Stage>, now: Date): Card -> bool {
    (c: Card) => Counted(c, stages, now)
  }

  /** `reduce((sum, card) => sum + (card.value || 0), 0)`. */
  function SumAmounts(cards: seq<Card>): (r: real)
    ensures (forall i :: 0 <= i < |cards| ==> cards[i].Amount() == 0.0) ==> r == 0.0
  {
    if cards == [] then 0.0 else cards[0].Amount() + SumAmounts(cards[1..])
  }

  /** `currentRevenue`. */
  function CurrentRevenue(cards: seq<Card>, stages: seq<Stage>, now: Date): (r: real)
    ensures ClosedStageIds(stages) == [] ==> r == 0.0
  {
    if ClosedStageIds(stages) == [] then 0.0
    else SumAmounts(Filter(cards, CountedIn(stages, now)))
  }

  /** Only a card on a stage whose name lower-cases to "fechado" is counted. */
  lemma CountedIsClosed(card: Card, stages: seq<Stage>, now: Date)
    requires Counted(card, stages, now)
    ensures exists i :: 0 <= i < |stages| && stages[i].id == card.stageId && IsClosed(stages[i])
  {
  }

  /** Without a closed stage there is no revenue, whatever the cards. */
  lemma NoClosedStageNoRevenue(cards: seq<Card>, stages: seq<Stage>, now: Date)
    requires forall i :: 0 <= i < |stages| ==> !IsClosed(stages[i])
    ensures CurrentRevenue(cards, stages, now) == 0.0
  {
  }

  lemma {:induction false} SumNonNegative(cards: seq<Card>)
    requires forall i :: 0 <= i < |cards| ==> cards[i].Amount() >= 0.0
    ensures SumAmounts(cards) >= 0.0
  {
    if cards != [] {
      SumNonNegative(cards[1..]);
    }
  }

  /** The counted cards carry no negative amount when no card does. */
  lemma CountedNonNegative(cards: seq<Card>, stages: seq<Stage>, now: Date)
    requires forall i :: 0 <= i < |cards| ==> cards[i].Amount() >= 0.0
    ensures forall i :: 0 <= i < |Filter(cards, CountedIn(stages, now))| ==> Filter(cards, CountedIn(stages, now))[i].Amount() >= 0.0
  {
    var counted := Filter(cards, CountedIn(stages, now));
    forall i | 0 <= i < |counted| ensures counted[i].Amount() >= 0.0 {
      var k :| 0 <= k < |cards| && cards[k] == counted[i];
    }
  }

  /** With no negative amounts the revenue is never negative. */
  lemma RevenueNonNegative(cards: seq<Card>, stages: seq<Stage>, now: Date)
    requires forall i :: 0 <= i < |cards| ==> cards[i].Amount() >= 0.0
    ensures CurrentRevenue(cards, stages, now) >= 0.0
  {
    CountedNonNegative(cards, stages, now);
    SumNonNegative(Filter(cards, CountedIn(stages, now)));
  }

  /** A sum of non-negative amounts is at least each of them. */
  lemma {:induction false} SumAtLeastMember(cards: seq<Card>, c: Card)
    requires c in cards && forall i :: 0 <= i < |cards| ==> cards[i].Amount() >= 0.0
    ensures SumAmounts(cards) >= c.Amount()
  {
    if cards[0] == c {
      SumNonNegative(cards[1..]);
    } else {
      SumAtLeastMember(cards[1..], c);
    }
  }

  /**
   * A card just moved onto a closed stage is counted this month: the history
   * entry the move writes names the stage the dashboard looks for.
   */
  lemma MovedToClosedCounts(cards: seq<Card>, stages: seq<Stage>, cardId: string, newStageId: string, stamp: nat, now: Date)
    requires FunnelsPage.MoveApplies(cards, stages, cardId, newStageId)
    requires IsClosed(FunnelsPage.StageById(stages, newStageId).value)
    ensures Counted(FunnelsPage.MovedCard(cards, stages, cardId, newStageId, stamp, now), stages, now)
  {
    var card := FunnelsPage.CardById(cards, cardId).value;
    var moved := FunnelsPage.MovedCard(cards, stages, cardId, newStageId, stamp, now);
    var stage := FunnelsPage.StageById(stages, newStageId).value;
    var needle := "para '" + stage.name + "'";
    var k :| 0 <= k < |stages| && stages[k] == stage;
    assert newStageId in ClosedStageIds(stages);
    assert |stage.name| == |Lower(stage.name)| == 7;
    FunnelsPage.MoveRecordsTarget(cards, stages, cardId, newStageId, stamp, now);
    var n := |card.history|;
    assert LastMentioning(moved.history, needle) == Some(moved.history[n]);
  }

  /**
   * Moving a card onto a closed stage puts at least its amount into this
   * month's revenue (when no amount is negative).
   */
  lemma MoveIntoClosedAddsRevenue(cards: seq<Card>, stages: seq<Stage>, cardId: string, newStageId: string, stamp: nat, now: Date)
    requires FunnelsPage.MoveApplies(cards, stages, cardId, newStageId)
    requires IsClosed(FunnelsPage.StageById(stages, newStageId).value)
    requires forall i :: 0 <= i < |cards| ==> cards[i].Amount() >= 0.0
    ensures CurrentRevenue(FunnelsPage.MoveCardResult(cards, stages, cardId, newStageId, stamp, now), stages, now)
         >= FunnelsPage.CardById(cards, cardId).value.Amount()
  {
    var moved := FunnelsPage.MovedCard(cards, stages, cardId, newStageId, stamp, now);
    var after := FunnelsPage.MoveCardResult(cards, stages, cardId, newStageId, stamp, now);
    MovedToClosedCounts(cards, stages, cardId, newStageId, stamp, now);
    MovedCardInResult(cards, stages, cardId, newStageId, stamp, now);
    var counted := Filter(after, CountedIn(stages, now));
    assert moved in counted;
    CountedNonNegative(after, stages, now);
    SumAtLeastMember(counted, moved);
    assert newStageId in ClosedStageIds(stages);
  }

  /** The moved card is in the new list with its amount unchanged, and the move makes no amount negative. */
  lemma MovedCardInResult(cards: seq<Card>, stages: seq<Stage>, cardId: string, newStageId: string, stamp: nat, now: Date)
    requires FunnelsPage.MoveApplies(cards, stages, cardId, newStageId)
    requires forall i :: 0 <= i < |cards| ==> cards[i].Amount() >= 0.0
    ensures var after := FunnelsPage.MoveCardResult(cards, stages, cardId, newStageId, stamp, now);
      var moved := FunnelsPage.MovedCard(cards, stages, cardId, newStageId, stamp, now);
      && moved in after
      && moved.Amount() == FunnelsPage.CardById(cards, cardId).value.Amount()
      && forall j :: 0 <= j < |after| ==> after[j].Amount() >= 0.0
  {
    var card := FunnelsPage.CardById(cards, cardId).value;
    var moved := FunnelsPage.MovedCard(cards, stages, cardId, newStageId, stamp, now);
    var after := FunnelsPage.MoveCardResult(cards, stages, cardId, newStageId, stamp, now);
    var i :| 0 <= i < |cards| && cards[i] == card;
    assert after[i] == moved;
    assert moved.Amount() == card.Amount();
    forall j | 0 <= j < |after| ensures after[j].Amount() >= 0.0 {
      if cards[j].id == cardId {
        assert after[j] == moved;
      }
    }
  }
}

=== FILE: funnel_board.dfy ===
/**
 * The Kanban board: one column per stage, in stage order, each holding the
 * cards whose stage id is that stage's id, in the cards' order.
 */
module FunnelBoard {
  import opened Wrappers
  import opened CrmData

  datatype BoardCard = BoardCard(
    id: string, title: string, contactName: Option<string>,
    tasksCount: Option<int>, tasksDoneCount: Option<int>, stageId: string)

  datatype BoardStage = BoardStage(id: string, name: string, bg: string, text: string)

  /** What one column is given: its stage and its cards. */
  datatype Column = Column(stageId: string, stageName: string, cards: seq<BoardCard>)

  function InStage(stageId: string): BoardCard -> bool {
    (c: BoardCard) => c.stageId == stageId
  }

  /** `stages.map(stage => ... cards.filter(card => card.stageId === stage.id))`. */
  function Columns(stages: seq<BoardStage>, cards: seq<BoardCard>): (r: seq<Column>)
    ensures |r| == |stages|
    ensures forall i :: 0 <= i < |r| ==> r[i].stageId == stages[i].id && r[i].stageName == stages[i].name
    ensures forall i, c :: 0 <= i < |r| ==> (c in r[i].cards <==> c in cards && c.stageId == stages[i].id)
  {
    seq(|stages|, i requires 0 <= i < |stages| => Column(stages[i].id, stages[i].name, Filter(cards, InStage(stages[i].id))))
  }

  /** A card whose stage is not on the board appears in no column. */
  lemma OrphanInNoColumn(stages: seq<BoardStage>, cards: seq<BoardCard>, c: BoardCard)
    requires forall i :: 0 <= i < |stages| ==> stages[i].id != c.stageId
    ensures forall i :: 0 <= i < |stages| ==> c !in Columns(stages, cards)[i].cards
  {
  }

  /** A column keeps its cards in the order they are given: two of its cards stand in the same order among all cards. */
  lemma ColumnKeepsOrder(stages: seq<BoardStage>, cards: seq<BoardCard>, k: nat, i: nat, j: nat)
    requires k < |stages| && i < j < |Columns(stages, cards)[k].cards|
    ensures Precedes(cards, Columns(stages, cards)[k].cards[i], Columns(stages, cards)[k].cards[j])
  {
    var a, b := FilterPositions(cards, InStage(stages[k].id), i, j);
  }

  // ---------------------------------------------------------------------------
  // the columns partition the cards of listed stages

  /** How many stages carry the id `id`. */
  function Occurrences(stages: seq<BoardStage>, id: string): nat {
    if stages == [] then 0 else (if stages[0].id == id then 1 else 0) + Occurrences(stages[1..], id)
  }

  /** The number of cards shown across all columns. */
  function Shown(stages: seq<BoardStage>, cards: seq<BoardCard>): nat {
    if stages == [] then 0 else |Filter(cards, InStage(stages[0].id))| + Shown(stages[1..], cards)
  }

  predicate StageIdsDistinct(stages: seq<BoardStage>) {
    forall i, j :: 0 <= i < j < |stages| ==> stages[i].id != stages[j].id
  }

  function Listed(stages: seq<BoardStage>): BoardCard -> bool {
    (c: BoardCard) => exists i :: 0 <= i < |stages| && stages[i].id == c.stageId
  }

  lemma {:induction false} OccurrencesDistinct(stages: seq<BoardStage>, id: string)
    requires StageIdsDistinct(stages)
    ensures Occurrences(stages, id) == if exists i :: 0 <= i < |stages| && stages[i].id == id then 1 else 0
    decreases |stages|
  {
    if stages != [] {
      OccurrencesDistinct(stages[1..], id);
      if stages[0].id == id {
        forall i | 0 <= i < |stages[1..]| ensures stages[1..][i].id != id {
          assert stages[1..][i] == stages[i + 1];
        }
      } else if exists i :: 0 <= i < |stages| && stages[i].id == id {
        var i :| 0 <= i < |stages| && stages[i].id == id;
        assert stages[1..][i - 1] == stages[i];
      } else {
        forall i | 0 <= i < |stages[1..]| ensures stages[1..][i].id != id {
          assert stages[1..][i] == stages[i + 1];
        }
      }
    }
  }

  /** Adding a card in front adds one to each column of its stage. */
  lemma {:induction false} ShownCons(stages: seq<BoardStage>, c: BoardCard, rest: seq<BoardCard>)
    ensures Shown(stages, [c] + rest) == Shown(stages, rest) + Occurrences(stages, c.stageId)
    decreases |stages|
  {
    if stages != [] {
      assert ([c] + rest)[1..] == rest;
      ShownCons(stages[1..], c, rest);
    }
  }

  /**
   * With distinct stage ids every card of a listed stage is shown exactly
   * once: the columns together hold as many cards as there are cards of
   * listed stages.
   */
  lemma {:induction false} ColumnsPartition(stages: seq<BoardStage>, cards: seq<BoardCard>)
    requires StageIdsDistinct(stages)
    ensures Shown(stages, cards) == |Filter(cards, Listed(stages))|
    decreases |cards|
  {
    if cards == [] {
      ShownEmpty(stages);
    } else {
      assert cards == [cards[0]] + cards[1..];
      ShownCons(stages, cards[0], cards[1..]);
      OccurrencesDistinct(stages, cards[0].stageId);
      ColumnsPartition(stages, cards[1..]);
    }
  }

  lemma {:induction false} ShownEmpty(stages: seq<BoardStage>)
    ensures Shown(stages, []) == 0
    decreases |stages|
  {
    if stages != [] {
      ShownEmpty(stages[1..]);
    }
  }

  /** `handleDropCard`: the move is forwarded only when a move handler was given. */
  function DropCard(hasMoveHandler: bool, cardId: string, newStageId: string): (forwarded: Option<(string, string)>)
    ensures forwarded.Some? <==> hasMoveHandler
    ensures forwarded.Some? ==> forwarded.value.0 == cardId && forwarded.value.1 == newStageId
  {
    if hasMoveHandler then Some((cardId, newStageId)) else None
  }
}

=== FILE: funnels.dfy ===
/**
 * The funnels page: the funnels, their stages and the cards on the board, and
 * the handlers that move cards between stages, save cards, create funnels and
 * stages, rename and reorder a funnel's stages, and delete a funnel.
 *
 * `Date.now()` is the parameter `stamp` (milliseconds since the epoch), the
 * current day is `now`/`today`, and the i-th `Math.random()` drawn while
 * saving a funnel is the text `draw(i)`.
 */
module FunnelsPage {
  import opened Wrappers
  import opened Text
  import opened CrmData

  // ---------------------------------------------------------------------------
  // Lookups

  function CardById(cards: seq<Card>, id: string): Option<Card> {
    Find(cards, (c: Card) => c.id == id)
  }

  function StageById(stages: seq<Stage>, id: string): Option<Stage> {
    Find(stages, (s: Stage) => s.id == id)
  }

  function StageNamed(stages: seq<Stage>, name: string): Option<Stage> {
    Find(stages, (s: Stage) => s.name == name)
  }

  /** `s => s.funnelId === funnelId`. */
  function InFunnel(funnelId: string): Stage -> bool {
    (s: Stage) => s.funnelId == funnelId
  }

  /** `s => s.funnelId !== funnelId`. */
  function OutsideFunnel(funnelId: string): Stage -> bool {
    (s: Stage) => s.funnelId != funnelId
  }

  /** The stages that belong to `funnelId`, in board order. */
  function StagesOf(stages: seq<Stage>, funnelId: string): (r: seq<Stage>)
    ensures forall i :: 0 <= i < |r| ==> r[i].funnelId == funnelId && r[i] in stages
    ensures forall i :: 0 <= i < |stages| && stages[i].funnelId == funnelId ==> stages[i] in r
  {
    Filter(stages, InFunnel(funnelId))
  }

  function StageIds(stages: seq<Stage>): (r: seq<string>)
    ensures |r| == |stages| && forall i :: 0 <= i < |r| ==> r[i] == stages[i].id
  {
    seq(|stages|, i requires 0 <= i < |stages| => stages[i].id)
  }

  // ---------------------------------------------------------------------------
  // Card history

  function HistoryId(stamp: nat): string {
    "hist-" + NatToString(stamp)
  }

  /** The history line a move leaves behind. */
  function MoveDescription(oldName: string, newName: string): (r: string)
    ensures |r| == |oldName| + |newName| + 21
    ensures r[..11 + |oldName|] == "Movido de '" + oldName
    ensures r[|r| - |newName| - 2..] == newName + "'."
  {
    "Movido de '" + oldName + "' para '" + newName + "'."
  }

  /** A move's history line names its target stage as `para '<name>'`, the text the dashboard searches for. */
  lemma {:induction false} MoveDescriptionNamesTarget(oldName: string, newName: string)
    ensures Contains(MoveDescription(oldName, newName), "para '" + newName + "'")
  {
    var a := "Movido de '" + oldName + "' ";
    var t := "para '" + newName + "'";
    assert MoveDescription(oldName, newName) == a + t + ".";
    ContainsInfix(a, t, ".");
  }

  /** `addHistoryEntry`: the card with one more history entry at the end; nothing else changes. */
  function AddHistoryEntry(card: Card, description: string, stamp: nat, now: Date): (r: Card)
    ensures r.(history := card.history) == card
    ensures |r.history| == |card.history| + 1 && r.history[..|card.history|] == card.history
    ensures r.history[|card.history|] == HistoryEntry(HistoryId(stamp), now, description)
  {
    card.(history := card.history + [HistoryEntry(HistoryId(stamp), now, description)])
  }

  // ---------------------------------------------------------------------------
  // Moving a card

  /** Every card with id `id` replaced by `card`. */
  function ReplaceCards(cards: seq<Card>, id: string, card: Card): (r: seq<Card>)
    ensures |r| == |cards|
    ensures forall i :: 0 <= i < |cards| ==> r[i] == if cards[i].id == id then card else cards[i]
  {
    seq(|cards|, i requires 0 <= i < |cards| => if cards[i].id == id then card else cards[i])
  }

  /** Whether `handleCardMove` acts: the card exists, changes stage, and both stages exist. */
  predicate MoveApplies(cards: seq<Card>, stages: seq<Stage>, cardId: string, newStageId: string)
    ensures MoveApplies(cards, stages, cardId, newStageId) ==>
      && (exists i :: 0 <= i < |cards| && cards[i].id == cardId)
      && (exists j :: 0 <= j < |stages| && stages[j].id == newStageId)
    ensures MoveApplies(cards, stages, cardId, newStageId) ==> CardById(cards, cardId).value.stageId != newStageId
    ensures (forall i :: 0 <= i < |stages| ==> stages[i].id != newStageId) ==> !MoveApplies(cards, stages, cardId, newStageId)
  {
    var card := CardById(cards, cardId);
    card.Some? && card.value.stageId != newStageId
    && StageById(stages, card.value.stageId).Some? && StageById(stages, newStageId).Some?
  }

  /** The card as `handleCardMove` rewrites it. */
  function MovedCard(cards: seq<Card>, stages: seq<Stage>, cardId: string, newStageId: string, stamp: nat, now: Date): (r: Card)
    requires MoveApplies(cards, stages, cardId, newStageId)
    ensures r.id == cardId && r.stageId == newStageId
    ensures var card := CardById(cards, cardId).value;
      && r.(stageId := card.stageId, history := card.history) == card
      && r.history == card.history + [HistoryEntry(HistoryId(stamp), now,
           MoveDescription(StageById(stages, card.stageId).value.name, StageById(stages, newStageId).value.name))]
  {
    var card := CardById(cards, cardId).value;
    var description := MoveDescription(StageById(stages, card.stageId).value.name, StageById(stages, newStageId).value.name);
    AddHistoryEntry(card, description, stamp, now).(stageId := newStageId)
  }

  /** The cards after `handleCardMove(cardId, newStageId)`. */
  function MoveCardResult(cards: seq<Card>, stages: seq<Stage>, cardId: string, newStageId: string, stamp: nat, now: Date): (r: seq<Card>)
    ensures |r| == |cards|
    ensures forall i :: 0 <= i < |cards| ==> r[i].id == cards[i].id
    ensures forall i :: 0 <= i < |cards| && cards[i].id != cardId ==> r[i] == cards[i]
    ensures !MoveApplies(cards, stages, cardId, newStageId) ==> r == cards
    ensures MoveApplies(cards, stages, cardId, newStageId) ==>
      forall i :: 0 <= i < |cards| && cards[i].id == cardId ==> r[i].stageId == newStageId
    ensures MoveApplies(cards, stages, cardId, newStageId) ==>
      forall i :: 0 <= i < |cards| && cards[i].id == cardId ==> r[i] == MovedCard(cards, stages, cardId, newStageId, stamp, now)
  {
    if MoveApplies(cards, stages, cardId, newStageId) then
      ReplaceCards(cards, cardId, MovedCard(cards, stages, cardId, newStageId, stamp, now))
    else cards
  }

  /**
   * A move records where the card went: the moved card keeps its old history and
   * gains one entry, dated `now`, whose text names the target stage.
   */
  lemma MoveRecordsTarget(cards: seq<Card>, stages: seq<Stage>, cardId: string, newStageId: string, stamp: nat, now: Date)
    requires MoveApplies(cards, stages, cardId, newStageId)
    ensures var card := CardById(cards, cardId).value;
            var moved := MovedCard(cards, stages, cardId, newStageId, stamp, now);
            var target := StageById(stages, newStageId).value.name;
            && moved.history[..|card.history|] == card.history
            && |moved.history| == |card.history| + 1
            && moved.history[|card.history|].date == now
            && moved.history[|card.history|] == HistoryEntry(HistoryId(stamp), now,
                 MoveDescription(StageById(stages, card.stageId).value.name, target))
            && Contains(moved.history[|card.history|].description, "para '" + target + "'")
  {
    var card := CardById(cards, cardId).value;
    MoveDescriptionNamesTarget(StageById(stages, card.stageId).value.name, StageById(stages, newStageId).value.name);
  }

  // ---------------------------------------------------------------------------
  // Saving a card

  /** `{ ...initialData, ...data }`: the form's fields win; the id falls back to the initial one. */
  function MergeCard(data: CardForm, initial: CardDraft): (r: CardDraft)
    ensures r.title == Some(data.title) && r.stageId == Some(data.stageId) && r.value == data.value
    ensures r.id == (if data.id.Some? then data.id else initial.id)
    ensures r.createdAt == initial.createdAt && r.history == initial.history
  {
    CardDraft(
      if data.id.Some? then data.id else initial.id,
      Some(data.title), data.companyName, data.businessType, data.description, data.contactId,
      Some(data.tasks.GetOr([])), Some(data.stageId), data.value, data.source,
      initial.createdAt, initial.history)
  }

  /** The merged card with the given id, creation date and history. */
  function DraftToCard(d: CardDraft, id: string, createdAt: Option<Date>, history: seq<HistoryEntry>): Card {
    Card(id, d.title.GetOr(""), d.companyName, d.businessType, d.description, d.contactId,
         d.tasks.GetOr([]), d.stageId.GetOr(""), d.value, d.source, createdAt, history)
  }

  /** `if (cardData.id)`: an id that is present and not empty. */
  predicate HasId(d: CardDraft) {
    d.id.Some? && d.id.value != ""
  }

  function CardId(stamp: nat): string {
    "card-" + NatToString(stamp)
  }

  /** The cards after `handleSaveCard(data, initialData)`. */
  function SaveCardResult(cards: seq<Card>, data: CardForm, initial: CardDraft, stamp: nat, now: Date): (r: seq<Card>)
    ensures var d := MergeCard(data, initial);
      HasId(d) ==> |r| == |cards| && forall i :: 0 <= i < |cards| && cards[i].id != d.id.value ==> r[i] == cards[i]
    ensures !HasId(MergeCard(data, initial)) ==> |r| == |cards| + 1 && r[..|cards|] == cards
  {
    var d := MergeCard(data, initial);
    if HasId(d) then
      var updated := AddHistoryEntry(DraftToCard(d, d.id.value, d.createdAt, d.history.GetOr([])), "Card atualizado.", stamp, now);
      ReplaceCards(cards, d.id.value, updated)
    else
      cards + [DraftToCard(d, CardId(stamp), Some(now), [HistoryEntry(HistoryId(stamp), now, "Card criado.")])]
  }

  /** Editing keeps the card's id, creation date and history, adds "Card atualizado." and takes the form's fields. */
  lemma SaveCardUpdates(cards: seq<Card>, data: CardForm, initial: CardDraft, stamp: nat, now: Date, i: nat)
    requires HasId(MergeCard(data, initial)) && i < |cards| && cards[i].id == MergeCard(data, initial).id.value
    ensures var c := SaveCardResult(cards, data, initial, stamp, now)[i];
            var old_history := initial.history.GetOr([]);
            && c.id == cards[i].id && c.title == data.title && c.stageId == data.stageId && c.value == data.value
            && c.tasks == data.tasks.GetOr([]) && c.createdAt == initial.createdAt
            && c.history == old_history + [HistoryEntry(HistoryId(stamp), now, "Card atualizado.")]
  {
  }

  /** Creating appends one card with a fresh id, today's creation date and a single "Card criado." entry. */
  lemma SaveCardCreates(cards: seq<Card>, data: CardForm, initial: CardDraft, stamp: nat, now: Date)
    requires !HasId(MergeCard(data, initial))
    ensures var c := SaveCardResult(cards, data, initial, stamp, now)[|cards|];
            && c.id == CardId(stamp) && c.title == data.title && c.stageId == data.stageId && c.value == data.value
            && c.createdAt == Some(now)
            && c.history == [HistoryEntry(HistoryId(stamp), now, "Card criado.")]
  {
  }

  /** `handleNewCardClick`: a blank card placed in the first stage of the funnel, if any. */
  function NewCardDraft(currentStages: seq<Stage>): (r: CardDraft)
    ensures r.id.None? && r.tasks == Some([]) && r.history == Some([])
    ensures r.stageId == Some(if currentStages == [] then "" else currentStages[0].id)
  {
    CardDraft(None, None, Some(""), Some(""), None, None, Some([]),
              Some(if currentStages == [] then "" else currentStages[0].id),
              None, None, None, Some([]))
  }

  // ---------------------------------------------------------------------------
  // Creating funnels and stages

  function FunnelId(stamp: nat): string {
    "funnel-" + NatToString(stamp)
  }

  /** `stage-${Date.now()}-${index}`. */
  function IndexedStageId(stamp: nat, i: nat): string {
    "stage-" + NatToString(stamp) + "-" + NatToString(i)
  }

  /** The stages `handleCreateFunnel` makes, one per name, in order, cycling through the palette. */
  function NewFunnelStages(funnelId: string, names: seq<string>, stamp: nat): (r: seq<Stage>)
    ensures |r| == |names|
    ensures forall i :: 0 <= i < |r| ==>
      r[i].name == names[i] && r[i].funnelId == funnelId && r[i].color == PaletteColor(i) && r[i].id == IndexedStageId(stamp, i)
  {
    seq(|names|, i requires 0 <= i < |names| => Stage(IndexedStageId(stamp, i), names[i], funnelId, PaletteColor(i)))
  }

  /** The stages of one new funnel never share an id. */
  lemma IndexedStageIdsDistinct(stamp: nat, i: nat, j: nat)
    requires i != j
    ensures IndexedStageId(stamp, i) != IndexedStageId(stamp, j)
  {
    var p := "stage-" + NatToString(stamp) + "-";
    if IndexedStageId(stamp, i) == IndexedStageId(stamp, j) {
      assert p + NatToString(i) == IndexedStageId(stamp, i);
      assert p + NatToString(j) == IndexedStageId(stamp, j);
      assert NatToString(i) == (p + NatToString(i))[|p|..];
      assert NatToString(j) == (p + NatToString(j))[|p|..];
      NatToStringInjective(i, j);
    }
  }

  function SingleStageId(stamp: nat): string {
    "stage-" + NatToString(stamp)
  }

  /** The stage `handleCreateStage` appends: next colour after the funnel's current stages. */
  function NewStage(name: string, funnelId: string, currentCount: nat, stamp: nat): (r: Stage)
    ensures r.name == name && r.funnelId == funnelId && r.color == PaletteColor(currentCount)
  {
    Stage(SingleStageId(stamp), name, funnelId, PaletteColor(currentCount))
  }

  // ---------------------------------------------------------------------------
  // Saving a funnel's stage list

  /** The stages reused, in the order of `names`, each recoloured by its position. */
  function ReusedStages(existing: seq<Stage>, names: seq<string>): (r: seq<Stage>)
    ensures |r| <= |names|
  {
    if names == [] then []
    else
      var i := |names| - 1;
      ReusedStages(existing, names[..i]) +
        (match StageNamed(existing, names[i])
         case Some(s) => [s.(color := PaletteColor(i))]
         case None => [])
  }

  function DrawnStageId(stamp: nat, draw: nat -> string, i: nat): string {
    "stage-" + NatToString(stamp) + "-" + draw(i)
  }

  /** The stages created for names no existing stage has. */
  function CreatedStages(existing: seq<Stage>, funnelId: string, names: seq<string>, stamp: nat, draw: nat -> string): (r: seq<Stage>)
    ensures |r| <= |names|
  {
    if names == [] then []
    else
      var i := |names| - 1;
      CreatedStages(existing, funnelId, names[..i], stamp, draw) +
        (if StageNamed(existing, names[i]).Some? then []
         else [Stage(DrawnStageId(stamp, draw, i), names[i], funnelId, PaletteColor(i))])
  }

  /**
   * The `forEach` of `handleSaveFunnel`: each name either reuses the funnel's
   * stage of that name, recoloured by position, or becomes a new stage.
   */
  method SplitStageNames(existing: seq<Stage>, funnelId: string, names: seq<string>, stamp: nat, draw: nat -> string)
    returns (updated: seq<Stage>, created: seq<Stage>)
    ensures updated == ReusedStages(existing, names)
    ensures created == CreatedStages(existing, funnelId, names, stamp, draw)
  {
    updated, created := [], [];
    var i := 0;
    while i < |names|
      invariant 0 <= i <= |names|
      invariant updated == ReusedStages(existing, names[..i])
      invariant created == CreatedStages(existing, funnelId, names[..i], stamp, draw)
    {
      assert names[..i + 1][..i] == names[..i];
      var found := StageNamed(existing, names[i]);
      if found.Some? {
        updated := updated + [found.value.(color := PaletteColor(i))];
      } else {
        created := created + [Stage(DrawnStageId(stamp, draw, i), names[i], funnelId, PaletteColor(i))];
      }
      i := i + 1;
    }
    assert names[..i] == names;
  }

  /** The funnel's stages after saving, reused then created. */
  function SavedStages(existing: seq<Stage>, funnelId: string, names: seq<string>, stamp: nat, draw: nat -> string): seq<Stage> {
    ReusedStages(existing, names) + CreatedStages(existing, funnelId, names, stamp, draw)
  }

  /** The whole stage list after `handleSaveFunnel`: other funnels' stages, then the reused ones, then the new ones. */
  function SaveFunnelStages(stages: seq<Stage>, funnelId: string, names: seq<string>, stamp: nat, draw: nat -> string): (r: seq<Stage>)
    ensures forall i :: 0 <= i < |r| && r[i].funnelId != funnelId ==> r[i] in stages
  {
    var existing := StagesOf(stages, funnelId);
    var kept := Filter(stages, OutsideFunnel(funnelId));
    var saved := SavedStages(existing, funnelId, names, stamp, draw);
    ReusedStagesBelong(existing, funnelId, names);
    CreatedStagesBelong(existing, funnelId, names, stamp, draw);
    assert forall i :: 0 <= i < |saved| ==> saved[i].funnelId == funnelId by {
      forall i | 0 <= i < |saved| ensures saved[i].funnelId == funnelId {
        var reused := ReusedStages(existing, names);
        if i >= |reused| {
          assert saved[i] == CreatedStages(existing, funnelId, names, stamp, draw)[i - |reused|];
        }
      }
    }
    kept + saved
  }

  /** `funnels.map(f => f.id === funnelId ? { ...f, name: newName } : f)`. */
  function RenameFunnel(funnels: seq<Funnel>, funnelId: string, newName: string): (r: seq<Funnel>)
    ensures |r| == |funnels|
    ensures forall i :: 0 <= i < |funnels| ==> r[i].id == funnels[i].id
    ensures forall i :: 0 <= i < |funnels| ==> r[i].name == if funnels[i].id == funnelId then newName else funnels[i].name
  {
    seq(|funnels|, i requires 0 <= i < |funnels| => if funnels[i].id == funnelId then funnels[i].(name := newName) else funnels[i])
  }

  lemma {:induction false} ReusedStagesBelong(existing: seq<Stage>, funnelId: string, names: seq<string>)
    requires forall i :: 0 <= i < |existing| ==> existing[i].funnelId == funnelId
    ensures forall i :: 0 <= i < |ReusedStages(existing, names)| ==> ReusedStages(existing, names)[i].funnelId == funnelId
  {
    if |names| > 0 {
      ReusedStagesBelong(existing, funnelId, names[..|names| - 1]);
    }
  }

  lemma {:induction false} CreatedStagesBelong(existing: seq<Stage>, funnelId: string, names: seq<string>, stamp: nat, draw: nat -> string)
    ensures forall i :: 0 <= i < |CreatedStages(existing, funnelId, names, stamp, draw)| ==>
      CreatedStages(existing, funnelId, names, stamp, draw)[i].funnelId == funnelId
  {
    if |names| > 0 {
      CreatedStagesBelong(existing, funnelId, names[..|names| - 1], stamp, draw);
    }
  }

  lemma FilterNone<T>(xs: seq<T>, p: T -> bool)
    requires forall i :: 0 <= i < |xs| ==> !p(xs[i])
    ensures Filter(xs, p) == []
  {
  }

  /** Saving one funnel leaves every other funnel's stages exactly as they were, in the same order. */
  lemma SaveFunnelKeepsOtherFunnels(stages: seq<Stage>, funnelId: string, names: seq<string>, stamp: nat, draw: nat -> string, other: string)
    requires other != funnelId
    ensures StagesOf(SaveFunnelStages(stages, funnelId, names, stamp, draw), other) == StagesOf(stages, other)
  {
    var existing := StagesOf(stages, funnelId);
    var kept := Filter(stages, OutsideFunnel(funnelId));
    var reused := ReusedStages(existing, names);
    var created := CreatedStages(existing, funnelId, names, stamp, draw);
    var p := InFunnel(other);
    ReusedStagesBelong(existing, funnelId, names);
    CreatedStagesBelong(existing, funnelId, names, stamp, draw);
    FilterConcat(kept, reused + created, p);
    FilterConcat(reused, created, p);
    FilterNone(reused, p);
    FilterNone(created, p);
    FilterSubsumed(stages, OutsideFunnel(funnelId), p);
  }

  /** Filtering by `p` and then by a stricter `q` is filtering by `q`. */
  lemma {:induction false} FilterSubsumed<T>(xs: seq<T>, p: T -> bool, q: T -> bool)
    requires forall i :: 0 <= i < |xs| && q(xs[i]) ==> p(xs[i])
    ensures Filter(Filter(xs, p), q) == Filter(xs, q)
  {
    if xs != [] {
      var head := if p(xs[0]) then [xs[0]] else [];
      FilterSubsumed(xs[1..], p, q);
      FilterConcat(head, Filter(xs[1..], p), q);
      if p(xs[0]) {
        assert [xs[0]][1..] == [];
      }
    }
  }

  /** The stage the last listed name turns into. */
  function LastSaved(existing: seq<Stage>, funnelId: string, names: seq<string>, stamp: nat, draw: nat -> string): (s: Stage)
    requires |names| > 0
    ensures s.name == names[|names| - 1]
  {
    var i := |names| - 1;
    match StageNamed(existing, names[i])
    case Some(found) => found.(color := PaletteColor(i))
    case None => Stage(DrawnStageId(stamp, draw, i), names[i], funnelId, PaletteColor(i))
  }

  lemma SavedLast(existing: seq<Stage>, funnelId: string, names: seq<string>, stamp: nat, draw: nat -> string)
    requires |names| > 0
    ensures LastSaved(existing, funnelId, names, stamp, draw) in SavedStages(existing, funnelId, names, stamp, draw)
  {
    var i := |names| - 1;
    var w := LastSaved(existing, funnelId, names, stamp, draw);
    if StageNamed(existing, names[i]).Some? {
      assert w in ReusedStages(existing, names);
    } else {
      assert w in CreatedStages(existing, funnelId, names, stamp, draw);
    }
  }

  lemma SavedEarlier(existing: seq<Stage>, funnelId: string, names: seq<string>, stamp: nat, draw: nat -> string, w: Stage)
    requires |names| > 0 && w in SavedStages(existing, funnelId, names[..|names| - 1], stamp, draw)
    ensures w in SavedStages(existing, funnelId, names, stamp, draw)
  {
    var prefix := names[..|names| - 1];
    if w in ReusedStages(existing, prefix) {
      assert w in ReusedStages(existing, names);
    } else {
      assert w in CreatedStages(existing, funnelId, names, stamp, draw);
    }
  }

  /** The stage the `k`-th listed name turns into. */
  function CoveringStage(existing: seq<Stage>, funnelId: string, names: seq<string>, stamp: nat, draw: nat -> string, k: nat): Stage
    requires k < |names|
    decreases |names|
  {
    if k < |names| - 1 then CoveringStage(existing, funnelId, names[..|names| - 1], stamp, draw, k)
    else LastSaved(existing, funnelId, names, stamp, draw)
  }

  lemma {:induction false} CoveringStageSaved(existing: seq<Stage>, funnelId: string, names: seq<string>, stamp: nat, draw: nat -> string, k: nat)
    requires k < |names|
    ensures CoveringStage(existing, funnelId, names, stamp, draw, k) in SavedStages(existing, funnelId, names, stamp, draw)
    ensures CoveringStage(existing, funnelId, names, stamp, draw, k).name == names[k]
    decreases |names|
  {
    var i := |names| - 1;
    if k < i {
      var prefix := names[..i];
      CoveringStageSaved(existing, funnelId, prefix, stamp, draw, k);
      assert prefix[k] == names[k];
      SavedEarlier(existing, funnelId, names, stamp, draw, CoveringStage(existing, funnelId, prefix, stamp, draw, k));
    } else {
      SavedLast(existing, funnelId, names, stamp, draw);
    }
  }

  /** After saving, every listed name is the name of one of the funnel's stages. */
  lemma SaveFunnelCoversNames(existing: seq<Stage>, funnelId: string, names: seq<string>, stamp: nat, draw: nat -> string, k: nat)
    requires k < |names|
    ensures exists s :: s in SavedStages(existing, funnelId, names, stamp, draw) && s.name == names[k]
  {
    CoveringStageSaved(existing, funnelId, names, stamp, draw, k);
  }

  /** After saving, the funnel has no stage whose name is not listed: stages left off the list are gone. */
  lemma {:induction false} SaveFunnelOnlyListed(existing: seq<Stage>, funnelId: string, names: seq<string>, stamp: nat, draw: nat -> string)
    ensures forall s :: s in SavedStages(existing, funnelId, names, stamp, draw) ==> s.name in names
  {
    if |names| > 0 {
      var i := |names| - 1;
      var prefix := names[..i];
      SaveFunnelOnlyListed(existing, funnelId, prefix, stamp, draw);
      forall s | s in SavedStages(existing, funnelId, names, stamp, draw)
        ensures s.name in names
      {
        if s in SavedStages(existing, funnelId, prefix, stamp, draw) {
          assert s.name in prefix;
        } else {
          assert s.name == names[i];
        }
      }
    }
  }

  /** A listed name that matches an existing stage keeps that stage's id, so its cards stay on the board. */
  lemma {:induction false} SaveFunnelKeepsIds(existing: seq<Stage>, names: seq<string>, k: nat)
    requires k < |names| && StageNamed(existing, names[k]).Some?
    ensures exists s :: s in ReusedStages(existing, names) && s.id == StageNamed(existing, names[k]).value.id
  {
    var i := |names| - 1;
    var prefix := names[..i];
    var id := StageNamed(existing, names[k]).value.id;
    var w: Stage;
    if k < i {
      assert prefix[k] == names[k];
      SaveFunnelKeepsIds(existing, prefix, k);
      w :| w in ReusedStages(existing, prefix) && w.id == id;
      ReusedEarlier(existing, names, w);
    } else {
      w := StageNamed(existing, names[i]).value.(color := PaletteColor(i));
      assert w in ReusedStages(existing, names);
    }
    assert w in ReusedStages(existing, names) && w.id == id;
  }

  lemma ReusedEarlier(existing: seq<Stage>, names: seq<string>, w: Stage)
    requires |names| > 0 && w in ReusedStages(existing, names[..|names| - 1])
    ensures w in ReusedStages(existing, names)
  {
  }

  // ---------------------------------------------------------------------------
  // Board view

  datatype CardStatus = Default | DueToday | Overdue

  /** An incomplete task with a due date before `today`. */
  predicate TaskOverdue(t: Task, today: Date) {
    !t.completed && t.dueDate.Some? && t.dueDate.value.Before(today)
  }

  /** An incomplete task due exactly `today`. */
  predicate TaskDueToday(t: Task, today: Date) {
    !t.completed && t.dueDate.Some? && t.dueDate.value == today
  }

  function AnyOverdue(tasks: seq<Task>, today: Date): bool {
    tasks != [] && (TaskOverdue(tasks[0], today) || AnyOverdue(tasks[1..], today))
  }

  function AnyDueToday(tasks: seq<Task>, today: Date): bool {
    tasks != [] && (TaskDueToday(tasks[0], today) || AnyDueToday(tasks[1..], today))
  }

  lemma {:induction false} AnyOverdueIff(tasks: seq<Task>, today: Date)
    ensures AnyOverdue(tasks, today) <==> exists i :: 0 <= i < |tasks| && TaskOverdue(tasks[i], today)
  {
    if tasks != [] {
      AnyOverdueIff(tasks[1..], today);
      if exists i :: 0 <= i < |tasks| && TaskOverdue(tasks[i], today) {
        var i :| 0 <= i < |tasks| && TaskOverdue(tasks[i], today);
        if i > 0 { assert tasks[1..][i - 1] == tasks[i]; }
      }
    }
  }

  lemma {:induction false} AnyDueTodayIff(tasks: seq<Task>, today: Date)
    ensures AnyDueToday(tasks, today) <==> exists i :: 0 <= i < |tasks| && TaskDueToday(tasks[i], today)
  {
    if tasks != [] {
      AnyDueTodayIff(tasks[1..], today);
      if exists i :: 0 <= i < |tasks| && TaskDueToday(tasks[i], today) {
        var i :| 0 <= i < |tasks| && TaskDueToday(tasks[i], today);
        if i > 0 { assert tasks[1..][i - 1] == tasks[i]; }
      }
    }
  }

  /** A card is overdue if any open task is past due, else due if any open task is due today. */
  function Status(tasks: seq<Task>, today: Date): (r: CardStatus)
    ensures r == Overdue <==> exists i :: 0 <= i < |tasks| && TaskOverdue(tasks[i], today)
    ensures r == DueToday <==>
      (forall i :: 0 <= i < |tasks| ==> !TaskOverdue(tasks[i], today))
      && exists i :: 0 <= i < |tasks| && TaskDueToday(tasks[i], today)
  {
    AnyOverdueIff(tasks, today);
    AnyDueTodayIff(tasks, today);
    if |tasks| > 0 then
      if AnyOverdue(tasks, today) then Overdue
      else if AnyDueToday(tasks, today) then DueToday
      else Default
    else Default
  }

  function CountDone(tasks: seq<Task>): (n: nat)
    ensures n <= |tasks|
  {
    if tasks == [] then 0 else (if tasks[0].completed then 1 else 0) + CountDone(tasks[1..])
  }

  /** All tasks done exactly when the done count reaches the task count. */
  lemma {:induction false} CountDoneAll(tasks: seq<Task>)
    ensures CountDone(tasks) == |tasks| <==> forall i :: 0 <= i < |tasks| ==> tasks[i].completed
  {
    if tasks != [] {
      CountDoneAll(tasks[1..]);
      if forall i :: 0 <= i < |tasks[1..]| ==> tasks[1..][i].completed {
        if tasks[0].completed {
          forall i | 0 <= i < |tasks| ensures tasks[i].completed {
            if i > 0 { assert tasks[i] == tasks[1..][i - 1]; }
          }
        }
      } else {
        var i :| 0 <= i < |tasks[1..]| && !tasks[1..][i].completed;
        assert !tasks[i + 1].completed;
      }
    }
  }

  datatype CardView = CardView(card: Card, contactName: Option<string>, tasksCount: nat, tasksDoneCount: nat, status: CardStatus)

  /**
   * The view of one card: the card, the name of the first contact with the
   * card's contact id, its task counts and its status.
   */
  function ViewCard(card: Card, contacts: seq<Contact>, today: Date): (v: CardView)
    ensures v.card == card && v.tasksCount == |card.tasks|
    ensures v.tasksDoneCount == CountDone(card.tasks) && v.tasksDoneCount <= v.tasksCount
    ensures v.status == Status(card.tasks, today)
    ensures v.contactName.None? <==>
      card.contactId.None? || forall i :: 0 <= i < |contacts| ==> contacts[i].id != card.contactId.value
    ensures v.contactName.Some? ==>
      && card.contactId.Some?
      && exists i :: 0 <= i < |contacts| && contacts[i].id == card.contactId.value && contacts[i].name == v.contactName.value
           && forall j :: 0 <= j < i ==> contacts[j].id != card.contactId.value
  {
    var contact := Find(contacts, (c: Contact) => card.contactId.Some? && c.id == card.contactId.value);
    CardView(card, if contact.Some? then Some(contact.value.name) else None,
             |card.tasks|, CountDone(card.tasks), Status(card.tasks, today))
  }

  /** The board's cards: those whose stage belongs to the stage list given, in card order. */
  function BoardCards(cards: seq<Card>, currentStages: seq<Stage>): (r: seq<Card>)
    ensures forall i :: 0 <= i < |r| ==> r[i] in cards && r[i].stageId in StageIds(currentStages)
    ensures forall i :: 0 <= i < |cards| && cards[i].stageId in StageIds(currentStages) ==> cards[i] in r
  {
    var ids := StageIds(currentStages);
    Filter(cards, (c: Card) => c.stageId in ids)
  }

  // ---------------------------------------------------------------------------
  // Deleting a funnel

  /** The cards kept when the funnel's stages go: those on a stage of another funnel or on no known stage. */
  function CardsAfterDelete(cards: seq<Card>, stages: seq<Stage>, funnelId: string): (r: seq<Card>)
    ensures forall i :: 0 <= i < |r| ==> r[i] in cards && r[i].stageId !in StageIds(StagesOf(stages, funnelId))
    ensures forall i :: 0 <= i < |cards| && cards[i].stageId !in StageIds(StagesOf(stages, funnelId)) ==> cards[i] in r
  {
    var doomed := StageIds(StagesOf(stages, funnelId));
    Filter(cards, (c: Card) => c.stageId !in doomed)
  }

  // ---------------------------------------------------------------------------
  // The page

  class FunnelsPage {
    var funnels: seq<Funnel>
    var stages: seq<Stage>
    var cards: seq<Card>
    var contacts: seq<Contact>
    var selectedFunnelId: string
    var currentCard: Option<CardDraft>
    var cardFormOpen: bool

    /** The page opens on the first funnel, or on none. */
    constructor (funnels0: seq<Funnel>, stages0: seq<Stage>, cards0: seq<Card>, contacts0: seq<Contact>)
      ensures funnels == funnels0 && stages == stages0 && cards == cards0 && contacts == contacts0
      ensures selectedFunnelId == if funnels0 == [] then "" else funnels0[0].id
      ensures currentCard.None? && !cardFormOpen
    {
      funnels, stages, cards, contacts := funnels0, stages0, cards0, contacts0;
      selectedFunnelId := if funnels0 == [] then "" else funnels0[0].id;
      currentCard, cardFormOpen := None, false;
    }

    /** `selectedFunnel`. */
    function SelectedFunnel(): (r: Option<Funnel>)
      reads this
      ensures r.Some? ==> r.value in funnels && r.value.id == selectedFunnelId
      ensures r.None? <==> forall i :: 0 <= i < |funnels| ==> funnels[i].id != selectedFunnelId
    {
      var id := selectedFunnelId;
      Find(funnels, (f: Funnel) => f.id == id)
    }

    /** `currentStages`: the selected funnel's stages. */
    function CurrentStages(): (r: seq<Stage>)
      reads this
      ensures forall i :: 0 <= i < |r| ==> r[i] in stages && r[i].funnelId == selectedFunnelId
      ensures forall i :: 0 <= i < |stages| && stages[i].funnelId == selectedFunnelId ==> stages[i] in r
    {
      StagesOf(stages, selectedFunnelId)
    }

    /** `currentCards`: the selected funnel's cards with contact name, task counts and status. */
    function CurrentCards(today: Date): (r: seq<CardView>)
      reads this
      ensures |r| == |BoardCards(cards, CurrentStages())|
      ensures forall i :: 0 <= i < |r| ==> r[i] == ViewCard(BoardCards(cards, CurrentStages())[i], contacts, today)
    {
      var board := BoardCards(cards, CurrentStages());
      var known := contacts;
      seq(|board|, i requires 0 <= i < |board| => ViewCard(board[i], known, today))
    }

    /** `handleCardMove`. */
    method MoveCard(cardId: string, newStageId: string, stamp: nat, now: Date)
      modifies this`cards
      ensures cards == MoveCardResult(old(cards), stages, cardId, newStageId, stamp, now)
    {
      cards := MoveCardResult(cards, stages, cardId, newStageId, stamp, now);
    }

    /** `handleCardClick`: opens the form on the card, if there is one with that id. */
    method CardClick(cardId: string)
      modifies this`currentCard, this`cardFormOpen
      ensures CardById(cards, cardId).Some? ==> currentCard == Some(CardToDraft(CardById(cards, cardId).value)) && cardFormOpen
      ensures CardById(cards, cardId).None? ==> currentCard == old(currentCard) && cardFormOpen == old(cardFormOpen)
    {
      var card := CardById(cards, cardId);
      if card.Some? {
        currentCard := Some(CardToDraft(card.value));
        cardFormOpen := true;
      }
    }

    /** `handleNewCardClick`. */
    method NewCardClick()
      modifies this`currentCard, this`cardFormOpen
      ensures currentCard == Some(NewCardDraft(CurrentStages())) && cardFormOpen
    {
      currentCard := Some(NewCardDraft(CurrentStages()));
      cardFormOpen := true;
    }

    /** `handleSaveCard`: updates the card with the form's id or appends a new one, then closes the form. */
    method SaveCard(data: CardForm, initial: CardDraft, stamp: nat, now: Date)
      modifies this`cards, this`currentCard, this`cardFormOpen
      ensures cards == SaveCardResult(old(cards), data, initial, stamp, now)
      ensures currentCard.None? && !cardFormOpen
    {
      cards := SaveCardResult(cards, data, initial, stamp, now);
      cardFormOpen := false;
      currentCard := None;
    }

    /** `handleCreateFunnel`: appends the funnel and its stages and selects it. */
    method CreateFunnel(funnelName: string, stageNames: seq<string>, stamp: nat)
      modifies this`funnels, this`stages, this`selectedFunnelId
      ensures funnels == old(funnels) + [Funnel(FunnelId(stamp), funnelName)]
      ensures stages == old(stages) + NewFunnelStages(FunnelId(stamp), stageNames, stamp)
      ensures selectedFunnelId == FunnelId(stamp)
    {
      var funnel := Funnel(FunnelId(stamp), funnelName);
      funnels := funnels + [funnel];
      stages := stages + NewFunnelStages(funnel.id, stageNames, stamp);
      selectedFunnelId := funnel.id;
    }

    /** `handleCreateStage`: appends a stage to the selected funnel; does nothing when none is selected. */
    method CreateStage(stageName: string, stamp: nat)
      modifies this`stages
      ensures selectedFunnelId == "" ==> stages == old(stages)
      ensures selectedFunnelId != "" ==>
        stages == old(stages) + [NewStage(stageName, selectedFunnelId, |StagesOf(old(stages), selectedFunnelId)|, stamp)]
    {
      if selectedFunnelId != "" {
        var stage := NewStage(stageName, selectedFunnelId, |CurrentStages()|, stamp);
        stages := stages + [stage];
      }
    }

    /** `handleSaveFunnel`: renames the funnel and replaces its stage list. */
    method SaveFunnel(funnelId: string, newName: string, newStageNames: seq<string>, stamp: nat, draw: nat -> string)
      modifies this`funnels, this`stages
      ensures funnels == RenameFunnel(old(funnels), funnelId, newName)
      ensures stages == SaveFunnelStages(old(stages), funnelId, newStageNames, stamp, draw)
    {
      funnels := RenameFunnel(funnels, funnelId, newName);
      var existing := StagesOf(stages, funnelId);
      var updated, created := SplitStageNames(existing, funnelId, newStageNames, stamp, draw);
      stages := Filter(stages, OutsideFunnel(funnelId)) + updated + created;
    }

    /** `handleDeleteFunnel`: removes the selected funnel, its stages and their cards, and selects the first funnel left. */
    method DeleteFunnel()
      modifies this`funnels, this`stages, this`cards, this`selectedFunnelId
      ensures old(selectedFunnelId) == "" || old(SelectedFunnel()).None? ==>
        funnels == old(funnels) && stages == old(stages) && cards == old(cards) && selectedFunnelId == old(selectedFunnelId)
      ensures old(selectedFunnelId) != "" && old(SelectedFunnel()).Some? ==>
        && funnels == Filter(old(funnels), (f: Funnel) => f.id != old(selectedFunnelId))
        && stages == Filter(old(stages), OutsideFunnel(old(selectedFunnelId)))
        && cards == CardsAfterDelete(old(cards), old(stages), old(selectedFunnelId))
        && selectedFunnelId == (if funnels == [] then "" else funnels[0].id)
    {
      if selectedFunnelId == "" {
        return;
      }
      var toDelete := SelectedFunnel();
      if toDelete.None? {
        return;
      }
      var doomed := selectedFunnelId;
      var remaining := Filter(funnels, (f: Funnel) => f.id != doomed);
      funnels := remaining;
      cards := CardsAfterDelete(cards, stages, doomed);
      stages := Filter(stages, OutsideFunnel(doomed));
      selectedFunnelId := if remaining == [] then "" else remaining[0].id;
    }
  }

  /** After a funnel is created and selected, the board shows exactly its new stages, in order. */
  lemma CreatedFunnelBoard(stages: seq<Stage>, funnelName: string, stageNames: seq<string>, stamp: nat)
    requires forall i :: 0 <= i < |stages| ==> stages[i].funnelId != FunnelId(stamp)
    ensures StagesOf(stages + NewFunnelStages(FunnelId(stamp), stageNames, stamp), FunnelId(stamp))
         == NewFunnelStages(FunnelId(stamp), stageNames, stamp)
  {
    var p := InFunnel(FunnelId(stamp));
    FilterConcat(stages, NewFunnelStages(FunnelId(stamp), stageNames, stamp), p);
    FilterNone(stages, p);
    FilterAll(NewFunnelStages(FunnelId(stamp), stageNames, stamp), p);
  }

  /** Deleting a funnel leaves no card on any of its stages, and keeps every card of the other stages. */
  lemma DeleteLeavesNoOrphans(cards: seq<Card>, stages: seq<Stage>, funnelId: string, i: nat)
    requires i < |stages| && stages[i].funnelId == funnelId
    ensures forall c :: c in CardsAfterDelete(cards, stages, funnelId) ==> c.stageId != stages[i].id
  {
    var own := StagesOf(stages, funnelId);
    assert stages[i] in own;
    var k :| 0 <= k < |own| && own[k] == stages[i];
    assert StageIds(own)[k] == stages[i].id;
  }
}

=== FILE: generate_api_key_fn.dfy ===
/**
 * The `generate-api-key` backend function: for the signed-in caller with a
 * profile it issues a token valid for one year, whose claims name the caller,
 * the database role `authenticated`, the caller's CRM role and the issuer.
 * The signing itself is the parameter `sign`.
 */
module GenerateApiKeyFunction {
  import opened Wrappers
  import opened JsNumbers
  import opened JsValues
  import opened Http

  /** What the session lookup answers: the caller's id, no caller, or an error. */
  datatype UserLookup = UserFound(id: string) | NoUser | UserError

  /** What the profile query answers: the profile's role, no row, or an error. */
  datatype ProfileLookup = ProfileFound(role: JsValue) | NoProfile | ProfileError

  /** What signing answers: the token, or the message of the error it threw. */
  datatype Signed = Token(jwt: string) | SignFailed(message: string)

  /** The token's claims. */
  datatype Payload = Payload(sub: string, role: string, userRole: JsValue, exp: int, iss: string)

  /** One year of 365 days, in seconds. */
  const OneYear: int := 60 * 60 * 24 * 365

  /** The secret read when the function is loaded; a missing or empty secret stops the load. */
  function LoadedSecret(env: Option<string>): (secret: Option<string>)
    ensures secret.Some? <==> env.Some? && env.value != ""
    ensures secret.Some? ==> secret == env
  {
    if env.Some? && env.value != "" then env else None
  }

  /** `Math.floor(Date.now() / 1000) + OneYear`, from the clock reading in milliseconds. */
  function Expiry(nowMs: int): (exp: int)
    ensures (exp - OneYear) * 1000 <= nowMs < (exp - OneYear + 1) * 1000
  {
    nowMs / 1000 + OneYear
  }

  /** The token expires between one year less a second and one year after it is issued. */
  lemma ExpiresInAYear(nowMs: int)
    ensures nowMs + OneYear * 1000 - 1000 < Expiry(nowMs) * 1000 <= nowMs + OneYear * 1000
  {
  }

  /** A later clock reading never gives an earlier expiry. */
  lemma ExpiryMonotonic(t1: int, t2: int)
    requires t1 <= t2
    ensures Expiry(t1) <= Expiry(t2)
  {
    var e1, e2 := Expiry(t1), Expiry(t2);
    assert (e1 - OneYear) * 1000 < (e2 - OneYear + 1) * 1000;
  }

  function MakePayload(userId: string, profileRole: JsValue, nowMs: int): (p: Payload)
    ensures p.sub == userId && p.role == "authenticated" && p.userRole == profileRole && p.iss == "supabase"
    ensures p.exp == Expiry(nowMs)
  {
    Payload(userId, "authenticated", profileRole, Expiry(nowMs), "supabase")
  }

  /**
   * The claims as the signed object holds them; `sub`, `exp` and `iss` are
   * the registered claims of section 4.1 of RFC 7519.
   */
  function Claims(p: Payload): (c: map<string, JsValue>)
    ensures c.Keys == {"sub", "role", "user_role", "exp", "iss"}
    ensures c["sub"] == Str(p.sub) && c["iss"] == Str(p.iss) && c["exp"] == Number(Num(p.exp as real))
    ensures c["role"] == Str(p.role) && c["user_role"] == p.userRole
  {
    map["sub" := Str(p.sub), "role" := Str(p.role), "user_role" := p.userRole,
        "exp" := Number(Num(p.exp as real)), "iss" := Str(p.iss)]
  }

  /** Two callers never get the same claims. */
  lemma ClaimsNameTheCaller(u1: string, u2: string, r1: JsValue, r2: JsValue, t1: int, t2: int)
    requires u1 != u2
    ensures Claims(MakePayload(u1, r1, t1)) != Claims(MakePayload(u2, r2, t2))
  {
    assert Claims(MakePayload(u1, r1, t1))["sub"] != Claims(MakePayload(u2, r2, t2))["sub"];
  }

  /**
   * The request handler, for a function whose load read `secretEnv`: no
   * answer at all when the load failed. `sign` stands for signing the claims
   * with the secret (HS256); an error it throws is caught and answered with
   * status 500 and its message.
   */
  method Handle(secretEnv: Option<string>, req: string, user: UserLookup, profile: ProfileLookup, nowMs: int,
                sign: (map<string, JsValue>, string) -> Signed)
    returns (res: Option<Response>)
    ensures LoadedSecret(secretEnv).None? ==> res.None?
    ensures LoadedSecret(secretEnv).Some? ==> res.Some?
    ensures LoadedSecret(secretEnv).Some? && req == "OPTIONS" ==> res == Some(Preflight)
    ensures LoadedSecret(secretEnv).Some? && req != "OPTIONS" && !user.UserFound? ==>
      res == Some(Json(401, ErrorBody("Usuário não autenticado.")))
    ensures LoadedSecret(secretEnv).Some? && req != "OPTIONS" && user.UserFound? && !profile.ProfileFound? ==>
      res == Some(Json(404, ErrorBody("Perfil do usuário não encontrado.")))
    ensures LoadedSecret(secretEnv).Some? && req != "OPTIONS" && user.UserFound? && profile.ProfileFound? ==>
      var signed := sign(Claims(MakePayload(user.id, profile.role, nowMs)), secretEnv.value);
      && (signed.Token? ==> res == Some(Json(200, Obj(map["apiKey" := Str(signed.jwt)]))))
      && (signed.SignFailed? ==> res == Some(Json(500, ErrorBody(signed.message))))
    ensures res.Some? && res.value.body.Get("apiKey") != Undefined ==> user.UserFound? && profile.ProfileFound?
  {
    var secret := LoadedSecret(secretEnv);
    if secret.None? {
      return None;
    }
    if req == "OPTIONS" {
      return Some(Preflight);
    }
    if !user.UserFound? {
      return Some(Json(401, ErrorBody("Usuário não autenticado.")));
    }
    if !profile.ProfileFound? {
      return Some(Json(404, ErrorBody("Perfil do usuário não encontrado.")));
    }
    var payload := MakePayload(user.id, profile.role, nowMs);
    var signed := sign(Claims(payload), secret.value);
    match signed
    case Token(jwt) =>
      res := Some(Json(200, Obj(map["apiKey" := Str(jwt)])));
    case SignFailed(message) =>
      res := Some(Json(500, ErrorBody(message)));
  }
}

=== FILE: goal_gauge.dfy ===
/** The goal gauge: how far the month's revenue has come towards the goal, and the colour of the figure. */
module GoalGauge {

  /** `goal > 0 ? Math.min((value / goal) * 100, 100) : 0`. */
  function Percentage(value: real, goal: real): (p: real)
    ensures goal <= 0.0 ==> p == 0.0
    ensures p <= 100.0
    ensures goal > 0.0 && value / goal * 100.0 < 100.0 ==> p == value / goal * 100.0
    ensures goal > 0.0 && value >= goal ==> p == 100.0
    ensures value >= 0.0 ==> p >= 0.0
  {
    if goal > 0.0 then
      var ratio := value / goal * 100.0;
      assert value >= goal ==> ratio >= 100.0 by {
        if value >= goal {
          assert value / goal >= 1.0;
        }
      }
      assert value >= 0.0 ==> ratio >= 0.0;
      if ratio < 100.0 then ratio else 100.0
    else 0.0
  }

  /** More revenue never shows less progress. */
  lemma PercentageMonotone(v1: real, v2: real, goal: real)
    requires v1 <= v2
    ensures Percentage(v1, goal) <= Percentage(v2, goal)
  {
    if goal > 0.0 {
      assert v2 / goal - v1 / goal == (v2 - v1) / goal;
      assert (v2 - v1) / goal >= 0.0;
    }
  }

  /** `(percentage / 100) * 120`: red at 0%, green at 100%. */
  function Hue(percentage: real): (h: real)
    ensures percentage == 0.0 ==> h == 0.0
    ensures percentage == 100.0 ==> h == 120.0
    ensures 0.0 <= percentage <= 100.0 ==> 0.0 <= h <= 120.0
  {
    percentage / 100.0 * 120.0
  }

  /** For a non-negative revenue the hue stays between 0 and 120. */
  lemma HueInRange(value: real, goal: real)
    requires value >= 0.0
    ensures 0.0 <= Hue(Percentage(value, goal)) <= 120.0
  {
  }
}

=== FILE: goal_progress_chart.dfy ===
/**
 * The goals-versus-results chart: closed revenue added up per month, then one
 * row per monthly goal and one more row per month that has revenue but no goal.
 * Months are identified by year and month; `KeyText` is the `YYYY-MM` text the
 * code keys its objects with, and `KeyTextInjective` shows that two months share
 * a text only when they are the same month. The localized month label and the
 * final sort by that label are not part of the model.
 */
module GoalProgressChart {
  import opened Wrappers
  import opened Text
  import opened CrmData
  import Dashboard

  datatype GoalEntry = GoalEntry(month: int, year: int, goal: real)

  /** A month key: a year and a month, or the key of a date that does not parse. */
  datatype MonthId = Month(year: int, month: int) | InvalidDate

  /** A chart row: `Meta` is the goal, `Alcançado` the revenue reached. */
  datatype Row = Row(key: MonthId, meta: real, achieved: real)

  /** `${year}-${String(month).padStart(2, '0')}`. */
  function MonthKey(year: int, month: int): (r: string)
    ensures |r| >= |IntToString(year)| + 3
    ensures r[..|IntToString(year)| + 1] == IntToString(year) + "-"
  {
    IntToString(year) + "-" + PadStart(IntToString(month), 2, '0')
  }

  /** The text the code uses as the object key: an unparsable date reads `NaN-NaN`. */
  function KeyText(k: MonthId): string {
    match k
    case Month(year, month) => MonthKey(year, month)
    case InvalidDate => "NaN-NaN"
  }

  /** A month's two-character text: a sign or a digit first, a digit last. */
  lemma MonthTextShape(m: int)
    ensures var t := PadStart(IntToString(m), 2, '0');
      && |t| >= 2 && IsDigit(t[|t| - 1])
      && (t[0] == '-' <==> m < 0)
      && forall k :: 1 <= k < |t| ==> IsDigit(t[k])
  {
    IntToStringShape(m);
  }

  /** Different months never share their padded text. */
  lemma MonthTextInjective(m1: int, m2: int)
    requires PadStart(IntToString(m1), 2, '0') == PadStart(IntToString(m2), 2, '0')
    ensures m1 == m2
  {
    var s1, s2 := IntToString(m1), IntToString(m2);
    var t := PadStart(s1, 2, '0');
    IntToStringShape(m1);
    IntToStringShape(m2);
    if m1 < 0 && m2 < 0 {
      IntToStringInjective(m1, m2);
    } else if m1 >= 0 && m2 >= 0 {
      if |s1| >= 2 && |s2| >= 2 {
        IntToStringInjective(m1, m2);
      } else if |s1| == 1 && |s2| == 1 {
        assert s1 == t[1..] == s2;
        IntToStringInjective(m1, m2);
      } else {
        assert false;
      }
    } else {
      MonthTextShape(m1);
      MonthTextShape(m2);
    }
  }

  /**
   * `a + "-" + b` splits back into `a` and `b` when `a` is an integer's text:
   * the separator is the first `-` after the first character.
   */
  lemma SplitAtSeparator(y1: int, b1: string, y2: int, b2: string)
    requires IntToString(y1) + "-" + b1 == IntToString(y2) + "-" + b2
    ensures IntToString(y1) == IntToString(y2) && b1 == b2
  {
    var a1, a2 := IntToString(y1), IntToString(y2);
    var whole, whole' := a1 + "-" + b1, a2 + "-" + b2;
    IntToStringShape(y1);
    IntToStringShape(y2);
    assert whole[|a1|] == '-' && forall k :: 1 <= k < |a1| ==> whole[k] == a1[k];
    assert whole'[|a2|] == '-' && forall k :: 1 <= k < |a2| ==> whole'[k] == a2[k];
    assert |a1| == |a2|;
    assert a1 == whole[..|a1|] == a2;
    assert b1 == whole[|a1| + 1..] == b2;
  }

  /** A month's key text ends in a digit; the key of an unparsable date does not. */
  lemma KeyTextLastChar(k: MonthId)
    ensures |KeyText(k)| >= 1
    ensures IsDigit(KeyText(k)[|KeyText(k)| - 1]) <==> k.Month?
  {
    if k.Month? {
      MonthTextShape(k.month);
      var t := PadStart(IntToString(k.month), 2, '0');
      assert KeyText(k)[|KeyText(k)| - 1] == t[|t| - 1];
    }
  }

  /**
   * Two months share their key text only when they are the same month, so
   * keying by year and month groups the cards as keying by the text does.
   */
  lemma KeyTextInjective(a: MonthId, b: MonthId)
    requires KeyText(a) == KeyText(b)
    ensures a == b
  {
    KeyTextLastChar(a);
    KeyTextLastChar(b);
    if a.Month? && b.Month? {
      SplitAtSeparator(a.year, PadStart(IntToString(a.month), 2, '0'), b.year, PadStart(IntToString(b.month), 2, '0'));
      IntToStringInjective(a.year, b.year);
      MonthTextInjective(a.month, b.month);
    }
  }

  function GoalKey(g: GoalEntry): MonthId {
    Month(g.year, g.month)
  }

  /** Whether `card` is on a closed stage and counts in month `key`. */
  predicate FallsIn(card: Card, closedIds: seq<string>, key: MonthId) {
    card.stageId in closedIds && CardKey(card) == key
  }

  /** The month a closed card counts in. */
  function CardKey(card: Card): (r: MonthId)
    ensures r.Month? ==> Dashboard.RelevantDate(card, "para 'Fechado'").Some?
    ensures Dashboard.LastMentioning(card.history, "para 'Fechado'").None? ==> (r.Month? <==> card.createdAt.Some?)
    ensures Dashboard.LastMentioning(card.history, "para 'Fechado'").None? && card.createdAt.Some? ==>
      r == Month(card.createdAt.value.year, card.createdAt.value.month)
  {
    match Dashboard.RelevantDate(card, "para 'Fechado'")
    case Some(d) => Month(d.year, d.month)
    case None => InvalidDate
  }

  /** `revenueByMonth[key] || 0`. */
  function Get0(m: map<MonthId, real>, key: MonthId): real {
    if key in m then m[key] else 0.0
  }

  // ---------------------------------------------------------------------------
  // Revenue by month

  /** `revenueByMonth` after the `forEach` over `cards`. */
  /** No card sits on a closed stage, checked from the last card back. */
  predicate NoneClosed(cards: seq<Card>, closedIds: seq<string>) {
    |cards| == 0 || (cards[|cards| - 1].stageId !in closedIds && NoneClosed(cards[..|cards| - 1], closedIds))
  }

  /** `NoneClosed` says that no card's stage is among the closed ones. */
  lemma {:induction false} NoneClosedMeans(cards: seq<Card>, closedIds: seq<string>)
    ensures NoneClosed(cards, closedIds) <==> forall i :: 0 <= i < |cards| ==> cards[i].stageId !in closedIds
  {
    if |cards| > 0 {
      var prefix := cards[..|cards| - 1];
      NoneClosedMeans(prefix, closedIds);
      assert forall i :: 0 <= i < |prefix| ==> prefix[i] == cards[i];
    }
  }

  function RevenueByMonth(cards: seq<Card>, closedIds: seq<string>): (r: map<MonthId, real>)
    ensures NoneClosed(cards, closedIds) ==> r == map[]
  {
    if cards == [] then map[]
    else
      var m := RevenueByMonth(cards[..|cards| - 1], closedIds);
      var c := cards[|cards| - 1];
      if c.stageId in closedIds then m[CardKey(c) := Get0(m, CardKey(c)) + c.Amount()] else m
  }

  /** The months in the order they first got revenue (the order `Object.entries` lists them in). */
  function MonthOrder(cards: seq<Card>, closedIds: seq<string>): seq<MonthId> {
    if cards == [] then []
    else
      var order := MonthOrder(cards[..|cards| - 1], closedIds);
      var c := cards[|cards| - 1];
      if c.stageId in closedIds && CardKey(c) !in order then order + [CardKey(c)] else order
  }

  /** The amounts of the closed cards that fall in month `key`, added up. */
  function MonthTotal(cards: seq<Card>, closedIds: seq<string>, key: MonthId): real {
    if cards == [] then 0.0
    else
      var c := cards[|cards| - 1];
      MonthTotal(cards[..|cards| - 1], closedIds, key)
        + (if FallsIn(c, closedIds, key) then c.Amount() else 0.0)
  }

  /** Each month's entry is exactly the total of its closed cards, and a month without one has total 0. */
  lemma {:induction false} RevenueIsMonthTotal(cards: seq<Card>, closedIds: seq<string>, key: MonthId)
    ensures Get0(RevenueByMonth(cards, closedIds), key) == MonthTotal(cards, closedIds, key)
  {
    if cards != [] {
      RevenueIsMonthTotal(cards[..|cards| - 1], closedIds, key);
    }
  }

  /** The months listed are exactly the months with an entry, each once. */
  lemma {:induction false} MonthOrderMatchesKeys(cards: seq<Card>, closedIds: seq<string>)
    ensures forall k :: k in MonthOrder(cards, closedIds) <==> k in RevenueByMonth(cards, closedIds)
    ensures forall i, j :: 0 <= i < j < |MonthOrder(cards, closedIds)| ==> MonthOrder(cards, closedIds)[i] != MonthOrder(cards, closedIds)[j]
  {
    if cards != [] {
      MonthOrderMatchesKeys(cards[..|cards| - 1], closedIds);
    }
  }

  /** A month has an entry exactly when some closed card falls in it. */
  lemma {:induction false} MonthKeysFromCards(cards: seq<Card>, closedIds: seq<string>, key: MonthId)
    ensures key in RevenueByMonth(cards, closedIds) <==>
      exists i :: 0 <= i < |cards| && FallsIn(cards[i], closedIds, key)
  {
    if cards != [] {
      var prefix := cards[..|cards| - 1];
      MonthKeysFromCards(prefix, closedIds, key);
      var before := RevenueByMonth(prefix, closedIds);
      assert key in RevenueByMonth(cards, closedIds) <==> key in before || FallsIn(cards[|cards| - 1], closedIds, key);
      if key in before {
        var i :| 0 <= i < |prefix| && FallsIn(prefix[i], closedIds, key);
        assert cards[i] == prefix[i];
      } else if !FallsIn(cards[|cards| - 1], closedIds, key) {
        forall i | 0 <= i < |cards| ensures !FallsIn(cards[i], closedIds, key) {
          if i < |prefix| {
            assert cards[i] == prefix[i];
          }
        }
      }
    }
  }

  // ---------------------------------------------------------------------------
  // Rows

  /** One row per goal, in goal order. */
  function GoalRows(goals: seq<GoalEntry>, revenue: map<MonthId, real>): (r: seq<Row>)
    ensures |r| == |goals|
  {
    if goals == [] then []
    else
      var g := goals[|goals| - 1];
      GoalRows(goals[..|goals| - 1], revenue) + [Row(GoalKey(g), g.goal, Get0(revenue, GoalKey(g)))]
  }

  /** `processedMonths`: the keys of the goals' months. */
  function GoalKeys(goals: seq<GoalEntry>): set<MonthId> {
    if goals == [] then {}
    else GoalKeys(goals[..|goals| - 1]) + {GoalKey(goals[|goals| - 1])}
  }

  /** The rows for months with revenue and no goal, in month order. */
  function ExtraRows(order: seq<MonthId>, revenue: map<MonthId, real>, processed: set<MonthId>): seq<Row> {
    if order == [] then []
    else
      var k := order[|order| - 1];
      ExtraRows(order[..|order| - 1], revenue, processed)
        + (if k !in processed then [Row(k, 0.0, Get0(revenue, k))] else [])
  }

  /** `chartData` before its sort. */
  function Chart(goals: seq<GoalEntry>, cards: seq<Card>, stages: seq<Stage>): seq<Row> {
    var closedIds := Dashboard.ClosedStageIds(stages);
    var revenue := RevenueByMonth(cards, closedIds);
    GoalRows(goals, revenue) + ExtraRows(MonthOrder(cards, closedIds), revenue, GoalKeys(goals))
  }

  /** Taking one more card into the totals and the month list. */
  lemma {:induction false} AccumulateStep(cards: seq<Card>, closedIds: seq<string>, i: nat)
    requires i < |cards|
    ensures var m := RevenueByMonth(cards[..i], closedIds);
      var c := cards[i];
      RevenueByMonth(cards[..i + 1], closedIds) ==
        if c.stageId in closedIds then m[CardKey(c) := Get0(m, CardKey(c)) + c.Amount()] else m
    ensures var o := MonthOrder(cards[..i], closedIds);
      var c := cards[i];
      MonthOrder(cards[..i + 1], closedIds) ==
        if c.stageId in closedIds && CardKey(c) !in o then o + [CardKey(c)] else o
  {
    assert cards[..i + 1][..i] == cards[..i];
    assert cards[..i + 1][i] == cards[i];
  }

  /** The loop's step: adding the next card's amount keeps the totals and the order of the cards seen so far. */
  lemma AccumulateNext(cards: seq<Card>, closedIds: seq<string>, i: nat, revenue: map<MonthId, real>, order: seq<MonthId>,
                       revenue': map<MonthId, real>, order': seq<MonthId>)
    requires i < |cards|
    requires revenue == RevenueByMonth(cards[..i], closedIds) && order == MonthOrder(cards[..i], closedIds)
    requires var c := cards[i];
      revenue' == if c.stageId in closedIds then revenue[CardKey(c) := Get0(revenue, CardKey(c)) + c.Amount()] else revenue
    requires var c := cards[i];
      order' == if c.stageId in closedIds && CardKey(c) !in order then order + [CardKey(c)] else order
    ensures revenue' == RevenueByMonth(cards[..i + 1], closedIds) && order' == MonthOrder(cards[..i + 1], closedIds)
  {
    AccumulateStep(cards, closedIds, i);
  }

  /** The first `forEach`: revenue added up per month, and the months in first-seen order. */
  method AccumulateRevenue(cards: seq<Card>, closedIds: seq<string>) returns (revenue: map<MonthId, real>, order: seq<MonthId>)
    ensures revenue == RevenueByMonth(cards, closedIds) && order == MonthOrder(cards, closedIds)
  {
    revenue, order := map[], [];
    var i := 0;
    while i < |cards|
      invariant 0 <= i <= |cards|
      invariant revenue == RevenueByMonth(cards[..i], closedIds)
      invariant order == MonthOrder(cards[..i], closedIds)
    {
      ghost var revenue0, order0 := revenue, order;
      var card := cards[i];
      if card.stageId in closedIds {
        var key := CardKey(card);
        if key !in order {
          order := order + [key];
        }
        revenue := revenue[key := Get0(revenue, key) + card.Amount()];
      }
      AccumulateNext(cards, closedIds, i, revenue0, order0, revenue, order);
      i := i + 1;
    }
    assert cards[..i] == cards;
  }

  /** The second `forEach`: one row per goal, and the set of months they cover. */
  method AddGoalRows(goals: seq<GoalEntry>, revenue: map<MonthId, real>) returns (rows: seq<Row>, processed: set<MonthId>)
    ensures rows == GoalRows(goals, revenue) && processed == GoalKeys(goals)
  {
    rows, processed := [], {};
    var j := 0;
    while j < |goals|
      invariant 0 <= j <= |goals|
      invariant rows == GoalRows(goals[..j], revenue)
      invariant processed == GoalKeys(goals[..j])
    {
      assert goals[..j + 1][..j] == goals[..j];
      var key := GoalKey(goals[j]);
      rows := rows + [Row(key, goals[j].goal, Get0(revenue, key))];
      processed := processed + {key};
      j := j + 1;
    }
    assert goals[..j] == goals;
  }

  /** The third `forEach`: a goal-0 row for every month not yet covered. */
  method AddExtraRows(rows0: seq<Row>, order: seq<MonthId>, revenue: map<MonthId, real>, processed: set<MonthId>) returns (rows: seq<Row>)
    ensures rows == rows0 + ExtraRows(order, revenue, processed)
  {
    rows := rows0;
    var k := 0;
    while k < |order|
      invariant 0 <= k <= |order|
      invariant rows == rows0 + ExtraRows(order[..k], revenue, processed)
    {
      assert order[..k + 1][..k] == order[..k];
      var key := order[k];
      if key !in processed {
        rows := rows + [Row(key, 0.0, Get0(revenue, key))];
      }
      k := k + 1;
    }
    assert order[..k] == order;
  }

  /** The `chartData` memo, before its sort. */
  method ChartData(goals: seq<GoalEntry>, cards: seq<Card>, stages: seq<Stage>) returns (rows: seq<Row>)
    ensures rows == Chart(goals, cards, stages)
  {
    var closedIds := Dashboard.ClosedStageIds(stages);
    var revenue, order := AccumulateRevenue(cards, closedIds);
    var goalRows, processed := AddGoalRows(goals, revenue);
    rows := AddExtraRows(goalRows, order, revenue, processed);
  }

  // ---------------------------------------------------------------------------
  // What the rows say

  /** The row of goal `g` sits at position `g`, carries the goal, and the revenue of its month (0 if none). */
  lemma {:induction false} GoalRowAt(goals: seq<GoalEntry>, revenue: map<MonthId, real>, g: nat)
    requires g < |goals|
    ensures GoalRows(goals, revenue)[g] ==
      Row(GoalKey(goals[g]), goals[g].goal, Get0(revenue, GoalKey(goals[g])))
  {
    if g < |goals| - 1 {
      assert goals[..|goals| - 1][g] == goals[g];
      GoalRowAt(goals[..|goals| - 1], revenue, g);
    }
  }

  lemma {:induction false} GoalKeysOf(goals: seq<GoalEntry>, key: MonthId)
    ensures key in GoalKeys(goals) <==> exists g :: 0 <= g < |goals| && GoalKey(goals[g]) == key
  {
    if goals != [] {
      var prefix := goals[..|goals| - 1];
      GoalKeysOf(prefix, key);
      assert GoalKeys(goals) == GoalKeys(prefix) + {GoalKey(goals[|goals| - 1])};
      if key in GoalKeys(prefix) {
        var g :| 0 <= g < |prefix| && GoalKey(prefix[g]) == key;
        assert goals[g] == prefix[g];
      } else if GoalKey(goals[|goals| - 1]) != key {
        forall g | 0 <= g < |goals| ensures GoalKey(goals[g]) != key {
          if g < |prefix| {
            assert goals[g] == prefix[g];
          }
        }
      }
    }
  }

  /** How many rows carry `key`. */
  function CountKey(rows: seq<Row>, key: MonthId): nat {
    if rows == [] then 0
    else CountKey(rows[..|rows| - 1], key) + (if rows[|rows| - 1].key == key then 1 else 0)
  }

  lemma {:induction false} CountKeyConcat(a: seq<Row>, b: seq<Row>, key: MonthId)
    ensures CountKey(a + b, key) == CountKey(a, key) + CountKey(b, key)
    decreases |b|
  {
    if b == [] {
      assert a + b == a;
    } else {
      assert (a + b)[..|a + b| - 1] == a + b[..|b| - 1];
      CountKeyConcat(a, b[..|b| - 1], key);
    }
  }

  /** Every extra row has goal 0 and the revenue of its month. */
  lemma {:induction false} ExtraRowsShape(order: seq<MonthId>, revenue: map<MonthId, real>, processed: set<MonthId>)
    ensures forall r :: r in ExtraRows(order, revenue, processed) ==> r == Row(r.key, 0.0, Get0(revenue, r.key))
  {
    if order != [] {
      ExtraRowsShape(order[..|order| - 1], revenue, processed);
    }
  }

  /** Dropping the last of distinct months leaves distinct months without it. */
  lemma DistinctPrefix(order: seq<MonthId>)
    requires |order| > 0
    requires forall i, j :: 0 <= i < j < |order| ==> order[i] != order[j]
    ensures order == order[..|order| - 1] + [order[|order| - 1]]
    ensures var prefix := order[..|order| - 1];
      forall i, j :: 0 <= i < j < |prefix| ==> prefix[i] != prefix[j]
    ensures order[|order| - 1] !in order[..|order| - 1]
  {
    var prefix := order[..|order| - 1];
    forall i | 0 <= i < |prefix| ensures prefix[i] != order[|order| - 1] {
      assert prefix[i] == order[i];
    }
  }

  /** One more month adds one row for it exactly when it has no goal. */
  lemma ExtraRowsStep(prefix: seq<MonthId>, last: MonthId, revenue: map<MonthId, real>, processed: set<MonthId>, key: MonthId)
    ensures CountKey(ExtraRows(prefix + [last], revenue, processed), key)
      == CountKey(ExtraRows(prefix, revenue, processed), key) + (if key == last && last !in processed then 1 else 0)
  {
    var order := prefix + [last];
    assert order[..|order| - 1] == prefix;
    var tail := if last !in processed then [Row(last, 0.0, Get0(revenue, last))] else [];
    assert ExtraRows(order, revenue, processed) == ExtraRows(prefix, revenue, processed) + tail;
    CountKeyConcat(ExtraRows(prefix, revenue, processed), tail, key);
    if last !in processed {
      assert tail[..0] == [];
    }
  }

  /**
   * Over a list of distinct months, the extra rows hold `key` once if the month
   * is listed without a goal, and never otherwise.
   */
  lemma {:induction false} ExtraRowsCount(order: seq<MonthId>, revenue: map<MonthId, real>, processed: set<MonthId>, key: MonthId)
    requires forall i, j :: 0 <= i < j < |order| ==> order[i] != order[j]
    ensures CountKey(ExtraRows(order, revenue, processed), key) == if key in order && key !in processed then 1 else 0
  {
    if order != [] {
      var prefix := order[..|order| - 1];
      var last := order[|order| - 1];
      DistinctPrefix(order);
      ExtraRowsCount(prefix, revenue, processed, key);
      ExtraRowsStep(prefix, last, revenue, processed, key);
      if key == last {
        assert key in order;
      } else {
        assert key in order <==> key in prefix;
      }
    }
  }

  /**
   * Every month with closed revenue and no goal gets exactly one row, with goal 0
   * and that revenue; a month that has a goal gets no row beyond the goal rows.
   */
  lemma ChartExtraMonths(goals: seq<GoalEntry>, cards: seq<Card>, stages: seq<Stage>, key: MonthId)
    ensures var closedIds := Dashboard.ClosedStageIds(stages);
      var revenue := RevenueByMonth(cards, closedIds);
      var extra := Chart(goals, cards, stages)[|goals|..];
      && CountKey(extra, key) == (if key in revenue && key !in GoalKeys(goals) then 1 else 0)
      && forall r :: r in extra ==> r.meta == 0.0 && r.achieved == MonthTotal(cards, closedIds, r.key)
  {
    var closedIds := Dashboard.ClosedStageIds(stages);
    var revenue := RevenueByMonth(cards, closedIds);
    var order := MonthOrder(cards, closedIds);
    var goalRows := GoalRows(goals, revenue);
    var extra := ExtraRows(order, revenue, GoalKeys(goals));
    assert Chart(goals, cards, stages)[|goals|..] == extra by {
      assert Chart(goals, cards, stages) == goalRows + extra;
    }
    MonthOrderMatchesKeys(cards, closedIds);
    ExtraRowsCount(order, revenue, GoalKeys(goals), key);
    ExtraRowsShape(order, revenue, GoalKeys(goals));
    forall r | r in extra ensures r.meta == 0.0 && r.achieved == MonthTotal(cards, closedIds, r.key) {
      RevenueIsMonthTotal(cards, closedIds, r.key);
    }
  }

  /** Goal `g`'s row reaches exactly the closed revenue of its month. */
  lemma ChartGoalRow(goals: seq<GoalEntry>, cards: seq<Card>, stages: seq<Stage>, g: nat)
    requires g < |goals|
    ensures var closedIds := Dashboard.ClosedStageIds(stages);
      var key := GoalKey(goals[g]);
      Chart(goals, cards, stages)[g] == Row(key, goals[g].goal, MonthTotal(cards, closedIds, key))
  {
    var closedIds := Dashboard.ClosedStageIds(stages);
    var revenue := RevenueByMonth(cards, closedIds);
    GoalRowAt(goals, revenue, g);
    RevenueIsMonthTotal(cards, closedIds, GoalKey(goals[g]));
  }
}

=== FILE: goals_manager.dfy ===
/**
 * The goals manager: per-month revenue goals stored in the `goals` table. A new
 * goal is checked, inserted (the insert's reply is a parameter), and the row the
 * database returns is put at the head of the list.
 */
module GoalsManager {
  import opened Wrappers
  import opened JsNumbers

  datatype Goal = Goal(id: int, month: JsNumber, year: JsNumber, goalAmount: JsNumber)

  /** The row sent to `insert`. */
  datatype GoalInsert = GoalInsert(month: JsNumber, year: JsNumber, goalAmount: JsNumber)

  /** The reply of `insert(...).select()`. */
  datatype InsertReply = InsertFailed(message: string) | Inserted(rows: seq<Goal>)

  /** The reply of the `select`, already ordered by the database; `None` rows stand for `data` being `null`. */
  datatype FetchReply = FetchFailed(message: string) | FetchedRows(rows: Option<seq<Goal>>)

  datatype CreateOutcome =
    | Invalid        // "Preencha mês, ano e valor da meta corretamente."
    | Failed         // "Erro ao criar meta: ..."
    | Created        // "Meta criada com sucesso!"

  /** The insert `createGoal` makes, or `None` when month, year or amount is refused. */
  function GoalRequest(month: JsNumber, year: JsNumber, amount: string): (r: Option<GoalInsert>)
    ensures r.Some? <==> month.Truthy() && year.Truthy() && ParseNumber(amount).Above(0.0)
    ensures r.Some? ==> r.value == GoalInsert(month, year, ParseNumber(amount))
  {
    var goalAmount := ParseNumber(amount);
    if !month.Truthy() || !year.Truthy() || goalAmount.NaN? || !goalAmount.Above(0.0) then None
    else Some(GoalInsert(month, year, goalAmount))
  }

  /** The list after a successful insert: the first returned row in front, if there is one. */
  function GoalsAfterInsert(goals: seq<Goal>, rows: seq<Goal>): (r: seq<Goal>)
    ensures rows == [] ==> r == goals
    ensures rows != [] ==> |r| == |goals| + 1 && r[0] == rows[0] && r[1..] == goals
  {
    if |rows| > 0 then [rows[0]] + goals else goals
  }

  /** An amount of 0, a negative one or a non-number is refused. */
  lemma NonPositiveAmountRefused(month: JsNumber, year: JsNumber, amount: string)
    requires ParseNumber(amount).NaN? || (ParseNumber(amount).Num? && ParseNumber(amount).value <= 0.0)
    ensures GoalRequest(month, year, amount).None?
  {
  }

  /**
   * There is no check for an existing goal of the same month: two accepted
   * inserts for one month put two rows on the list.
   */
  lemma SameMonthTwice(goals: seq<Goal>, first: Goal, second: Goal)
    requires first.month == second.month && first.year == second.year
    ensures var after := GoalsAfterInsert(GoalsAfterInsert(goals, [first]), [second]);
      |after| == |goals| + 2 && after[0] == second && after[1] == first
  {
  }

  class GoalsManager {
    var goals: seq<Goal>
    var month: JsNumber
    var year: JsNumber
    var amount: string

    constructor (currentMonth: nat, currentYear: int)
      ensures goals == [] && month == Num(currentMonth as real) && year == Num(currentYear as real) && amount == ""
    {
      goals := [];
      month := Num(currentMonth as real);
      year := Num(currentYear as real);
      amount := "";
    }

    /** `fetchGoals`: the rows replace the list (`data || []`); an error leaves it as it was. */
    method FetchGoals(reply: FetchReply)
      modifies this`goals
      ensures reply.FetchFailed? ==> goals == old(goals)
      ensures reply.FetchedRows? ==> goals == reply.rows.GetOr([])
    {
      if reply.FetchedRows? {
        goals := reply.rows.GetOr([]);
      }
    }

    /**
     * `createGoal`: the insert made (`None` when the entry is refused), and what
     * the user is told. Only a successful insert clears the amount and adds a row.
     */
    method CreateGoal(reply: InsertReply) returns (request: Option<GoalInsert>, outcome: CreateOutcome)
      modifies this`goals, this`amount
      ensures request == GoalRequest(old(month), old(year), old(amount))
      ensures request.None? ==> outcome == Invalid
      ensures request.Some? ==> outcome == (if reply.InsertFailed? then Failed else Created)
      ensures outcome != Created ==> goals == old(goals) && amount == old(amount)
      ensures outcome == Created ==> goals == GoalsAfterInsert(old(goals), reply.rows) && amount == ""
    {
      request := GoalRequest(month, year, amount);
      if request.None? {
        return request, Invalid;
      }
      if reply.InsertFailed? {
        return request, Failed;
      }
      amount := "";
      goals := GoalsAfterInsert(goals, reply.rows);
      outcome := Created;
    }
  }
}

=== FILE: goals_page.dfy ===
/**
 * The goals page: one monthly revenue goal, edited through a text box that is
 * refilled with the goal's decimal text whenever the goal changes.
 */
module GoalsPage {
  import opened Text
  import opened JsNumbers

  /** `!isNaN(n) && n >= 0`: what the page accepts as a goal (Infinity included). */
  predicate Acceptable(n: JsNumber)
    ensures Acceptable(n) <==> (n.Num? && n.value >= 0.0) || n == Inf(false)
  {
    n.AtLeast(0.0)
  }

  /** The goal after `handleSave` with `input` in the text box. */
  function SavedGoal(goal: JsNumber, input: string): (r: JsNumber)
    ensures Acceptable(ParseNumber(input)) ==> r == ParseNumber(input)
    ensures !Acceptable(ParseNumber(input)) ==> r == goal
    ensures Acceptable(goal) ==> Acceptable(r)
  {
    var n := ParseNumber(input);
    if Acceptable(n) then n else goal
  }

  /** The text box after the save: refilled by the effect only if the goal changed. */
  function DisplayAfterSave(goal: JsNumber, input: string): (r: string)
    ensures !Acceptable(ParseNumber(input)) ==> r == input
    ensures Acceptable(ParseNumber(input)) && ParseNumber(input) != goal ==> r == FormatNumber(ParseNumber(input))
  {
    var saved := SavedGoal(goal, input);
    if saved != goal then FormatNumber(saved) else input
  }

  /** A negative, non-numeric or empty-of-digits entry is refused and the goal stays. */
  lemma InvalidEntryKeepsGoal(goal: JsNumber, input: string)
    requires ParseNumber(input).NaN? || (ParseNumber(input).Num? && ParseNumber(input).value < 0.0)
    ensures SavedGoal(goal, input) == goal && DisplayAfterSave(goal, input) == input
  {
  }

  /** Saving the text the page shows for a goal leaves the goal as it is. */
  lemma SaveDisplayedGoal(x: real, j: nat)
    requires x >= 0.0 && j <= 20 && ExactAt(x, j)
    ensures SavedGoal(Num(x), FormatNumber(Num(x))) == Num(x)
    ensures DisplayAfterSave(Num(x), FormatNumber(Num(x))) == FormatNumber(Num(x))
  {
    ParseFormatRoundTrip(x, j);
  }

  /** After a save the text box reads back as the goal, whenever the new goal is a decimal the box can show exactly. */
  lemma DisplayReadsBack(goal: JsNumber, input: string, x: real, j: nat)
    requires SavedGoal(goal, input) == Num(x) && j <= 20 && ExactAt(x, j)
    requires Acceptable(ParseNumber(input))
    ensures ParseNumber(DisplayAfterSave(goal, input)) == SavedGoal(goal, input)
  {
    ParseFormatRoundTrip(x, j);
  }

  class GoalsPage {
    var goal: JsNumber
    var inputValue: string

    constructor (stored: JsNumber)
      ensures goal == stored && inputValue == FormatNumber(stored)
    {
      goal, inputValue := stored, FormatNumber(stored);
    }

    /** Typing in the text box. */
    method Edit(text: string)
      modifies this`inputValue
      ensures inputValue == text
    {
      inputValue := text;
    }

    /**
     * `handleSave` followed by the resync effect: an acceptable entry becomes the
     * goal (`saved`), anything else is reported and changes nothing.
     */
    method Save() returns (saved: bool)
      modifies this`goal, this`inputValue
      ensures saved <==> Acceptable(ParseNumber(old(inputValue)))
      ensures goal == SavedGoal(old(goal), old(inputValue))
      ensures inputValue == DisplayAfterSave(old(goal), old(inputValue))
    {
      var newGoal := ParseNumber(inputValue);
      saved := Acceptable(newGoal);
      if saved {
        var changed := newGoal != goal;
        goal := newGoal;
        if changed {
          inputValue := FormatNumber(goal);
        }
      }
    }
  }
}

=== FILE: http.dfy ===
/**
 * The responses the backend functions send: the CORS preflight answer and
 * JSON answers carrying a status, the CORS headers and a JSON body.
 */
module Http {
  import opened JsValues

  /** A response: its status, its headers and its body (`Null` for none). */
  datatype Response = Response(status: nat, headers: map<string, string>, body: JsValue)

  const CorsHeaders: map<string, string> := map[
    "Access-Control-Allow-Origin" := "*",
    "Access-Control-Allow-Headers" := "authorization, x-client-info, apikey, content-type"]

  /** The answer to an `OPTIONS` request: the CORS headers, no body, status 200. */
  const Preflight: Response := Response(200, CorsHeaders, Null)

  /** A JSON answer: the CORS headers plus the JSON content type. */
  function Json(status: nat, body: JsValue): (r: Response)
    ensures r.status == status && r.body == body
    ensures r.headers.Keys == CorsHeaders.Keys + {"Content-Type"} && r.headers["Content-Type"] == "application/json"
    ensures forall k :: k in CorsHeaders ==> r.headers[k] == CorsHeaders[k]
  {
    Response(status, CorsHeaders["Content-Type" := "application/json"], body)
  }

  /** `{ error: message }`. */
  function ErrorBody(message: string): (b: JsValue)
    ensures b.Get("error") == Str(message)
  {
    Obj(map["error" := Str(message)])
  }
}

=== FILE: import_contacts_dialog.dfy ===
/**
 * The dialog that imports contacts from a CSV file: the rows the CSV parser
 * hands back (header name to cell text), the preview, and the contacts built
 * from the rows, with their column-name fallbacks and generated ids.
 */
module ImportContactsDialog {
  import opened Wrappers
  import opened Text
  import opened CrmData
  import ContactsPage
  import opened JsonText

  /** A parsed row: each column of the header line to its cell in that row. */
  type Row = map<string, string>

  /** `row[k0] || row[k1] || ... || ""`: the first column in `keys` with a non-empty cell. */
  function FirstFilled(row: Row, keys: seq<string>): (r: string)
    ensures r == "" <==> forall i :: 0 <= i < |keys| ==> keys[i] !in row || row[keys[i]] == ""
    ensures r != "" ==> exists i :: (0 <= i < |keys| && keys[i] in row && row[keys[i]] == r
      && forall j :: 0 <= j < i ==> keys[j] !in row || row[keys[j]] == "")
  {
    if keys == [] then ""
    else if keys[0] in row && row[keys[0]] != "" then row[keys[0]]
    else
      var r := FirstFilled(row, keys[1..]);
      assert r != "" ==> exists i :: (0 <= i < |keys| && keys[i] in row && row[keys[i]] == r
        && forall j :: 0 <= j < i ==> keys[j] !in row || row[keys[j]] == "") by {
        if r != "" {
          var i :| 0 <= i < |keys[1..]| && keys[1..][i] in row && row[keys[1..][i]] == r
            && forall j :: 0 <= j < i ==> keys[1..][j] !in row || row[keys[1..][j]] == "";
          forall j | 0 <= j < i + 1 ensures keys[j] !in row || row[keys[j]] == "" {
            if j > 0 {
              assert keys[j] == keys[1..][j - 1];
            }
          }
          assert keys[i + 1] == keys[1..][i];
        }
      }
      assert r == "" ==> forall i :: 0 <= i < |keys| ==> keys[i] !in row || row[keys[i]] == "" by {
        if r == "" {
          forall i | 0 <= i < |keys| ensures keys[i] !in row || row[keys[i]] == "" {
            if i > 0 {
              assert keys[i] == keys[1..][i - 1];
            }
          }
        }
      }
      r
  }

  const NameColumns: seq<string> := ["name", "Name", "Nome"]
  const EmailColumns: seq<string> := ["email", "Email"]
  const PhoneColumns: seq<string> := ["phone", "Phone", "Telefone"]

  /** `contact-${Date.now()}-${Math.random()}`, from the clock reading and the text of the random draw. */
  function ImportId(stamp: nat, draw: string): (r: string)
    ensures |r| > 9 + |draw| && r[..8] == "contact-" && r[|r| - |draw| - 1..] == "-" + draw
  {
    "contact-" + NatToString(stamp) + "-" + draw
  }

  /**
   * Ids built from different readings or different draws differ, as long as
   * the draw's text holds no `-` (a draw printed in exponent form, such as
   * `5e-7`, would).
   */
  lemma ImportIdInjective(s1: nat, d1: string, s2: nat, d2: string)
    requires '-' !in d1 && '-' !in d2
    requires ImportId(s1, d1) == ImportId(s2, d2)
    ensures s1 == s2 && d1 == d2
  {
    forall s: nat, d: string | '-' !in d ensures Split(ImportId(s, d), '-') == ["contact", NatToString(s), d] {
      var parts := ["contact", NatToString(s), d];
      assert parts[1..] == [NatToString(s), d] && parts[1..][1..] == [d];
      assert Join(parts[1..], '-') == NatToString(s) + "-" + d;
      assert Join(parts, '-') == "contact" + "-" + (NatToString(s) + "-" + d);
      assert Join(parts, '-') == ImportId(s, d);
      SplitJoin(["contact", NatToString(s), d], '-');
    }
    NatToStringInjective(s1, s2);
  }

  /** The contact one row becomes: name, email and phone from their columns, blank when none is filled. */
  function RowContact(row: Row, id: string): (c: Contact)
    ensures c.id == id && c.name == FirstFilled(row, NameColumns)
    ensures c.email == Some(FirstFilled(row, EmailColumns)) && c.phone == Some(FirstFilled(row, PhoneColumns))
    ensures c.company.None? && c.role.None? && c.industry.None? && c.companyUrl.None? && c.address.None?
  {
    Contact(id, FirstFilled(row, NameColumns), Some(FirstFilled(row, EmailColumns)), Some(FirstFilled(row, PhoneColumns)),
            None, None, None, None, None)
  }

  function Named(): Contact -> bool {
    (c: Contact) => c.name != ""
  }

  /** Every row as a contact; row `i` takes clock reading `stamp(i)` and random draw `draw(i)`. */
  function RowContacts(rows: seq<Row>, stamp: nat -> nat, draw: nat -> string): (r: seq<Contact>)
    ensures |r| == |rows|
    ensures forall i :: 0 <= i < |r| ==> r[i] == RowContact(rows[i], ImportId(stamp(i), draw(i)))
  {
    seq(|rows|, i requires 0 <= i < |rows| => RowContact(rows[i], ImportId(stamp(i), draw(i))))
  }

  /** `parsedData.map(...).filter(contact => contact.name)`. */
  function ImportedContacts(rows: seq<Row>, stamp: nat -> nat, draw: nat -> string): (r: seq<Contact>)
    ensures |r| <= |rows|
    ensures forall i :: 0 <= i < |r| ==> r[i].name != "" && r[i] in RowContacts(rows, stamp, draw)
    ensures forall i :: 0 <= i < |rows| && FirstFilled(rows[i], NameColumns) != "" ==>
      RowContact(rows[i], ImportId(stamp(i), draw(i))) in r
  {
    var all := RowContacts(rows, stamp, draw);
    var r := Filter(all, Named());
    assert forall i :: 0 <= i < |rows| && FirstFilled(rows[i], NameColumns) != "" ==>
      RowContact(rows[i], ImportId(stamp(i), draw(i))) in r by {
      forall i | 0 <= i < |rows| && FirstFilled(rows[i], NameColumns) != ""
        ensures RowContact(rows[i], ImportId(stamp(i), draw(i))) in r
      {
        assert all[i] == RowContact(rows[i], ImportId(stamp(i), draw(i)));
      }
    }
    r
  }

  /** When every row has a name, every row is imported, in file order. */
  lemma AllNamedImported(rows: seq<Row>, stamp: nat -> nat, draw: nat -> string)
    requires forall i :: 0 <= i < |rows| ==> FirstFilled(rows[i], NameColumns) != ""
    ensures ImportedContacts(rows, stamp, draw) == RowContacts(rows, stamp, draw)
  {
    var all := RowContacts(rows, stamp, draw);
    FilterAll(all, Named());
  }

  /** A quoted cell's body as a CSV reader reads it: each doubled `"` stands for one. */
  function Undouble(s: string): (r: string)
    ensures '"' !in s ==> r == s
    decreases |s|
  {
    if |s| == 0 then s
    else if |s| >= 2 && s[0] == '"' && s[1] == '"' then "\"" + Undouble(s[2..])
    else
      assert '"' !in s ==> '"' !in s[1..] by {
        if '"' in s[1..] {
          var i :| 0 <= i < |s[1..]| && s[1..][i] == '"';
          assert s[i + 1] == '"';
        }
      }
      [s[0]] + Undouble(s[1..])
  }

  /**
   * How Papa Parse reads one cell: a cell between double quotes loses them
   * and its doubled quotes become single; any other cell is taken as it is.
   */
  function CsvField(cell: string): (r: string)
    ensures !(|cell| >= 2 && cell[0] == '"' && cell[|cell| - 1] == '"') ==> r == cell
  {
    if |cell| >= 2 && cell[0] == '"' && cell[|cell| - 1] == '"' then Undouble(cell[1..|cell| - 1]) else cell
  }

  /** A quoted cell around plain text reads back as that text. */
  lemma CsvFieldPlain(s: string)
    requires Plain(s)
    ensures CsvField(Quote(s)) == s
  {
    QuotePlain(s);
    var q := Quote(s);
    assert q[1..|q| - 1] == s;
  }

  /**
   * The row a CSV reader makes of one line of the contacts export: each of
   * the five exported columns to its cell as the reader decodes it.
   */
  function ExportedRow(c: Contact): Row {
    CellsRow(CsvField(Quote(c.id)), CsvField(Quote(c.name)), CsvField(ContactsPage.CsvCell(c.email)),
             CsvField(ContactsPage.CsvCell(c.phone)), CsvField(ContactsPage.CsvCell(c.company)))
  }

  /** The five exported columns to the given cells. */
  function CellsRow(id: string, name: string, email: string, phone: string, company: string): Row {
    map[ContactsPage.CsvHeaders[0] := id, ContactsPage.CsvHeaders[1] := name, ContactsPage.CsvHeaders[2] := email,
        ContactsPage.CsvHeaders[3] := phone, ContactsPage.CsvHeaders[4] := company]
  }

  /** With a plain name, email and phone, the reader gets those three back unchanged. */
  lemma ExportedRowPlain(c: Contact)
    requires Plain(c.name) && Plain(c.email.GetOr("")) && Plain(c.phone.GetOr(""))
    ensures ExportedRow(c) == CellsRow(CsvField(Quote(c.id)), c.name, c.email.GetOr(""), c.phone.GetOr(""),
                                       CsvField(ContactsPage.CsvCell(c.company)))
  {
    CsvFieldPlain(c.name);
    CsvFieldPlain(c.email.GetOr(""));
    CsvFieldPlain(c.phone.GetOr(""));
  }

  /** The contact built from a row of the five exported columns, whatever the id and company cells hold. */
  lemma CellsImported(name: string, email: string, phone: string, idCell: string, companyCell: string, id: string)
    requires name != ""
    ensures var d := RowContact(CellsRow(idCell, name, email, phone, companyCell), id);
      && d.id == id && d.name == name && d.email == Some(email) && d.phone == Some(phone)
      && d.company.None?
  {
    var row := CellsRow(idCell, name, email, phone, companyCell);
    assert "name" in row && row["name"] == name;
    assert "email" in row && row["email"] == email;
    assert "phone" in row && row["phone"] == phone;
    if email == "" {
      assert "Email" !in row;
    }
    if phone == "" {
      assert "Phone" !in row && "Telefone" !in row;
    }
  }

  /**
   * Importing an exported contact keeps its name, email and phone (a missing
   * email or phone comes back blank) and gives it a new id; the company and
   * the fields the export leaves out are lost. The name, email and phone must
   * be plain text, which the export writes unchanged between quotes.
   */
  lemma ExportThenImport(c: Contact, id: string)
    requires c.name != ""
    requires Plain(c.name) && Plain(c.email.GetOr("")) && Plain(c.phone.GetOr(""))
    ensures var d := RowContact(ExportedRow(c), id);
      && d.id == id && d.name == c.name
      && d.email == Some(c.email.GetOr("")) && d.phone == Some(c.phone.GetOr(""))
      && d.company.None?
  {
    ExportedRowPlain(c);
    CellsImported(c.name, c.email.GetOr(""), c.phone.GetOr(""), CsvField(Quote(c.id)),
                  CsvField(ContactsPage.CsvCell(c.company)), id);
  }

  /** The reader's `name` cell is the decoded quoted name. */
  lemma ExportedName(c: Contact)
    ensures "name" in ExportedRow(c) && ExportedRow(c)["name"] == CsvField(Quote(c.name))
  {
    assert ContactsPage.CsvHeaders[1] == "name";
  }

  /** A cell between double quotes whose body holds none reads back as the body. */
  lemma CsvFieldQuoted(body: string)
    requires '"' !in body
    ensures CsvField("\"" + body + "\"") == body
  {
    var q := "\"" + body + "\"";
    assert q[1..|q| - 1] == body;
  }

  /** Plain texts around a doubled backslash hold no double quote. */
  lemma NoQuoteAround(a: string, b: string)
    requires Plain(a) && Plain(b)
    ensures '"' !in a + "\\\\" + b
  {
    var body := a + "\\\\" + b;
    forall i | 0 <= i < |body| ensures body[i] != '"' {
      if i < |a| {
        assert body[i] == a[i];
      } else if i >= |a| + 2 {
        assert body[i] == b[i - |a| - 2];
      }
    }
  }

  /** A quoted cell around a backslash between plain texts reads back with the backslash doubled. */
  lemma CsvFieldBackslash(a: string, b: string)
    requires Plain(a) && Plain(b)
    ensures CsvField(Quote(a + "\\" + b)) == a + "\\\\" + b
  {
    QuoteInnerBackslash(a, b);
    EscapePlain(a);
    EscapePlain(b);
    Regroup("\"", a, "\\\\", b, "\"");
    assert "\"" + a + "\\\\" + b + "\"" == "\"" + (a + "\\\\" + b) + "\"";
    NoQuoteAround(a, b);
    CsvFieldQuoted(a + "\\\\" + b);
  }

  /**
   * A backslash in a name does not survive: the export writes it as two, and
   * the reader keeps both.
   */
  lemma ExportDoublesBackslash(c: Contact, a: string, b: string)
    requires c.name == a + "\\" + b && Plain(a) && Plain(b)
    ensures ExportedRow(c)["name"] == a + "\\\\" + b
  {
    ExportedName(c);
    CsvFieldBackslash(a, b);
  }

  /** What `handleImport` does: nothing for an empty file, otherwise hand over the contacts and close. */
  datatype ImportOutcome = NothingToImport | Imported(contacts: seq<Contact>)

  class ImportContactsDialog {
    var file: Option<string>
    var parsedData: seq<Row>
    var headers: seq<string>

    constructor ()
      ensures file.None? && parsedData == [] && headers == []
    {
      file, parsedData, headers := None, [], [];
    }

    /** `handleFileChange`: a chosen file is kept (its parse reports back through `ParseComplete`). */
    method FileChosen(name: string)
      modifies this`file
      ensures file == Some(name)
    {
      file := Some(name);
    }

    /** The parser's `complete` callback: on any error the rows and headers are left as they were. */
    method ParseComplete(errorCount: nat, fields: Option<seq<string>>, data: seq<Row>)
      modifies this`headers, this`parsedData
      ensures errorCount > 0 ==> headers == old(headers) && parsedData == old(parsedData)
      ensures errorCount == 0 ==> headers == fields.GetOr([]) && parsedData == data
    {
      if errorCount == 0 {
        headers := fields.GetOr([]);
        parsedData := data;
      }
    }

    /** The preview table: at most the first five rows. */
    function Preview(): (r: seq<Row>)
      reads this
      ensures |r| == if |parsedData| < 5 then |parsedData| else 5
      ensures r == parsedData[..|r|]
    {
      if |parsedData| < 5 then parsedData else parsedData[..5]
    }

    /** `handleImport`. */
    method Import(stamp: nat -> nat, draw: nat -> string) returns (outcome: ImportOutcome)
      modifies this`file, this`parsedData, this`headers
      ensures old(parsedData) == [] ==> outcome == NothingToImport && file == old(file) && parsedData == [] && headers == old(headers)
      ensures old(parsedData) != [] ==> outcome == Imported(ImportedContacts(old(parsedData), stamp, draw))
      ensures old(parsedData) != [] ==> file.None? && parsedData == [] && headers == []
    {
      if |parsedData| == 0 {
        outcome := NothingToImport;
      } else {
        outcome := Imported(ImportedContacts(parsedData, stamp, draw));
        file, parsedData, headers := None, [], [];
      }
    }

    /** `handleClose`: closing forgets the file, the rows and the headers. */
    method Close(open: bool)
      modifies this`file, this`parsedData, this`headers
      ensures !open ==> file.None? && parsedData == [] && headers == []
      ensures open ==> file == old(file) && parsedData == old(parsedData) && headers == old(headers)
    {
      if !open {
        file, parsedData, headers := None, [], [];
      }
    }
  }
}

=== FILE: index_page.dfy ===
/**
 * The demonstration board page: a list of sample cards shown on the Kanban
 * board, where moving a card gives that card its new stage.
 */
module IndexPage {
  import opened Wrappers
  import opened FunnelBoard

  datatype SampleCard = SampleCard(
    id: string, title: string, description: string, assignedTo: string,
    tasksCount: int, tasksDoneCount: int, stageId: string)

  const SampleStages: seq<BoardStage> := [
    BoardStage("stage-1", "Novo", "", ""), BoardStage("stage-2", "Contato Feito", "", ""),
    BoardStage("stage-3", "Proposta", "", ""), BoardStage("stage-4", "Fechado", "", "")]

  const SampleCards: seq<SampleCard> := [
    SampleCard("card-1", "Contato João", "Interessado no produto X", "Maria", 3, 1, "stage-1"),
    SampleCard("card-2", "Contato Ana", "Aguardando resposta", "Carlos", 2, 2, "stage-2")]

  /** `handleCardMove`: the card with the id takes the new stage; every other card, and every other field, stays. */
  function MoveCard(cards: seq<SampleCard>, cardId: string, newStageId: string): (r: seq<SampleCard>)
    ensures |r| == |cards|
    ensures forall i :: 0 <= i < |r| ==> r[i].(stageId := cards[i].stageId) == cards[i]
    ensures forall i :: 0 <= i < |r| && cards[i].id == cardId ==> r[i].stageId == newStageId
    ensures forall i :: 0 <= i < |r| && cards[i].id != cardId ==> r[i] == cards[i]
  {
    seq(|cards|, i requires 0 <= i < |cards| => if cards[i].id == cardId then cards[i].(stageId := newStageId) else cards[i])
  }

  /** Moving a card that is not on the page changes nothing. */
  lemma UnknownCardUnchanged(cards: seq<SampleCard>, cardId: string, newStageId: string)
    requires forall i :: 0 <= i < |cards| ==> cards[i].id != cardId
    ensures MoveCard(cards, cardId, newStageId) == cards
  {
  }

  /** Moving a card twice is moving it to the second stage. */
  lemma MoveTwice(cards: seq<SampleCard>, cardId: string, s1: string, s2: string)
    ensures MoveCard(MoveCard(cards, cardId, s1), cardId, s2) == MoveCard(cards, cardId, s2)
  {
  }

  /** Moving a card back to where it was restores the list. */
  lemma MoveBack(cards: seq<SampleCard>, cardId: string, s: string, i: nat)
    requires i < |cards| && cards[i].id == cardId
    requires forall j :: 0 <= j < |cards| && cards[j].id == cardId ==> j == i
    ensures MoveCard(MoveCard(cards, cardId, s), cardId, cards[i].stageId) == cards
  {
  }

  /** What the board is handed for a sample card. */
  function OnBoard(c: SampleCard): (b: BoardCard)
    ensures b.id == c.id && b.title == c.title && b.stageId == c.stageId
  {
    BoardCard(c.id, c.title, None, Some(c.tasksCount), Some(c.tasksDoneCount), c.stageId)
  }

  function BoardCards(cards: seq<SampleCard>): (r: seq<BoardCard>)
    ensures |r| == |cards| && forall i :: 0 <= i < |r| ==> r[i] == OnBoard(cards[i])
  {
    seq(|cards|, i requires 0 <= i < |cards| => OnBoard(cards[i]))
  }

  /** After a move the card shows in the new stage's column and no longer in any other. */
  lemma MovedCardShowsInNewColumn(cards: seq<SampleCard>, i: nat, newStage: nat)
    requires i < |cards| && newStage < |SampleStages|
    ensures var cols := Columns(SampleStages, BoardCards(MoveCard(cards, cards[i].id, SampleStages[newStage].id)));
      var moved := OnBoard(cards[i].(stageId := SampleStages[newStage].id));
      && moved in cols[newStage].cards
      && forall k :: 0 <= k < |cols| && k != newStage ==> moved !in cols[k].cards
  {
    var moved := MoveCard(cards, cards[i].id, SampleStages[newStage].id);
    assert BoardCards(moved)[i] == OnBoard(cards[i].(stageId := SampleStages[newStage].id));
  }

  class IndexPage {
    var cards: seq<SampleCard>

    constructor ()
      ensures cards == SampleCards
    {
      cards := SampleCards;
    }

    method CardMove(cardId: string, newStageId: string)
      modifies this`cards
      ensures cards == MoveCard(old(cards), cardId, newStageId)
    {
      cards := MoveCard(cards, cardId, newStageId);
    }

    /** The board's columns for the current cards. */
    function Board(): (cols: seq<Column>)
      reads this
      ensures |cols| == |SampleStages|
      ensures forall k, c :: 0 <= k < |cols| ==> (c in cols[k].cards <==> c in BoardCards(cards) && c.stageId == SampleStages[k].id)
    {
      Columns(SampleStages, BoardCards(cards))
    }
  }
}

=== FILE: js_values.dfy ===
/**
 * JSON-shaped JavaScript values as they arrive from request bodies and from
 * database columns, with the truthiness, `||` and `=== true` tests the CRM
 * applies to them.
 */
module JsValues {
  import opened JsNumbers

  datatype JsValue =
    | Undefined
    | Null
    | Bool(b: bool)
    | Number(n: JsNumber)
    | Str(s: string)
    | Arr(items: seq<JsValue>)
    | Obj(fields: map<string, JsValue>)
  {
    /** `!!v`: `undefined`, `null`, `false`, NaN, 0 and `""` are falsy; everything else is truthy. */
    predicate Truthy() {
      match this
      case Undefined => false
      case Null => false
      case Bool(b) => b
      case Number(n) => n.Truthy()
      case Str(s) => s != []
      case Arr(_) => true
      case Obj(_) => true
    }

    /** `v?.[key]`: a missing key, or a value that is not an object, reads as `undefined`. */
    function Get(key: string): (r: JsValue)
      ensures Obj? && key in fields ==> r == fields[key]
      ensures !Obj? || key !in fields ==> r == Undefined
    {
      if Obj? && key in fields then fields[key] else Undefined
    }

    /** `Array.isArray(v)`. */
    predicate IsArray() {
      Arr?
    }
  }

  /** `a || b`: the first operand when it is truthy, otherwise the second. */
  function Or(a: JsValue, b: JsValue): (r: JsValue)
    ensures r.Truthy() <==> a.Truthy() || b.Truthy()
    ensures r == a || r == b
  {
    if a.Truthy() then a else b
  }

  /** `a || b || c` is the first truthy operand, or `c` when none is. */
  function FirstTruthy(vs: seq<JsValue>, fallback: JsValue): (r: JsValue)
    ensures (exists i :: 0 <= i < |vs| && vs[i].Truthy()) ==> r.Truthy()
    ensures (forall i :: 0 <= i < |vs| ==> !vs[i].Truthy()) ==> r == fallback
    ensures r == fallback || r in vs
  {
    if vs == [] then fallback else Or(vs[0], FirstTruthy(vs[1..], fallback))
  }
}

=== FILE: json_text.dfy ===
/**
 * `JSON.stringify` of a string (section 25.5.2.3 of ECMA-262, QuoteJSONString):
 * the text in double quotes, with `"` and `\` escaped by a backslash, the
 * usual short escapes for backspace, form feed, newline, carriage return and
 * tab, and `\u00xx` (lower-case hex) for the other control characters. A
 * decoder for JSON string literals (section 7 of RFC 8259) reads it back.
 */
module JsonText {
  import opened Wrappers

  function HexDigit(d: nat): (c: char)
    requires d < 16
  {
    if d < 10 then ('0' as int + d) as char else ('a' as int + d - 10) as char
  }

  /** The value of a hex digit, either case. */
  function HexValue(c: char): Option<nat> {
    if '0' <= c <= '9' then Some(c as int - '0' as int)
    else if 'a' <= c <= 'f' then Some(c as int - 'a' as int + 10)
    else if 'A' <= c <= 'F' then Some(c as int - 'A' as int + 10)
    else None
  }

  lemma HexValueOfDigit(d: nat)
    requires d < 16
    ensures HexValue(HexDigit(d)) == Some(d)
  {
  }

  /** How one character is written inside the quotes. */
  function EscapeChar(c: char): (r: string)
    ensures |r| >= 1 && '\n' !in r
    ensures ',' in r <==> c == ','
  {
    if c == '"' then "\\\""
    else if c == '\\' then "\\\\"
    else if c == '\U{8}' then "\\b"
    else if c == '\U{C}' then "\\f"
    else if c == '\n' then "\\n"
    else if c == '\r' then "\\r"
    else if c == '\t' then "\\t"
    else if c < ' ' then ['\\', 'u', '0', '0', HexDigit(c as int / 16), HexDigit(c as int % 16)]
    else [c]
  }

  function Escape(s: string): (r: string)
    ensures '\n' !in r
    ensures ',' in r <==> ',' in s
  {
    if s == [] then [] else EscapeChar(s[0]) + Escape(s[1..])
  }

  /** `JSON.stringify(s)` for a string `s`. It never holds a line break. */
  function Quote(s: string): (r: string)
    ensures |r| >= 2 && r[0] == '"' && r[|r| - 1] == '"'
    ensures '\n' !in r
    ensures ',' in r <==> ',' in s
  {
    "\"" + Escape(s) + "\""
  }

  /** The decoded text of a string literal's body, or `None` if the body is malformed. */
  function Unescape(t: string): Option<string>
    decreases |t|
  {
    if t == [] then Some([])
    else if t[0] == '\\' then
      if |t| < 2 then None
      else
        var e := t[1];
        var simple :=
          if e == '"' then Some('"') else if e == '\\' then Some('\\') else if e == '/' then Some('/')
          else if e == 'b' then Some('\U{8}') else if e == 'f' then Some('\U{C}') else if e == 'n' then Some('\n')
          else if e == 'r' then Some('\r') else if e == 't' then Some('\t') else None;
        if simple.Some? then Prepend(simple.value, Unescape(t[2..]))
        else if e == 'u' && |t| >= 6 then
          var h0, h1, h2, h3 := HexValue(t[2]), HexValue(t[3]), HexValue(t[4]), HexValue(t[5]);
          if h0.Some? && h1.Some? && h2.Some? && h3.Some? then
            var v := 4096 * h0.value + 256 * h1.value + 16 * h2.value + h3.value;
            if v < 0xD800 || 0xE000 <= v then Prepend(v as char, Unescape(t[6..])) else None
          else None
        else None
    else if t[0] == '"' || t[0] < ' ' then None
    else Prepend(t[0], Unescape(t[1..]))
  }

  function Prepend(c: char, rest: Option<string>): Option<string> {
    if rest.Some? then Some([c] + rest.value) else None
  }

  /** `JSON.parse` of a string literal. */
  function Unquote(q: string): (r: Option<string>)
    ensures r.Some? ==> |q| >= 2 && q[0] == '"' && q[|q| - 1] == '"'
  {
    if |q| >= 2 && q[0] == '"' && q[|q| - 1] == '"' then Unescape(q[1..|q| - 1]) else None
  }

  /** The control characters written as `\u00xx`. */
  predicate HexEscaped(c: char) {
    c < ' ' && c != '\U{8}' && c != '\U{C}' && c != '\n' && c != '\r' && c != '\t'
  }

  lemma AppendTail(a: string, b: string)
    ensures (a + b)[|a|..] == b
  {
  }

  lemma UnescapeHex(c: char, rest: string)
    requires HexEscaped(c)
    ensures Unescape(EscapeChar(c) + rest) == Prepend(c, Unescape(rest))
  {
    var e := EscapeChar(c);
    var t := e + rest;
    var hi, lo := c as int / 16, c as int % 16;
    HexValueOfDigit(hi);
    HexValueOfDigit(lo);
    assert e == ['\\', 'u', '0', '0', HexDigit(hi), HexDigit(lo)];
    assert t[0] == '\\' && t[1] == 'u' && t[2] == '0' && t[3] == '0' && t[4] == HexDigit(hi) && t[5] == HexDigit(lo);
    AppendTail(e, rest);
    assert 16 * hi + lo == c as int;
  }

  lemma UnescapeShort(c: char, rest: string)
    requires !HexEscaped(c) && |EscapeChar(c)| == 2
    ensures Unescape(EscapeChar(c) + rest) == Prepend(c, Unescape(rest))
  {
    var e := EscapeChar(c);
    var t := e + rest;
    assert t[0] == '\\' && t[1] == e[1];
    AppendTail(e, rest);
    if c == '"' {
      assert e[1] == '"';
    } else if c == '\\' {
      assert e[1] == '\\';
    } else if c == '\U{8}' {
      assert e[1] == 'b';
    } else if c == '\U{C}' {
      assert e[1] == 'f';
    } else if c == '\n' {
      assert e[1] == 'n';
    } else if c == '\r' {
      assert e[1] == 'r';
    } else {
      assert e[1] == 't';
    }
  }

  lemma UnescapePlain(c: char, rest: string)
    requires !HexEscaped(c) && |EscapeChar(c)| != 2
    ensures Unescape(EscapeChar(c) + rest) == Prepend(c, Unescape(rest))
  {
    var t := EscapeChar(c) + rest;
    assert EscapeChar(c) == [c];
    assert t[1..] == rest;
  }

  /** Decoding one escaped character reads exactly that character. */
  lemma UnescapeChar(c: char, rest: string)
    ensures Unescape(EscapeChar(c) + rest) == Prepend(c, Unescape(rest))
  {
    if HexEscaped(c) {
      UnescapeHex(c, rest);
    } else if |EscapeChar(c)| == 2 {
      UnescapeShort(c, rest);
    } else {
      UnescapePlain(c, rest);
    }
  }

  lemma {:induction false} UnescapeEscape(s: string)
    ensures Unescape(Escape(s)) == Some(s)
  {
    if s != [] {
      UnescapeEscape(s[1..]);
      UnescapeChar(s[0], Escape(s[1..]));
      assert s == [s[0]] + s[1..];
    }
  }

  /** Reading back what `JSON.stringify` wrote gives the string. */
  lemma UnquoteQuote(s: string)
    ensures Unquote(Quote(s)) == Some(s)
  {
    var q := Quote(s);
    assert q[1..|q| - 1] == Escape(s);
    UnescapeEscape(s);
  }

  /** Text that `JSON.stringify` writes unchanged: no `"`, no backslash and no control character. */
  predicate Plain(s: string) {
    forall i :: 0 <= i < |s| ==> s[i] != '"' && s[i] != '\\' && s[i] >= ' '
  }

  /** Plain text is escaped to itself. */
  lemma {:induction false} EscapePlain(s: string)
    requires Plain(s)
    ensures Escape(s) == s
  {
    if s != [] {
      assert Plain(s[1..]) by {
        forall i | 0 <= i < |s[1..]| ensures s[1..][i] != '"' && s[1..][i] != '\\' && s[1..][i] >= ' ' {
          assert s[1..][i] == s[i + 1];
        }
      }
      EscapePlain(s[1..]);
      assert s == [s[0]] + s[1..];
    }
  }

  /** Plain text is written between double quotes and nothing else changes. */
  lemma QuotePlain(s: string)
    requires Plain(s)
    ensures Quote(s) == "\"" + s + "\""
  {
    EscapePlain(s);
  }

  /** Different strings are written differently. */
  lemma QuoteInjective(a: string, b: string)
    requires Quote(a) == Quote(b)
    ensures a == b
  {
    UnquoteQuote(a);
    UnquoteQuote(b);
  }

  /** Escaping works character by character. */
  lemma {:induction false} EscapeConcat(a: string, b: string)
    ensures Escape(a + b) == Escape(a) + Escape(b)
    decreases |a|
  {
    if a == [] {
      assert a + b == b;
    } else {
      assert (a + b)[1..] == a[1..] + b;
      EscapeConcat(a[1..], b);
    }
  }

  /** A double quote is escaped with a backslash, not doubled as RFC 4180 section 2 has it. */
  lemma QuoteInnerQuote(a: string, b: string)
    ensures Quote(a + "\"" + b) == "\"" + Escape(a) + "\\\"" + Escape(b) + "\""
  {
    EscapeConcat(a + "\"", b);
    EscapeConcat(a, "\"");
    EscapeQuoteMark();
    Regroup("\"", Escape(a), "\\\"", Escape(b), "\"");
  }

  /** A backslash is written as two. */
  lemma QuoteInnerBackslash(a: string, b: string)
    ensures Quote(a + "\\" + b) == "\"" + Escape(a) + "\\\\" + Escape(b) + "\""
  {
    EscapeConcat(a + "\\", b);
    EscapeConcat(a, "\\");
    EscapeBackslashMark();
    Regroup("\"", Escape(a), "\\\\", Escape(b), "\"");
  }

  lemma EscapeBackslashMark()
    ensures Escape("\\") == "\\\\"
  {
    assert Escape("\\") == EscapeChar('\\') + Escape([]);
  }

  lemma EscapeQuoteMark()
    ensures Escape("\"") == "\\\""
  {
    assert Escape("\"") == EscapeChar('"') + Escape([]);
  }

  lemma Regroup(p: string, x: string, y: string, z: string, q: string)
    ensures p + ((x + y) + z) + q == p + x + y + z + q
  {
  }
}

=== FILE: numbers.dfy ===
/**
 * JavaScript numbers as the CRM's forms see them: `Number(text)` (the
 * StringNumericLiteral grammar of section 7.1.4.1 of ECMA-262), `isNaN`,
 * comparisons with 0, truthiness and `toString()` of finite decimals.
 * Values are exact reals: rounding to IEEE-754 doubles is not modelled.
 */
module JsNumbers {
  import opened Wrappers
  import opened Text

  datatype JsNumber = NaN | Inf(negative: bool) | Num(value: real)
  {
    /** `x >= c`. Every comparison with NaN is false. */
    predicate AtLeast(c: real) {
      match this
      case NaN => false
      case Inf(neg) => !neg
      case Num(v) => v >= c
    }

    /** `x > c`. */
    predicate Above(c: real) {
      match this
      case NaN => false
      case Inf(neg) => !neg
      case Num(v) => v > c
    }

    /** `!!x`: NaN and zero are the falsy numbers. */
    predicate Truthy() {
      match this
      case NaN => false
      case Inf(_) => true
      case Num(v) => v != 0.0
    }

    function Negate(): JsNumber {
      match this
      case NaN => NaN
      case Inf(neg) => Inf(!neg)
      case Num(v) => Num(-v)
    }
  }

  /** `x * 10^k`. */
  function Shift(x: real, k: nat): real {
    if k == 0 then x else 10.0 * Shift(x, k - 1)
  }

  /** `x / 10^k`. */
  function Unshift(x: real, k: nat): real
    decreases k
  {
    if k == 0 then x else Unshift(x / 10.0, k - 1)
  }

  /** `m * 10^e`. */
  function Scale(m: nat, e: int): real {
    if e >= 0 then Shift(m as real, e) else Unshift(m as real, -e)
  }

  /** The number of leading decimal digits of `s`. */
  function LeadingDigits(s: string): (n: nat)
    ensures n <= |s| && AllDigits(s[..n])
    ensures n == |s| || !IsDigit(s[n])
  {
    if s == [] || !IsDigit(s[0]) then 0
    else
      var n := 1 + LeadingDigits(s[1..]);
      assert s[..n] == [s[0]] + s[1..][..n - 1];
      n
  }

  /** An optional exponent part `e±digits` (or `E…`); the empty string is exponent 0. */
  function ParseExponent(r: string): Option<int> {
    if r == [] then Some(0)
    else if r[0] != 'e' && r[0] != 'E' then None
    else
      var sign := if |r| > 1 && (r[1] == '+' || r[1] == '-') then 1 else 0;
      var ds := r[1 + sign..];
      if ds == [] || !AllDigits(ds) then None
      else
        var e: int := DigitsValue(ds);
        if sign == 1 && r[1] == '-' then Some(-e) else Some(e)
  }

  /** An unsigned StrUnsignedDecimalLiteral other than `Infinity`: digits, optional fraction, optional exponent. */
  function ParseDecimal(u: string): Option<real> {
    var i := LeadingDigits(u);
    var intPart := u[..i];
    var rest := u[i..];
    var hasDot := rest != [] && rest[0] == '.';
    var afterDot := if hasDot then rest[1..] else rest;
    var j := if hasDot then LeadingDigits(afterDot) else 0;
    var fracPart := afterDot[..j];
    if intPart == [] && fracPart == [] then None
    else match ParseExponent(afterDot[j..])
      case None => None
      case Some(e) => Some(Scale(DigitsValue(intPart + fracPart), e - |fracPart|))
  }

  function RadixDigit(c: char): int {
    if '0' <= c <= '9' then c as int - '0' as int
    else if 'a' <= c <= 'z' then c as int - 'a' as int + 10
    else if 'A' <= c <= 'Z' then c as int - 'A' as int + 10
    else 99
  }

  predicate AllRadixDigits(s: string, base: nat) {
    forall i :: 0 <= i < |s| ==> 0 <= RadixDigit(s[i]) < base
  }

  function RadixValue(s: string, base: nat): nat
    requires AllRadixDigits(s, base)
  {
    if s == [] then 0 else base * RadixValue(s[..|s| - 1], base) + RadixDigit(s[|s| - 1])
  }

  /** The base of a `0x`, `0o` or `0b` prefix, or 0 when `t` has none. */
  function RadixOf(t: string): nat {
    if |t| < 2 || t[0] != '0' then 0
    else if t[1] == 'x' || t[1] == 'X' then 16
    else if t[1] == 'o' || t[1] == 'O' then 8
    else if t[1] == 'b' || t[1] == 'B' then 2
    else 0
  }

  /** A literal with its optional sign: `Infinity` or a decimal. */
  function ParseUnsigned(u: string): JsNumber {
    if u == "Infinity" then Inf(false)
    else match ParseDecimal(u)
      case None => NaN
      case Some(v) => Num(v)
  }

  /** `Number(s)`: white space around the literal is ignored and a blank string is 0. */
  function ParseNumber(s: string): (r: JsNumber)
    ensures AllSpace(s) ==> r == Num(0.0)
  {
    ParseTrimmed(Trim(s))
  }

  /** `Number` on text with no white space around it. */
  function ParseTrimmed(t: string): JsNumber {
    if t == [] then Num(0.0)
    else if RadixOf(t) != 0 then
      var ds := t[2..];
      if ds != [] && AllRadixDigits(ds, RadixOf(t)) then Num(RadixValue(ds, RadixOf(t)) as real) else NaN
    else if t[0] == '+' then ParseUnsigned(t[1..])
    else if t[0] == '-' then ParseUnsigned(t[1..]).Negate()
    else ParseUnsigned(t)
  }

  /** White space around the literal does not change what `Number` reads. */
  lemma ParseNumberIgnoresSpace(s: string)
    ensures ParseNumber(s) == ParseNumber(Trim(s))
  {
    TrimIdempotent(s);
  }

  // ---------------------------------------------------------------------------
  // Number.prototype.toString for finite decimals

  /** `x` is written exactly with `k` fractional digits: `x * 10^k` is a whole number. */
  predicate ExactAt(x: real, k: nat) {
    Shift(x, k).Floor as real == Shift(x, k)
  }

  /** The fewest fractional digits, searched from `k` up to 20, that write `x` exactly. */
  function FractionDigits(x: real, k: nat): (r: nat)
    requires k <= 20
    ensures k <= r <= 20
    decreases 20 - k
  {
    if k == 20 || ExactAt(x, k) then k else FractionDigits(x, k + 1)
  }

  lemma {:induction false} FractionDigitsExact(x: real, k: nat, j: nat)
    requires k <= j <= 20 && ExactAt(x, j)
    ensures ExactAt(x, FractionDigits(x, k))
    decreases 20 - k
  {
    if k != 20 && !ExactAt(x, k) {
      FractionDigitsExact(x, k + 1, j);
    }
  }

  lemma {:induction false} ShiftNonNegative(x: real, k: nat)
    requires x >= 0.0
    ensures Shift(x, k) >= 0.0
  {
    if k > 0 { ShiftNonNegative(x, k - 1); }
  }

  lemma {:induction false} UnshiftShift(x: real, k: nat)
    ensures Unshift(Shift(x, k), k) == x
  {
    if k > 0 {
      UnshiftShift(x, k - 1);
    }
  }

  /**
   * The decimal text of a non-negative `x`: the digits of `x * 10^k`, padded with
   * zeros to at least `k + 1` places, with a point before the last `k`.
   */
  function FormatNonNegative(x: real): (r: string)
    requires x >= 0.0
    ensures r != [] && IsDigit(r[0]) && IsDigit(r[|r| - 1])
    ensures forall i :: 0 <= i < |r| ==> IsDigit(r[i]) || r[i] == '.'
  {
    var k := FractionDigits(x, 0);
    var digits := ScaledDigits(x, k);
    if k == 0 then digits
    else digits[..|digits| - k] + "." + digits[|digits| - k..]
  }

  /** The digits of `x * 10^k` rounded down, padded with zeros to at least `k + 1` places. */
  function ScaledDigits(x: real, k: nat): (r: string)
    requires x >= 0.0
    ensures |r| >= k + 1 && AllDigits(r)
    ensures DigitsValue(r) as real == Shift(x, k).Floor as real
  {
    ShiftNonNegative(x, k);
    var n: nat := Shift(x, k).Floor;
    PaddedValue(n, k + 1);
    PadStart(NatToString(n), k + 1, '0')
  }

  /** The sign a negative number is written with. */
  function SignText(negative: bool): (r: string)
    ensures r == (if negative then "-" else "")
  {
    if negative then "-" else ""
  }

  function Magnitude(v: real): (r: real)
    ensures r >= 0.0 && (r == v || r == -v)
  {
    if v < 0.0 then -v else v
  }

  /** `x.toString()`, in plain decimal notation: the sign, then the digits of the magnitude. */
  function FormatNumber(n: JsNumber): (r: string)
    ensures n.Num? ==> |r| > 0 && (r[0] == '-' <==> n.value < 0.0)
    ensures n.Num? ==> forall i :: 0 <= i < |r| ==> IsDigit(r[i]) || r[i] == '.' || (i == 0 && r[i] == '-')
  {
    match n
    case NaN => "NaN"
    case Inf(neg) => if neg then "-Infinity" else "Infinity"
    case Num(v) => SignText(v < 0.0) + FormatNonNegative(Magnitude(v))
  }

  // ---------------------------------------------------------------------------
  // Reading back what toString wrote

  lemma LeadingDigitsStop(a: string, b: string)
    requires AllDigits(a) && (b == [] || !IsDigit(b[0]))
    ensures LeadingDigits(a + b) == |a|
    decreases |a|
  {
    if a != [] {
      assert (a + b)[1..] == a[1..] + b;
      LeadingDigitsStop(a[1..], b);
    }
  }

  /** A run of digits reads as a whole number. */
  lemma ParseDecimalWhole(w: string)
    requires w != [] && AllDigits(w)
    ensures ParseDecimal(w) == Some(DigitsValue(w) as real)
  {
    LeadingDigitsStop(w, []);
    assert w + [] == w;
    assert w[|w|..] == [] && w[..|w|] == w;
    assert ParseDecimal(w) == Some(Scale(DigitsValue(w + []), 0));
  }

  lemma SplitAppend(a: string, b: string)
    ensures (a + b)[..|a|] == a && (a + b)[|a|..] == b
  {
  }

  lemma WholeSlices(s: string)
    ensures s[..|s|] == s && s[|s|..] == []
  {
  }

  /** Digits, a point and digits to the end, read part by part. */
  lemma ParseDecimalParts(w: string, f: string)
    requires LeadingDigits(w + ("." + f)) == |w| && LeadingDigits(f) == |f| && w != []
    ensures ParseDecimal(w + ("." + f)) == Some(Scale(DigitsValue(w + f), -|f|))
  {
    SplitAppend(w, "." + f);
    SplitAppend(".", f);
    WholeSlices(f);
  }

  /** Digits, a point and more digits read as all the digits scaled down by the fraction's length. */
  lemma ParseDecimalFraction(w: string, f: string)
    requires w != [] && AllDigits(w) && AllDigits(f)
    ensures AllDigits(w + f)
    ensures ParseDecimal(w + "." + f) == Some(Scale(DigitsValue(w + f), -|f|))
  {
    assert w + "." + f == w + ("." + f);
    LeadingDigitsStop(w, "." + f);
    LeadingDigitsStop(f, []);
    assert f + [] == f;
    ParseDecimalParts(w, f);
  }

  /** Padding `NatToString(n)` with zeros keeps its value. */
  lemma PaddedValue(n: nat, width: nat)
    ensures AllDigits(PadStart(NatToString(n), width, '0'))
    ensures DigitsValue(PadStart(NatToString(n), width, '0')) == n
  {
    var f := NatToString(n);
    DigitsValueOfNatToString(n);
    if |f| < width {
      assert PadStart(f, width, '0') == seq(width - |f|, _ => '0') + f;
      DigitsValueLeadingZeros(width - |f|, f);
    }
  }

  /** Parsing the unsigned text written for `x >= 0` gives `x` back, when `x` has at most 20 fractional digits. */
  lemma {:induction false} ParseFormatNonNegative(x: real, j: nat)
    requires x >= 0.0 && j <= 20 && ExactAt(x, j)
    ensures ParseDecimal(FormatNonNegative(x)) == Some(x)
  {
    var k := FractionDigits(x, 0);
    FractionDigitsExact(x, 0, j);
    var digits := ScaledDigits(x, k);
    UnshiftShift(x, k);
    assert DigitsValue(digits) as real == Shift(x, k);
    if k == 0 {
      ParseDecimalWhole(digits);
    } else {
      var w, f := digits[..|digits| - k], digits[|digits| - k..];
      assert w + f == digits;
      ParseDecimalFraction(w, f);
      assert |f| == k;
    }
  }

  lemma {:induction false} ShiftNegate(x: real, k: nat)
    ensures Shift(-x, k) == -Shift(x, k)
  {
    if k > 0 { ShiftNegate(x, k - 1); }
  }

  /** A number and its negation need the same fractional digits. */
  lemma ExactNegate(x: real, k: nat)
    requires ExactAt(x, k)
    ensures ExactAt(-x, k)
  {
    ShiftNegate(x, k);
    var y := Shift(x, k);
    var n := y.Floor;
    assert n as real == y;
    assert (-n) as real == -y;
    assert (-y).Floor == -n;
  }

  /** Text made of digits and points is read by the decimal grammar alone. */
  lemma PlainDecimal(u: string, y: real)
    requires u != [] && IsDigit(u[0]) && IsDigit(u[|u| - 1])
    requires forall i :: 0 <= i < |u| ==> IsDigit(u[i]) || u[i] == '.'
    requires ParseDecimal(u) == Some(y)
    ensures ParseUnsigned(u) == Num(y)
    ensures ParseTrimmed(u) == Num(y)
  {
    if |u| >= 2 { assert IsDigit(u[1]) || u[1] == '.'; }
    assert u != "Infinity" by { assert "Infinity"[0] == 'I'; }
  }

  lemma PlainDecimalNumber(u: string, y: real)
    requires u != [] && IsDigit(u[0]) && IsDigit(u[|u| - 1])
    requires forall i :: 0 <= i < |u| ==> IsDigit(u[i]) || u[i] == '.'
    requires ParseDecimal(u) == Some(y)
    ensures ParseNumber(u) == Num(y)
  {
    PlainDecimal(u, y);
    TrimKeeps(u);
  }

  lemma NegativeDecimalNumber(u: string, y: real)
    requires u != [] && IsDigit(u[0]) && IsDigit(u[|u| - 1])
    requires forall i :: 0 <= i < |u| ==> IsDigit(u[i]) || u[i] == '.'
    requires ParseDecimal(u) == Some(y)
    ensures ParseNumber("-" + u) == Num(-y)
  {
    PlainDecimal(u, y);
    var s := "-" + u;
    SplitAppend("-", u);
    assert ParseTrimmed(s) == Num(-y);
    TrimKeeps(s);
  }

  /** The decimal text of a magnitude, after its sign, reads back as the signed magnitude. */
  lemma ParseSignedDecimal(negative: bool, u: string, y: real)
    requires u != [] && IsDigit(u[0]) && IsDigit(u[|u| - 1])
    requires forall i :: 0 <= i < |u| ==> IsDigit(u[i]) || u[i] == '.'
    requires ParseDecimal(u) == Some(y)
    ensures ParseNumber(SignText(negative) + u) == Num(if negative then -y else y)
  {
    if negative {
      NegativeDecimalNumber(u, y);
    } else {
      assert SignText(negative) + u == u;
      PlainDecimalNumber(u, y);
    }
  }

  /** `Number(x.toString()) == x` for every finite `x` with at most 20 fractional digits. */
  lemma ParseFormatRoundTrip(x: real, j: nat)
    requires j <= 20 && ExactAt(x, j)
    ensures ParseNumber(FormatNumber(Num(x))) == Num(x)
  {
    var y := Magnitude(x);
    if x < 0.0 { ExactNegate(x, j); }
    ParseFormatNonNegative(y, j);
    ParseSignedDecimal(x < 0.0, FormatNonNegative(y), y);
  }

  /** The infinities print and parse back. */
  lemma ParseFormatInfinity(neg: bool)
    ensures ParseNumber(FormatNumber(Inf(neg))) == Inf(neg)
  {
    var s := FormatNumber(Inf(neg));
    TrimKeeps(s);
    if neg { assert s[1..] == "Infinity"; }
  }
}

=== FILE: permissions.dfy ===
/**
 * Who may do what: the permission checks of the signed-in profile and the
 * users page's rule for who manages users.
 */
module Permissions {
  import opened Wrappers
  import opened JsValues

  datatype Role = Admin | Gestor | User

  /** The signed-in user's profile; `permissions` may be `null`. */
  datatype Profile = Profile(id: string, role: Role, permissions: Option<map<string, JsValue>>)

  /** `profile.permissions?.[key]`, `undefined` when the map or the key is missing. */
  function PermissionValue(p: Profile, key: string): (v: JsValue)
    ensures p.permissions.None? ==> v == Undefined
    ensures p.permissions.Some? && key !in p.permissions.value ==> v == Undefined
  {
    if p.permissions.Some? && key in p.permissions.value then p.permissions.value[key] else Undefined
  }

  /** `hasPermission(key)`. */
  function HasPermission(profile: Option<Profile>, key: string): (r: bool)
    ensures profile.None? ==> !r
    ensures profile.Some? && profile.value.role == Admin ==> r
    ensures profile.Some? && profile.value.role != Admin ==>
      (r <==> profile.value.permissions.Some? && key in profile.value.permissions.value
              && profile.value.permissions.value[key].Truthy())
  {
    match profile
    case None => false
    case Some(p) => p.role == Admin || PermissionValue(p, key).Truthy()
  }

  /** `isManagerOrAdmin()`. */
  predicate IsManagerOrAdmin(profile: Option<Profile>)
    ensures IsManagerOrAdmin(profile) <==> profile.Some? && profile.value.role != User
  {
    profile.Some? && (profile.value.role == Admin || profile.value.role == Gestor)
  }

  /** `canManageUsers` on the users page: an admin, or a gestor whose `edit_users` entry is truthy. */
  predicate CanManageUsers(profile: Option<Profile>)
    ensures CanManageUsers(profile) ==> profile.Some? && profile.value.role != User
    ensures profile.Some? && profile.value.role == Admin ==> CanManageUsers(profile)
  {
    || (profile.Some? && profile.value.role == Admin)
    || (profile.Some? && profile.value.role == Gestor && PermissionValue(profile.value, "edit_users").Truthy())
  }

  /** The users page's rule is the permission check for `edit_users`, restricted to managers. */
  lemma CanManageUsersIsPermission(profile: Option<Profile>)
    ensures CanManageUsers(profile) <==> IsManagerOrAdmin(profile) && HasPermission(profile, "edit_users")
  {
  }

  /** A plain user cannot manage users, whatever its permission map says. */
  lemma PlainUserCannotManage(profile: Option<Profile>)
    requires profile.None? || profile.value.role == User
    ensures !CanManageUsers(profile)
  {
  }

  /** Granting a key (setting it to `true`) gives the permission; revoking it (`false`) takes it away from a non-admin. */
  lemma GrantRevoke(p: Profile, key: string)
    ensures var m := p.permissions.GetOr(map[]);
      && HasPermission(Some(p.(permissions := Some(m[key := Bool(true)]))), key)
      && (p.role != Admin ==> !HasPermission(Some(p.(permissions := Some(m[key := Bool(false)]))), key))
  {
  }

  /** Other keys are not affected by granting or revoking one. */
  lemma GrantKeepsOthers(p: Profile, key: string, other: string, b: bool)
    requires other != key
    ensures HasPermission(Some(p.(permissions := Some(p.permissions.GetOr(map[])[key := Bool(b)]))), other)
        == HasPermission(Some(p), other)
  {
  }

  /** The message shown when creating a user fails: the function's own `error` text when present, else the client's message. */
  function CreateErrorMessage(contextError: Option<string>, message: string): (r: string)
    ensures contextError.Some? && contextError.value != "" ==> r == contextError.value
    ensures contextError.None? || contextError.value == "" ==> r == message
  {
    if contextError.Some? && contextError.value != "" then contextError.value else message
  }
}

=== FILE: tasks_calendar.dfy ===
/**
 * The task calendar: the rows of the task query become tasks carrying their
 * card's title, and the tasks are grouped into one bucket per due date, the
 * buckets ordered by date with the undated bucket last.
 */
module TasksCalendar {
  import opened Wrappers
  import opened Text
  import opened CrmData

  /** The card joined to a task row (`cards(title)`). */
  datatype CardJoin = CardJoin(title: Option<string>)

  /** A row of the task query; `dueDate` is the stored date text. */
  datatype TaskRow = TaskRow(
    id: string, text: string, completed: bool, dueDate: Option<string>,
    priority: Option<string>, cardId: Option<string>, cards: Option<CardJoin>)

  /** A task as the calendar shows it, with its card's title or `null`. */
  datatype CalendarTask = CalendarTask(
    id: string, text: string, completed: bool, dueDate: Option<string>,
    priority: Option<string>, cardId: Option<string>, cardTitle: Option<string>)

  /** `t.cards?.title ?? null`. */
  function JoinedTitle(row: TaskRow): (title: Option<string>)
    ensures row.cards.None? ==> title.None?
    ensures row.cards.Some? ==> title == row.cards.value.title
  {
    if row.cards.Some? then row.cards.value.title else None
  }

  /** The rows as tasks, one per row and in row order. */
  function RowsToTasks(rows: seq<TaskRow>): (r: seq<CalendarTask>)
    ensures |r| == |rows|
    ensures forall i :: 0 <= i < |r| ==>
      && r[i].id == rows[i].id && r[i].text == rows[i].text && r[i].completed == rows[i].completed
      && r[i].dueDate == rows[i].dueDate && r[i].priority == rows[i].priority
      && r[i].cardId == rows[i].cardId && r[i].cardTitle == JoinedTitle(rows[i])
  {
    if rows == [] then []
    else
      var t := rows[0];
      [CalendarTask(t.id, t.text, t.completed, t.dueDate, t.priority, t.cardId, JoinedTitle(t))] + RowsToTasks(rows[1..])
  }

  const NoDate: string := "no-date"

  /** `t.due_date || 'no-date'`. */
  function GroupKey(t: CalendarTask): (r: string)
    ensures r != ""
    ensures t.dueDate.None? ==> r == NoDate
    ensures r != NoDate ==> t.dueDate == Some(r)
  {
    if t.dueDate.Some? && t.dueDate.value != "" then t.dueDate.value else NoDate
  }

  function KeyIs(k: string): CalendarTask -> bool {
    (t: CalendarTask) => GroupKey(t) == k
  }

  /**
   * The sort comparator, as a strict order: the undated bucket after every
   * other, dates by their text.
   */
  predicate KeyBefore(a: string, b: string)
    ensures KeyBefore(a, b) ==> a != b && a != NoDate
    ensures b == NoDate ==> (KeyBefore(a, b) <==> a != NoDate)
  {
    a != NoDate && (b == NoDate || StrLess(a, b))
  }

  lemma KeyBeforeAsymmetric(a: string, b: string)
    requires KeyBefore(a, b)
    ensures !KeyBefore(b, a)
  {
    if b != NoDate {
      StrLessAsymmetric(a, b);
    }
  }

  lemma KeyBeforeTotal(a: string, b: string)
    requires a != b
    ensures KeyBefore(a, b) || KeyBefore(b, a)
  {
    StrLessTotal(a, b);
  }

  lemma KeyBeforeTransitive(a: string, b: string, c: string)
    requires KeyBefore(a, b) && KeyBefore(b, c)
    ensures KeyBefore(a, c)
  {
    if c != NoDate {
      StrLessTransitive(a, b, c);
    }
  }

  /** One bucket: a key and the tasks filed under it. */
  datatype Group = Group(key: string, items: seq<CalendarTask>)

  predicate StrictlySorted(gs: seq<Group>) {
    forall i, j :: 0 <= i < j < |gs| ==> KeyBefore(gs[i].key, gs[j].key)
  }

  predicate KeyAbsent(gs: seq<Group>, k: string) {
    forall i :: 0 <= i < |gs| ==> gs[i].key != k
  }

  predicate HasGroup(gs: seq<Group>, k: string) {
    exists j :: 0 <= j < |gs| && gs[j].key == k
  }

  predicate KeysDistinct(gs: seq<Group>) {
    forall i, j :: 0 <= i < j < |gs| ==> gs[i].key != gs[j].key
  }

  /** Puts `g` into a sorted list of buckets in front of the first bucket it sorts before. */
  function InsertGroup(g: Group, gs: seq<Group>): (r: seq<Group>)
    requires StrictlySorted(gs) && KeyAbsent(gs, g.key)
    ensures multiset(r) == multiset(gs) + multiset{g}
    ensures StrictlySorted(r)
  {
    if gs == [] then [g]
    else if KeyBefore(gs[0].key, g.key) then
      var rest := InsertGroup(g, gs[1..]);
      InsertAfterHead(g, gs, rest);
      [gs[0]] + rest
    else
      InsertAtHead(g, gs);
      [g] + gs
  }

  lemma MultisetCons<T>(s: seq<T>)
    requires s != []
    ensures multiset(s) == multiset{s[0]} + multiset(s[1..])
  {
    assert s == [s[0]] + s[1..];
  }

  /** A bucket that sorts after the head goes somewhere behind it. */
  lemma InsertAfterHead(g: Group, gs: seq<Group>, rest: seq<Group>)
    requires gs != [] && StrictlySorted(gs) && KeyBefore(gs[0].key, g.key)
    requires multiset(rest) == multiset(gs[1..]) + multiset{g} && StrictlySorted(rest)
    ensures multiset([gs[0]] + rest) == multiset(gs) + multiset{g}
    ensures StrictlySorted([gs[0]] + rest)
  {
    MultisetCons(gs);
    var r := [gs[0]] + rest;
    forall j | 0 < j < |r| ensures KeyBefore(r[0].key, r[j].key) {
      assert r[j] == rest[j - 1];
      assert r[j] in multiset(rest);
      if r[j] != g {
        assert r[j] in multiset(gs[1..]);
        var k :| 0 <= k < |gs[1..]| && gs[1..][k] == r[j];
        assert gs[k + 1] == r[j];
      }
    }
  }

  /** A bucket that the head does not sort before goes first. */
  lemma InsertAtHead(g: Group, gs: seq<Group>)
    requires gs != [] && StrictlySorted(gs) && KeyAbsent(gs, g.key) && !KeyBefore(gs[0].key, g.key)
    ensures StrictlySorted([g] + gs)
  {
    KeyBeforeTotal(gs[0].key, g.key);
    forall j | 0 < j < |gs| ensures KeyBefore(g.key, gs[j].key) {
      KeyBeforeTransitive(g.key, gs[0].key, gs[j].key);
    }
  }

  /** `Array.from(map.entries()).sort(...)`: for distinct keys the sorted order is unique. */
  function SortGroups(gs: seq<Group>): (r: seq<Group>)
    requires KeysDistinct(gs)
    ensures multiset(r) == multiset(gs)
    ensures StrictlySorted(r)
  {
    if gs == [] then []
    else
      var rest := SortGroups(gs[1..]);
      HeadKeyAbsent(gs, rest);
      MultisetCons(gs);
      InsertGroup(gs[0], rest)
  }

  /** With distinct keys, the head's key is not among the other buckets, however they are arranged. */
  lemma HeadKeyAbsent(gs: seq<Group>, rest: seq<Group>)
    requires gs != [] && KeysDistinct(gs) && multiset(rest) == multiset(gs[1..])
    ensures KeyAbsent(rest, gs[0].key)
  {
    forall i | 0 <= i < |rest| ensures rest[i].key != gs[0].key {
      assert rest[i] in multiset(gs[1..]);
      var k :| 0 <= k < |gs[1..]| && gs[1..][k] == rest[i];
      assert gs[k + 1] == rest[i];
    }
  }

  /** The buckets in insertion order, as `map.entries()` lists them. */
  function Entries(order: seq<string>, buckets: map<string, seq<CalendarTask>>): (r: seq<Group>)
    requires forall i :: 0 <= i < |order| ==> order[i] in buckets
    ensures |r| == |order|
    ensures forall i :: 0 <= i < |r| ==> r[i] == Group(order[i], buckets[order[i]])
  {
    if order == [] then [] else [Group(order[0], buckets[order[0]])] + Entries(order[1..], buckets)
  }

  /** The tasks with key `k`, in their order, built one task at a time as the loop files them. */
  function BucketOf(tasks: seq<CalendarTask>, k: string): seq<CalendarTask> {
    if tasks == [] then []
    else
      var last := tasks[|tasks| - 1];
      BucketOf(tasks[..|tasks| - 1], k) + (if GroupKey(last) == k then [last] else [])
  }

  /** The bucket is the filter of the tasks by key. */
  lemma {:induction false} BucketIsFilter(tasks: seq<CalendarTask>, k: string)
    ensures BucketOf(tasks, k) == Filter(tasks, KeyIs(k))
    decreases |tasks|
  {
    if tasks != [] {
      var n := |tasks| - 1;
      var prefix, last := tasks[..n], tasks[n];
      assert tasks == prefix + [last];
      calc {
        BucketOf(tasks, k);
        BucketOf(prefix, k) + (if GroupKey(last) == k then [last] else []);
        { BucketIsFilter(prefix, k); FilterSingle(last, KeyIs(k)); }
        Filter(prefix, KeyIs(k)) + Filter([last], KeyIs(k));
        { FilterConcat(prefix, [last], KeyIs(k)); }
        Filter(tasks, KeyIs(k));
      }
    }
  }

  /** A key no task has gets an empty bucket. */
  lemma {:induction false} UnseenKey(tasks: seq<CalendarTask>, k: string)
    requires forall i :: 0 <= i < |tasks| ==> GroupKey(tasks[i]) != k
    ensures BucketOf(tasks, k) == []
    decreases |tasks|
  {
    if tasks != [] {
      UnseenKey(tasks[..|tasks| - 1], k);
    }
  }

  /**
   * The `for` loop of the `grouped` memo: a `Map` from key to bucket, its
   * keys in insertion order. Each bucket holds exactly the tasks with its key,
   * in their order, and is never empty; every task's key has a bucket.
   */
  method BucketTasks(tasks: seq<CalendarTask>) returns (order: seq<string>, buckets: map<string, seq<CalendarTask>>)
    ensures Filed(tasks, order, buckets)
  {
    buckets := map[];
    order := [];
    var n := 0;
    while n < |tasks|
      invariant 0 <= n <= |tasks|
      invariant Filed(tasks[..n], order, buckets)
    {
      var t := tasks[n];
      var key := GroupKey(t);
      var order' := if key in buckets then order else order + [key];
      var withKey := if key in buckets then buckets else buckets[key := []];
      var buckets' := withKey[key := withKey[key] + [t]];
      FileNext(tasks, n, order, buckets, order', buckets');
      order, buckets := order', buckets';
      n := n + 1;
    }
    assert tasks[..n] == tasks;
  }

  /**
   * What the loop keeps: each key listed once, a bucket for exactly the listed
   * keys, each bucket the tasks with its key, in their order, and never empty,
   * and a bucket for every task's key.
   */
  ghost predicate Filed(tasks: seq<CalendarTask>, order: seq<string>, buckets: map<string, seq<CalendarTask>>) {
    && (forall k :: k in buckets <==> k in order)
    && (forall a, b :: 0 <= a < b < |order| ==> order[a] != order[b])
    && (forall k :: k in buckets ==> buckets[k] == BucketOf(tasks, k) && |buckets[k]| > 0)
    && (forall i :: 0 <= i < |tasks| ==> GroupKey(tasks[i]) in buckets)
  }

  /** The buckets with one for `key`, opened empty if there was none. */
  function Opened(buckets: map<string, seq<CalendarTask>>, key: string): (r: map<string, seq<CalendarTask>>)
    ensures key in r
  {
    if key in buckets then buckets else buckets[key := []]
  }

  /** The loop's step: filing the next task keeps `Filed` for the tasks seen so far. */
  lemma FileNext(tasks: seq<CalendarTask>, n: nat, order: seq<string>, buckets: map<string, seq<CalendarTask>>,
                 order': seq<string>, buckets': map<string, seq<CalendarTask>>)
    requires n < |tasks|
    requires Filed(tasks[..n], order, buckets)
    requires order' == (if GroupKey(tasks[n]) in buckets then order else order + [GroupKey(tasks[n])])
    requires buckets' == Opened(buckets, GroupKey(tasks[n]))[GroupKey(tasks[n]) := Opened(buckets, GroupKey(tasks[n]))[GroupKey(tasks[n])] + [tasks[n]]]
    ensures Filed(tasks[..n + 1], order', buckets')
  {
    assert tasks[..n + 1] == tasks[..n] + [tasks[n]];
    FileStep(tasks[..n], tasks[n], order, buckets, order', buckets');
  }

  /** Filing one more task in its key's bucket, opened if need be, keeps `Filed`. */
  lemma FileStep(done: seq<CalendarTask>, t: CalendarTask, order: seq<string>, buckets: map<string, seq<CalendarTask>>,
                 order': seq<string>, buckets': map<string, seq<CalendarTask>>)
    requires Filed(done, order, buckets)
    requires order' == (if GroupKey(t) in buckets then order else order + [GroupKey(t)])
    requires buckets' == Opened(buckets, GroupKey(t))[GroupKey(t) := Opened(buckets, GroupKey(t))[GroupKey(t)] + [t]]
    ensures Filed(done + [t], order', buckets')
  {
    FileUpdate(buckets, t, buckets');
    FileStepOrder(order, buckets, GroupKey(t), order', buckets');
    if GroupKey(t) !in buckets {
      UnseenKey(done, GroupKey(t));
    }
    FileStepBuckets(done, t, buckets, buckets');
    FileStepCover(done, t, buckets, buckets');
  }

  lemma FileUpdate(buckets: map<string, seq<CalendarTask>>, t: CalendarTask, buckets': map<string, seq<CalendarTask>>)
    requires buckets' == Opened(buckets, GroupKey(t))[GroupKey(t) := Opened(buckets, GroupKey(t))[GroupKey(t)] + [t]]
    ensures var key := GroupKey(t);
      && buckets'.Keys == buckets.Keys + {key}
      && buckets'[key] == (if key in buckets then buckets[key] else []) + [t]
      && forall k :: k in buckets && k != key ==> buckets'[k] == buckets[k]
  {
  }

  lemma FileStepOrder(order: seq<string>, buckets: map<string, seq<CalendarTask>>, key: string,
                      order': seq<string>, buckets': map<string, seq<CalendarTask>>)
    requires forall k :: k in buckets <==> k in order
    requires forall a, b :: 0 <= a < b < |order| ==> order[a] != order[b]
    requires order' == (if key in buckets then order else order + [key])
    requires buckets'.Keys == buckets.Keys + {key}
    ensures forall k :: k in buckets' <==> k in order'
    ensures forall a, b :: 0 <= a < b < |order'| ==> order'[a] != order'[b]
  {
  }

  lemma FileStepBuckets(done: seq<CalendarTask>, t: CalendarTask, buckets: map<string, seq<CalendarTask>>,
                        buckets': map<string, seq<CalendarTask>>)
    requires forall k :: k in buckets ==> buckets[k] == BucketOf(done, k) && |buckets[k]| > 0
    requires GroupKey(t) !in buckets ==> BucketOf(done, GroupKey(t)) == []
    requires var key := GroupKey(t);
      && buckets'.Keys == buckets.Keys + {key}
      && buckets'[key] == (if key in buckets then buckets[key] else []) + [t]
      && forall k :: k in buckets && k != key ==> buckets'[k] == buckets[k]
    ensures forall k :: k in buckets' ==> buckets'[k] == BucketOf(done + [t], k) && |buckets'[k]| > 0
  {
    forall k | k in buckets' ensures buckets'[k] == BucketOf(done + [t], k) && |buckets'[k]| > 0 {
      var key := GroupKey(t);
      if k != key {
        FileOtherBucket(done, t, k, buckets[k], buckets'[k]);
      } else if key in buckets {
        FileOwnBucket(done, t, buckets[k], buckets'[k]);
      } else {
        FileOwnBucket(done, t, [], buckets'[k]);
      }
    }
  }

  lemma FileOtherBucket(done: seq<CalendarTask>, t: CalendarTask, k: string, b: seq<CalendarTask>, b': seq<CalendarTask>)
    requires GroupKey(t) != k && b == BucketOf(done, k) && |b| > 0 && b' == b
    ensures b' == BucketOf(done + [t], k) && |b'| > 0
  {
    BucketOfSnoc(done, t, k);
    assert b + [] == b;
  }

  lemma FileOwnBucket(done: seq<CalendarTask>, t: CalendarTask, b: seq<CalendarTask>, b': seq<CalendarTask>)
    requires b == BucketOf(done, GroupKey(t)) && b' == b + [t]
    ensures b' == BucketOf(done + [t], GroupKey(t)) && |b'| > 0
  {
    BucketOfSnoc(done, t, GroupKey(t));
  }

  /** One more task joins its own key's bucket and no other. */
  lemma BucketOfSnoc(done: seq<CalendarTask>, t: CalendarTask, k: string)
    ensures BucketOf(done + [t], k) == BucketOf(done, k) + (if GroupKey(t) == k then [t] else [])
  {
    assert (done + [t])[..|done|] == done;
  }

  lemma FileStepCover(done: seq<CalendarTask>, t: CalendarTask, buckets: map<string, seq<CalendarTask>>,
                      buckets': map<string, seq<CalendarTask>>)
    requires forall i :: 0 <= i < |done| ==> GroupKey(done[i]) in buckets
    requires buckets'.Keys == buckets.Keys + {GroupKey(t)}
    ensures forall i :: 0 <= i < |done + [t]| ==> GroupKey((done + [t])[i]) in buckets'
  {
  }

  /**
   * The `grouped` memo: the buckets, sorted by key with the undated one last.
   * Each bucket holds exactly the tasks with its key, in their order, and is
   * never empty; every task's key has a bucket.
   */
  method GroupTasks(tasks: seq<CalendarTask>) returns (groups: seq<Group>)
    ensures forall i :: 0 <= i < |groups| ==> groups[i].items == Filter(tasks, KeyIs(groups[i].key))
    ensures forall i :: 0 <= i < |groups| ==> groups[i].items != []
    ensures forall i :: 0 <= i < |tasks| ==> HasGroup(groups, GroupKey(tasks[i]))
    ensures StrictlySorted(groups)
  {
    var order, buckets := BucketTasks(tasks);
    var entries := Entries(order, buckets);
    groups := SortGroups(entries);
    forall i | 0 <= i < |groups|
      ensures groups[i].items == Filter(tasks, KeyIs(groups[i].key)) && groups[i].items != []
    {
      assert groups[i] in multiset(entries);
      BucketIsFilter(tasks, groups[i].key);
    }
    forall i | 0 <= i < |tasks| ensures HasGroup(groups, GroupKey(tasks[i])) {
      assert GroupKey(tasks[i]) in buckets;
      assert GroupKey(tasks[i]) in order;
      var k :| 0 <= k < |order| && order[k] == GroupKey(tasks[i]);
      assert entries[k] in multiset(groups);
      var j :| 0 <= j < |groups| && groups[j] == entries[k];
      assert groups[j].key == GroupKey(tasks[i]);
    }
  }

  /** Each task sits in exactly one bucket: the one with its own key. */
  lemma TaskInOneGroup(tasks: seq<CalendarTask>, groups: seq<Group>, i: nat)
    requires i < |tasks|
    requires forall g :: 0 <= g < |groups| ==> groups[g].items == Filter(tasks, KeyIs(groups[g].key))
    ensures forall g :: 0 <= g < |groups| ==> (tasks[i] in groups[g].items <==> groups[g].key == GroupKey(tasks[i]))
  {
  }

  /** The calendar's state: the loaded tasks and the loading flag. */
  class TasksCalendar {
    var tasks: seq<CalendarTask>
    var loading: bool

    constructor ()
      ensures tasks == [] && !loading
    {
      tasks, loading := [], false;
    }

    method FetchStarted()
      modifies this`loading
      ensures loading
    {
      loading := true;
    }

    /** The fetch's result: on an error (`None`) the tasks stay; otherwise they are the mapped rows. */
    method Fetched(data: Option<seq<TaskRow>>)
      modifies this`tasks, this`loading
      ensures !loading
      ensures data.None? ==> tasks == old(tasks)
      ensures data.Some? ==> tasks == RowsToTasks(data.value)
    {
      loading := false;
      if data.Some? {
        tasks := RowsToTasks(data.value);
      }
    }
  }
}

=== FILE: team_edit_user_dialog.dfy ===
/**
 * The team page's edit dialog: a form holding the user's role and one
 * checkbox per listed permission. Opening it for a user resets the form from
 * that user; submitting saves the role and the permissions whose value is
 * exactly `true`.
 *
 * The form library addresses a field by a dotted path: the field named
 * `permissions.funnels.create` lives at `permissions` -> `funnels` ->
 * `create`, not under the key `funnels.create` that the reset writes. The
 * `...AsWritten` members below model that addressing and show that a checkbox
 * change never reaches what is saved, and the dialog class writes through it
 * too. `Checked`, `Toggle` and `ToggleSaved` state the evidently intended
 * behaviour, where each checkbox reads and writes the key its reset wrote.
 */
module TeamEditUserDialog {
  import opened Wrappers
  import opened Text
  import opened JsValues

  /** The permission ids the dialog lists, one checkbox each. */
  const PermissionIds: seq<string> := ["funnels.create", "cards.move", "tasks.create", "settings.update"]

  /** The user handed to the dialog (an untyped row of the team table). */
  datatype TeamUser = TeamUser(id: string, role: JsValue, permissions: JsValue)

  /** What submitting asks the backend to write into the user's profile row. */
  datatype UpdateRequest = UpdateRequest(id: string, role: JsValue, permissions: map<string, bool>)

  // ---------------------------------------------------------------------------
  // reset

  /** `user.permissions?.[id] || false`. */
  function ResetValue(user: TeamUser, id: string): (v: JsValue)
    ensures v.Truthy() <==> user.permissions.Get(id).Truthy()
    ensures v == Bool(true) <==> user.permissions.Get(id) == Bool(true)
  {
    Or(user.permissions.Get(id), Bool(false))
  }

  /** The permission map of the reset form: exactly the listed ids. */
  function ResetPermissions(user: TeamUser): (m: map<string, JsValue>)
    ensures forall k :: k in m <==> k in PermissionIds
    ensures forall k :: k in m ==> m[k] == ResetValue(user, k)
  {
    map k | k in PermissionIds :: ResetValue(user, k)
  }

  /** The `reduce` that builds the reset permission map, one listed id at a time. */
  method BuildResetPermissions(user: TeamUser) returns (acc: map<string, JsValue>)
    ensures acc == ResetPermissions(user)
  {
    acc := map[];
    var i := 0;
    while i < |PermissionIds|
      invariant 0 <= i <= |PermissionIds|
      invariant forall k :: k in acc <==> k in PermissionIds[..i]
      invariant forall k :: k in acc ==> acc[k] == ResetValue(user, k)
    {
      var id := PermissionIds[i];
      assert PermissionIds[..i + 1] == PermissionIds[..i] + [id];
      acc := acc[id := ResetValue(user, id)];
      i := i + 1;
    }
    assert PermissionIds[..i] == PermissionIds;
  }

  // ---------------------------------------------------------------------------
  // save

  /** `permissionsToSave`: every key whose value is exactly `true`, mapped to `true`. */
  function SavedPermissions(m: map<string, JsValue>): (r: map<string, bool>)
    ensures forall k :: k in r <==> k in m && m[k] == Bool(true)
    ensures forall k :: k in r ==> r[k]
  {
    map k | k in m && m[k] == Bool(true) :: true
  }

  /**
   * The `filter` and `reduce` over `Object.entries(data.permissions)`;
   * `keys` lists the object's keys in their order.
   */
  method PermissionsToSave(m: map<string, JsValue>, keys: seq<string>) returns (obj: map<string, bool>)
    requires forall k :: k in m <==> k in keys
    ensures obj == SavedPermissions(m)
  {
    obj := map[];
    var i := 0;
    while i < |keys|
      invariant 0 <= i <= |keys|
      invariant forall k :: k in obj <==> k in keys[..i] && m[k] == Bool(true)
      invariant forall k :: k in obj ==> obj[k]
    {
      var key := keys[i];
      assert keys[..i + 1] == keys[..i] + [key];
      if m[key] == Bool(true) {
        obj := obj[key := true];
      }
      i := i + 1;
    }
    assert keys[..i] == keys;
  }

  /**
   * Re-saving a user unchanged keeps exactly the listed permissions the user
   * held with the value `true`; one held with another truthy value (`1`,
   * `"yes"`) is dropped.
   */
  lemma ResaveKeepsTrueOnly(user: TeamUser)
    ensures forall k :: k in SavedPermissions(ResetPermissions(user)) <==>
      k in PermissionIds && user.permissions.Get(k) == Bool(true)
  {
  }

  // ---------------------------------------------------------------------------
  // the checkboxes as the form library addresses them

  /** Reads the value at a path of keys, `undefined` once a step is missing or not an object. */
  function GetPath(v: JsValue, path: seq<string>): (r: JsValue)
    ensures path == [] ==> r == v
    ensures path != [] && !v.Obj? ==> r == Undefined
    decreases |path|
  {
    if path == [] then v else GetPath(v.Get(path[0]), path[1..])
  }

  /** Writes `v` at a path of keys, creating an empty object for each missing or non-object step. */
  function SetPath(m: map<string, JsValue>, path: seq<string>, v: JsValue): (r: map<string, JsValue>)
    requires path != []
    ensures r.Keys == m.Keys + {path[0]}
    ensures forall k :: k in m && k != path[0] ==> r[k] == m[k]
    decreases |path|
  {
    if |path| == 1 then m[path[0] := v]
    else
      var inner := if path[0] in m && m[path[0]].Obj? then m[path[0]].fields else map[];
      m[path[0] := Obj(SetPath(inner, path[1..], v))]
  }

  /** What is written is read back at the same path. */
  lemma {:induction false} GetSetPath(m: map<string, JsValue>, path: seq<string>, v: JsValue)
    requires path != []
    ensures GetPath(Obj(SetPath(m, path, v)), path) == v
    decreases |path|
  {
    if |path| > 1 {
      var inner := if path[0] in m && m[path[0]].Obj? then m[path[0]].fields else map[];
      GetSetPath(inner, path[1..], v);
    }
  }

  /** The checkbox for `id` as written: its field path is `id` split at the dots. */
  function CheckedAsWritten(m: map<string, JsValue>, id: string): (r: JsValue)
    ensures '.' !in id ==> r == Obj(m).Get(id)
  {
    GetPath(Obj(m), Split(id, '.'))
  }

  /** A checkbox change as written: the value goes to the nested path, not to the key `id`. */
  function ToggleAsWritten(m: map<string, JsValue>, id: string, checked: bool): (r: map<string, JsValue>)
    ensures CheckedAsWritten(r, id) == Bool(checked)
    ensures r.Keys == m.Keys + {Split(id, '.')[0]}
    ensures forall k :: k in m && k != Split(id, '.')[0] ==> r[k] == m[k]
  {
    GetSetPath(m, Split(id, '.'), Bool(checked));
    SetPath(m, Split(id, '.'), Bool(checked))
  }

  const Groups: seq<string> := ["funnels", "cards", "tasks", "settings"]
  const Actions: seq<string> := ["create", "move", "create", "update"]

  /** Two dot-free names joined by a dot split back into the two. */
  lemma DotPath(a: string, b: string)
    requires '.' !in a && '.' !in b
    ensures Split(a + "." + b, '.') == [a, b]
  {
    var parts := [a, b];
    assert parts[1..] == [b];
    assert Join(parts, '.') == a + "." + b;
    SplitJoin(parts, '.');
  }

  /** Each listed id is a group and an action joined by a dot; no group is itself a listed id. */
  lemma IdPath(i: nat)
    requires i < |PermissionIds|
    ensures Split(PermissionIds[i], '.') == [Groups[i], Actions[i]]
    ensures Groups[i] !in PermissionIds
  {
    assert PermissionIds[i] == Groups[i] + "." + Actions[i];
    assert forall j :: 0 <= j < |PermissionIds| ==> |PermissionIds[j]| > |Groups[i]|;
    DotPath(Groups[i], Actions[i]);
  }

  /** As written, a freshly reset checkbox shows blank even when the user holds the permission. */
  lemma ResetCheckboxBlankAsWritten(user: TeamUser, i: nat)
    requires i < |PermissionIds|
    ensures CheckedAsWritten(ResetPermissions(user), PermissionIds[i]) == Undefined
  {
    IdPath(i);
    var m := ResetPermissions(user);
    assert Groups[i] !in m;
    assert Obj(m).Get(Groups[i]) == Undefined;
  }

  /** As written, ticking or clearing a listed checkbox does not change what is saved. */
  lemma ToggleIgnoredAsWritten(user: TeamUser, i: nat, checked: bool)
    requires i < |PermissionIds|
    ensures SavedPermissions(ToggleAsWritten(ResetPermissions(user), PermissionIds[i], checked))
         == SavedPermissions(ResetPermissions(user))
  {
    IdPath(i);
    var m := ResetPermissions(user);
    var r := ToggleAsWritten(m, PermissionIds[i], checked);
    assert Groups[i] !in m;
    assert r[Groups[i]].Obj?;
    assert forall k :: k in r && r[k] == Bool(true) <==> k in m && m[k] == Bool(true);
  }

  /** In particular, a user without `funnels.create` is not granted it by ticking its checkbox. */
  lemma GrantLostAsWritten(user: TeamUser)
    requires user.permissions.Get("funnels.create") != Bool(true)
    ensures "funnels.create" !in SavedPermissions(ToggleAsWritten(ResetPermissions(user), "funnels.create", true))
  {
    ToggleIgnoredAsWritten(user, 0, true);
  }

  // ---------------------------------------------------------------------------
  // the checkboxes as intended: each reads and writes the key its reset wrote

  /** The checkbox for `id`: the value under the key `id`. */
  function Checked(m: map<string, JsValue>, id: string): (v: JsValue)
    ensures id in m ==> v == m[id]
    ensures id !in m ==> v == Undefined
  {
    Obj(m).Get(id)
  }

  /** A checkbox change: the key `id` takes the new value. */
  function Toggle(m: map<string, JsValue>, id: string, checked: bool): (r: map<string, JsValue>)
    ensures Checked(r, id) == Bool(checked)
    ensures r.Keys == m.Keys + {id}
    ensures forall k :: k in m && k != id ==> r[k] == m[k]
  {
    m[id := Bool(checked)]
  }

  /** A reset checkbox is ticked exactly when the user holds the permission. */
  lemma ResetCheckboxShowsHeld(user: TeamUser, id: string)
    requires id in PermissionIds
    ensures Checked(ResetPermissions(user), id).Truthy() <==> user.permissions.Get(id).Truthy()
  {
  }

  /** A ticked checkbox is saved, a cleared one is not, and the other permissions are saved as before. */
  lemma ToggleSaved(m: map<string, JsValue>, id: string, checked: bool)
    ensures id in SavedPermissions(Toggle(m, id, checked)) <==> checked
    ensures forall k :: k != id ==> (k in SavedPermissions(Toggle(m, id, checked)) <==> k in SavedPermissions(m))
  {
  }

  /** The dialog's state: the user it is open for and the form's values. */
  class TeamEditUserDialog {
    var user: Option<TeamUser>
    var role: JsValue
    var permissions: map<string, JsValue>
    /** The keys of `permissions` in the order the form object holds them. */
    var order: seq<string>

    ghost predicate Valid()
      reads this
    {
      forall k :: k in permissions <==> k in order
    }

    constructor ()
      ensures Valid() && user.None? && role == Undefined && permissions == map[] && order == []
    {
      user, role, permissions, order := None, Undefined, map[], [];
    }

    /** The effect on `user`: a user resets the form from its role and permissions; no user leaves it. */
    method UserChanged(u: Option<TeamUser>)
      requires Valid()
      modifies this`user, this`role, this`permissions, this`order
      ensures Valid() && user == u
      ensures u.Some? ==> role == u.value.role && permissions == ResetPermissions(u.value)
      ensures u.None? ==> role == old(role) && permissions == old(permissions) && order == old(order)
    {
      user := u;
      if u.Some? {
        role := u.value.role;
        permissions := BuildResetPermissions(u.value);
        order := PermissionIds;
      }
    }

    method RoleSelected(r: JsValue)
      modifies this`role
      ensures role == r
    {
      role := r;
    }

    /**
     * A checkbox change, written through the field path `permissions.<id>`:
     * the permissions become ToggleAsWritten of the old ones, and a new first
     * segment of the path joins the key order.
     */
    method CheckboxChange(id: string, checked: bool)
      requires Valid()
      modifies this`permissions, this`order
      ensures Valid() && permissions == ToggleAsWritten(old(permissions), id, checked)
      ensures Split(id, '.')[0] in old(permissions) ==> order == old(order)
      ensures Split(id, '.')[0] !in old(permissions) ==> order == old(order) + [Split(id, '.')[0]]
    {
      var head := Split(id, '.')[0];
      if head !in permissions {
        order := order + [head];
      }
      permissions := ToggleAsWritten(permissions, id, checked);
    }

    /** `onSubmit`: nothing without a user; otherwise the update of the user's role and saved permissions. */
    method Submit() returns (request: Option<UpdateRequest>)
      requires Valid()
      ensures user.None? ==> request.None?
      ensures user.Some? ==> request == Some(UpdateRequest(user.value.id, role, SavedPermissions(permissions)))
    {
      if user.None? {
        return None;
      }
      var saved := PermissionsToSave(permissions, order);
      request := Some(UpdateRequest(user.value.id, role, saved));
    }
  }
}

=== FILE: text.dfy ===
/**
 * The JavaScript string operations the CRM relies on: `trim`, `includes`,
 * `startsWith`, `toLowerCase`, `padStart`, decimal printing of integers and the
 * UTF-16 length that `String.prototype.length` reports.
 */
module Text {

  /** ECMAScript WhiteSpace and LineTerminator code points: what `trim()` strips. */
  predicate IsSpace(c: char) {
    || c == ' ' || c == '\t' || c == '\n' || c == '\r'
    || c == '\U{B}' || c == '\U{C}' || c == '\U{A0}' || c == '\U{FEFF}'
    || c == '\U{1680}' || ('\U{2000}' <= c <= '\U{200A}')
    || c == '\U{2028}' || c == '\U{2029}' || c == '\U{202F}' || c == '\U{205F}' || c == '\U{3000}'
  }

  predicate AllSpace(s: string) {
    forall i :: 0 <= i < |s| ==> IsSpace(s[i])
  }

  /** `s.trimStart()`: drops the leading white space and nothing else. */
  function TrimStart(s: string): (r: string)
    ensures |r| <= |s| && r == s[|s| - |r|..]
    ensures AllSpace(s[..|s| - |r|])
    ensures |r| > 0 ==> !IsSpace(r[0])
  {
    if s == [] || !IsSpace(s[0]) then s else TrimStart(s[1..])
  }

  /** `s.trimEnd()`: drops the trailing white space and nothing else. */
  function TrimEnd(s: string): (r: string)
    ensures |r| <= |s| && r == s[..|r|]
    ensures AllSpace(s[|r|..])
    ensures |r| > 0 ==> !IsSpace(r[|r| - 1])
  {
    if s == [] || !IsSpace(s[|s| - 1]) then s else TrimEnd(s[..|s| - 1])
  }

  /** Only a blank string loses everything to `trimStart`. */
  lemma TrimStartBlank(s: string)
    ensures |TrimStart(s)| == 0 <==> AllSpace(s)
  {
    var t := TrimStart(s);
    if |t| == 0 {
      assert s[..|s| - |t|] == s;
    } else {
      assert s[|s| - |t|] == t[0];
    }
  }

  /** Only a blank string loses everything to `trimEnd`. */
  lemma TrimEndBlank(s: string)
    ensures |TrimEnd(s)| == 0 <==> AllSpace(s)
  {
    var r := TrimEnd(s);
    if |r| == 0 {
      assert s[|r|..] == s;
    } else {
      assert s[|r| - 1] == r[|r| - 1];
    }
  }

  /** `s.trim()`. It is empty exactly when `s` is blank (white space only). */
  function Trim(s: string): (r: string)
    ensures |r| <= |s|
    ensures |r| == 0 <==> AllSpace(s)
    ensures |r| > 0 ==> !IsSpace(r[0]) && !IsSpace(r[|r| - 1])
  {
    TrimStartBlank(s);
    TrimEndBlank(TrimStart(s));
    TrimEnd(TrimStart(s))
  }

  /** Trimming twice is trimming once. */
  lemma {:induction false} TrimIdempotent(s: string)
    ensures Trim(Trim(s)) == Trim(s)
  {
    TrimKeeps(Trim(s));
  }

  /** Text with no white space at either end is its own trim. */
  lemma TrimKeeps(r: string)
    requires |r| > 0 ==> !IsSpace(r[0]) && !IsSpace(r[|r| - 1])
    ensures Trim(r) == r
  {
    TrimStartKeeps(r);
    TrimEndKeeps(r);
  }

  lemma TrimStartKeeps(r: string)
    requires |r| > 0 ==> !IsSpace(r[0])
    ensures TrimStart(r) == r
  {
  }

  lemma TrimEndKeeps(r: string)
    requires |r| > 0 ==> !IsSpace(r[|r| - 1])
    ensures TrimEnd(r) == r
  {
  }

  /** `s.startsWith(p)`. */
  predicate StartsWith(s: string, p: string) {
    |p| <= |s| && s[..|p|] == p
  }

  /** `s.includes(t)`: `t` occurs in `s` at some offset. */
  predicate Contains(s: string, t: string)
    decreases |s|
  {
    StartsWith(s, t) || (s != [] && Contains(s[1..], t))
  }

  /** Every string contains what is placed anywhere inside it. */
  lemma {:induction false} ContainsInfix(a: string, t: string, b: string)
    ensures Contains(a + t + b, t)
    decreases |a|
  {
    if a == [] {
      assert (a + t + b)[..|t|] == t;
    } else {
      assert (a + t + b)[1..] == a[1..] + t + b;
      ContainsInfix(a[1..], t, b);
    }
  }

  /** What `toLowerCase()` does to ASCII and Latin-1 capitals. */
  function LowerChar(c: char): (r: char)
    ensures ('A' <= c <= 'Z') ==> r as int == c as int + 32
    ensures !('A' <= c <= 'Z') && !('\U{C0}' <= c <= '\U{DE}') ==> r == c
  {
    if 'A' <= c <= 'Z' || ('\U{C0}' <= c <= '\U{DE}' && c != '\U{D7}') then (c as int + 32) as char else c
  }

  /** `s.toLowerCase()`, character by character. */
  function Lower(s: string): (r: string)
    ensures |r| == |s|
    ensures forall i :: 0 <= i < |s| ==> r[i] == LowerChar(s[i])
  {
    seq(|s|, i requires 0 <= i < |s| => LowerChar(s[i]))
  }

  /** Lower-casing keeps an occurrence: if `t` occurs in `s`, `Lower(t)` occurs in `Lower(s)`. */
  lemma {:induction false} LowerKeepsContains(s: string, t: string)
    requires Contains(s, t)
    ensures Contains(Lower(s), Lower(t))
    decreases |s|
  {
    if StartsWith(s, t) {
      assert Lower(s)[..|t|] == Lower(t);
    } else {
      assert Lower(s)[1..] == Lower(s[1..]);
      LowerKeepsContains(s[1..], t);
    }
  }

  // ---------------------------------------------------------------------------
  // Decimal digits

  predicate IsDigit(c: char) { '0' <= c <= '9' }

  predicate AllDigits(s: string) {
    forall i :: 0 <= i < |s| ==> IsDigit(s[i])
  }

  function DigitChar(d: nat): (c: char)
    requires d < 10
    ensures IsDigit(c) && c as int - '0' as int == d
  {
    ('0' as int + d) as char
  }

  function DigitValue(c: char): (d: nat)
    requires IsDigit(c)
    ensures d < 10 && DigitChar(d) == c
  {
    c as int - '0' as int
  }

  function Pow10(k: nat): (r: nat)
    ensures r >= 1
  {
    if k == 0 then 1 else 10 * Pow10(k - 1)
  }

  /** The decimal text of `n`, as JavaScript's `String(n)` writes a non-negative integer. */
  function NatToString(n: nat): (r: string)
    ensures |r| >= 1 && AllDigits(r)
    ensures |r| > 1 ==> r[0] != '0'
    decreases n
  {
    if n < 10 then [DigitChar(n)] else NatToString(n / 10) + [DigitChar(n % 10)]
  }

  /** `String(i)` for any integer. */
  function IntToString(i: int): string {
    if i < 0 then "-" + NatToString(-i) else NatToString(i)
  }

  /** An integer's text is a digit, or a sign, followed by digits only. */
  lemma IntToStringShape(i: int)
    ensures |IntToString(i)| >= 1
    ensures IntToString(i)[0] == '-' <==> i < 0
    ensures i >= 0 ==> IsDigit(IntToString(i)[0])
    ensures forall k :: 1 <= k < |IntToString(i)| ==> IsDigit(IntToString(i)[k])
  {
  }

  /** The value of a string of decimal digits (leading zeros allowed). */
  function DigitsValue(s: string): nat
    requires AllDigits(s)
  {
    if s == [] then 0 else 10 * DigitsValue(s[..|s| - 1]) + DigitValue(s[|s| - 1])
  }

  /** Reading back what `NatToString` printed gives the number. */
  lemma {:induction false} DigitsValueOfNatToString(n: nat)
    ensures DigitsValue(NatToString(n)) == n
    decreases n
  {
    var r := NatToString(n);
    if n >= 10 {
      assert r[..|r| - 1] == NatToString(n / 10);
      DigitsValueOfNatToString(n / 10);
    }
  }

  /** Distinct numbers print differently. */
  lemma NatToStringInjective(a: nat, b: nat)
    requires NatToString(a) == NatToString(b)
    ensures a == b
  {
    DigitsValueOfNatToString(a);
    DigitsValueOfNatToString(b);
  }

  /** Distinct integers, signed or not, print differently. */
  lemma IntToStringInjective(a: int, b: int)
    requires IntToString(a) == IntToString(b)
    ensures a == b
  {
    IntToStringShape(a);
    IntToStringShape(b);
    if a < 0 && b < 0 {
      assert NatToString(-a) == IntToString(a)[1..];
      assert NatToString(-b) == IntToString(b)[1..];
      NatToStringInjective(-a, -b);
    } else if a >= 0 && b >= 0 {
      NatToStringInjective(a, b);
    }
  }

  /** A number below `10^k` takes at most `k` digits (and always at least one). */
  lemma {:induction false} NatToStringLength(n: nat, k: nat)
    requires n < Pow10(k)
    ensures |NatToString(n)| <= if k == 0 then 1 else k
    decreases n
  {
    if n >= 10 {
      assert k != 0 && k != 1 by {
        assert Pow10(0) == 1 && Pow10(1) == 10;
      }
      NatToStringLength(n / 10, k - 1);
    }
  }

  /** `s.padStart(width, c)`. */
  function PadStart(s: string, width: nat, c: char): (r: string)
    ensures |s| >= width ==> r == s
    ensures |s| < width ==> |r| == width && r[width - |s|..] == s
    ensures forall i :: 0 <= i < |r| - |s| ==> r[i] == c
  {
    if |s| >= width then s else seq(width - |s|, _ => c) + s
  }

  /** Leading zeros do not change the value of a digit string. */
  lemma {:induction false} DigitsValueLeadingZeros(z: nat, s: string)
    requires AllDigits(s)
    ensures AllDigits(seq(z, _ => '0') + s)
    ensures DigitsValue(seq(z, _ => '0') + s) == DigitsValue(s)
    decreases |s|
  {
    var p := seq(z, _ => '0') + s;
    if s == [] {
      ZerosValue(z);
      assert p == seq(z, _ => '0');
    } else {
      assert p[..|p| - 1] == seq(z, _ => '0') + s[..|s| - 1];
      DigitsValueLeadingZeros(z, s[..|s| - 1]);
    }
  }

  lemma {:induction false} ZerosValue(z: nat)
    ensures AllDigits(seq(z, _ => '0')) && DigitsValue(seq(z, _ => '0')) == 0
  {
    if z > 0 {
      assert seq(z, _ => '0')[..z - 1] == seq(z - 1, _ => '0');
      ZerosValue(z - 1);
    }
  }

  // ---------------------------------------------------------------------------
  // Lexicographic order and UTF-16 length

  /**
   * Strict lexicographic order by code point, the order in which `localeCompare`
   * puts strings of ASCII digits and punctuation such as `YYYY-MM-DD` dates.
   */
  predicate StrLess(a: string, b: string)
    ensures StrLess(a, b) ==> a != b
    ensures |b| == 0 ==> !StrLess(a, b)
    decreases |a|
  {
    if a == [] then b != []
    else if b == [] then false
    else if a[0] != b[0] then a[0] < b[0]
    else StrLess(a[1..], b[1..])
  }

  lemma {:induction false} StrLessIrreflexive(a: string)
    ensures !StrLess(a, a)
    decreases |a|
  {
    if a != [] { StrLessIrreflexive(a[1..]); }
  }

  lemma {:induction false} StrLessTotal(a: string, b: string)
    requires a != b
    ensures StrLess(a, b) || StrLess(b, a)
    decreases |a|
  {
    if a != [] && b != [] && a[0] == b[0] {
      assert a == [a[0]] + a[1..] && b == [b[0]] + b[1..];
      StrLessTotal(a[1..], b[1..]);
    }
  }

  lemma {:induction false} StrLessAsymmetric(a: string, b: string)
    requires StrLess(a, b)
    ensures !StrLess(b, a)
    decreases |a|
  {
    if a != [] && b != [] && a[0] == b[0] { StrLessAsymmetric(a[1..], b[1..]); }
  }

  lemma {:induction false} StrLessTransitive(a: string, b: string, c: string)
    requires StrLess(a, b) && StrLess(b, c)
    ensures StrLess(a, c)
    decreases |a|
  {
    if a != [] && b != [] && c != [] && a[0] == b[0] && b[0] == c[0] {
      StrLessTransitive(a[1..], b[1..], c[1..]);
    }
  }

  /** JavaScript's `length`: characters outside the Basic Multilingual Plane count twice. */
  function Utf16Length(s: string): (n: nat)
    ensures |s| <= n <= 2 * |s|
  {
    if s == [] then 0 else Utf16Length(s[..|s| - 1]) + (if s[|s| - 1] as int >= 0x1_0000 then 2 else 1)
  }

  // ---------------------------------------------------------------------------
  // join and split

  /** `parts.join(sep)` for a one-character separator. */
  function Join(parts: seq<string>, sep: char): (r: string)
    ensures |parts| == 0 ==> r == []
    ensures |parts| > 0 ==> |r| >= |parts[0]| && r[..|parts[0]|] == parts[0]
    ensures |parts| > 1 ==> |r| > |parts[0]| && r[|parts[0]|] == sep
  {
    if parts == [] then ""
    else if |parts| == 1 then parts[0]
    else parts[0] + [sep] + Join(parts[1..], sep)
  }

  /** The position of the first `c` in `s`. */
  function FirstIndex(s: string, c: char): (i: nat)
    requires c in s
    ensures i < |s| && s[i] == c && c !in s[..i]
  {
    if s[0] == c then 0
    else
      var i := 1 + FirstIndex(s[1..], c);
      assert s[..i] == [s[0]] + s[1..][..i - 1];
      i
  }

  /** `s.split(sep)` for a one-character separator: always at least one piece. */
  function Split(s: string, sep: char): (r: seq<string>)
    ensures |r| >= 1
    decreases |s|
  {
    if sep !in s then [s]
    else
      var i := FirstIndex(s, sep);
      [s[..i]] + Split(s[i + 1..], sep)
  }

  lemma SlicesAroundSeparator(a: string, c: char, rest: string)
    ensures (a + [c] + rest)[..|a|] == a && (a + [c] + rest)[|a| + 1..] == rest
  {
  }

  /** The first separator in `a + [c] + rest` is the one after `a`, when `a` has none. */
  lemma FirstIndexAfter(a: string, c: char, rest: string)
    requires c !in a
    ensures c in a + [c] + rest && FirstIndex(a + [c] + rest, c) == |a|
  {
    var s := a + [c] + rest;
    assert s[|a|] == c;
    SlicesAroundSeparator(a, c, rest);
  }

  /** A piece without the separator, the separator and the rest split as the piece followed by the rest's pieces. */
  lemma SplitAfterPiece(a: string, sep: char, rest: string)
    requires sep !in a
    ensures Split(a + [sep] + rest, sep) == [a] + Split(rest, sep)
  {
    FirstIndexAfter(a, sep, rest);
    SlicesAroundSeparator(a, sep, rest);
  }

  /** Splitting what was joined gives the pieces back, provided no piece holds the separator. */
  lemma {:induction false} SplitJoin(parts: seq<string>, sep: char)
    requires |parts| > 0
    requires forall i :: 0 <= i < |parts| ==> sep !in parts[i]
    ensures Split(Join(parts, sep), sep) == parts
    decreases |parts|
  {
    if |parts| > 1 {
      SplitAfterPiece(parts[0], sep, Join(parts[1..], sep));
      SplitJoin(parts[1..], sep);
      assert parts == [parts[0]] + parts[1..];
    }
  }

  /** A character that is neither the separator nor in any piece is not in the joined text. */
  lemma {:induction false} JoinAvoids(parts: seq<string>, sep: char, x: char)
    requires x != sep && forall i :: 0 <= i < |parts| ==> x !in parts[i]
    ensures x !in Join(parts, sep)
    decreases |parts|
  {
    if |parts| > 1 {
      JoinAvoids(parts[1..], sep, x);
    }
  }
}

=== FILE: users_edit_user_dialog.dfy ===
/**
 * The users page's edit dialog: a working copy of the user whose role and
 * granular permissions are edited before being handed back for saving.
 * Leaving the gestor role clears the permissions.
 */
module UsersEditUserDialog {
  import opened Wrappers
  import opened JsValues
  import opened Permissions

  /** A row of the users page: the profile's id, names, role and permission switches. */
  datatype UserProfile = UserProfile(
    id: string, firstName: Option<string>, lastName: Option<string>,
    role: Role, permissions: map<string, bool>)

  /** The keys the dialog offers a switch for. */
  const AvailablePermissions: seq<string> :=
    ["view_users", "edit_users", "create_funnels", "edit_funnels", "delete_funnels", "manage_stages", "manage_goals"]

  /** `handleRoleChange`: only a gestor keeps granular permissions. */
  function WithRole(u: UserProfile, role: Role): (r: UserProfile)
    ensures r.id == u.id && r.firstName == u.firstName && r.lastName == u.lastName && r.role == role
    ensures role == Gestor ==> r.permissions == u.permissions
    ensures role != Gestor ==> r.permissions == map[]
  {
    u.(role := role, permissions := if role == Gestor then u.permissions else map[])
  }

  /** `handlePermissionChange`: one key set, every other key as it was. */
  function WithPermission(u: UserProfile, key: string, value: bool): (r: UserProfile)
    ensures r.id == u.id && r.firstName == u.firstName && r.lastName == u.lastName && r.role == u.role
    ensures key in r.permissions && r.permissions[key] == value
    ensures r.permissions.Keys == u.permissions.Keys + {key}
    ensures forall k :: k in u.permissions && k != key ==> r.permissions[k] == u.permissions[k]
  {
    u.(permissions := u.permissions[key := value])
  }

  /** A switch is on when its key is present and true (`!!permissions[key]`). */
  predicate SwitchOn(u: UserProfile, key: string) {
    key in u.permissions && u.permissions[key]
  }

  /** The profile the permission checks see once the edited user is saved. */
  function AsProfile(u: UserProfile): (p: Profile)
    ensures p.id == u.id && p.role == u.role && p.permissions.Some?
    ensures forall k :: k in p.permissions.value <==> k in u.permissions
    ensures forall k :: k in u.permissions ==> p.permissions.value[k] == Bool(u.permissions[k])
  {
    Profile(u.id, u.role, Some(map k | k in u.permissions :: Bool(u.permissions[k])))
  }

  /** A saved switch is exactly the permission the checks grant to a non-admin. */
  lemma SwitchIsPermission(u: UserProfile, key: string)
    requires u.role != Admin
    ensures HasPermission(Some(AsProfile(u)), key) <==> SwitchOn(u, key)
  {
  }

  /** A user moved to the plain-user role keeps no permission at all. */
  lemma DemotedHoldsNothing(u: UserProfile, key: string)
    ensures !HasPermission(Some(AsProfile(WithRole(u, User))), key)
  {
  }

  /** Leaving the gestor role and coming back does not bring the old permissions back. */
  lemma RoleRoundTripForgets(u: UserProfile, other: Role)
    requires other != Gestor
    ensures WithRole(WithRole(u, other), Gestor).permissions == map[]
    ensures forall k :: !SwitchOn(WithRole(WithRole(u, other), Gestor), k)
  {
  }

  /** Turning a switch on and then off again leaves it off, and the others as they were. */
  lemma SwitchOnOff(u: UserProfile, key: string, other: string)
    requires other != key
    ensures !SwitchOn(WithPermission(WithPermission(u, key, true), key, false), key)
    ensures SwitchOn(WithPermission(WithPermission(u, key, true), key, false), other) == SwitchOn(u, other)
  {
  }

  /** Switching a permission on while a gestor grants it once saved. */
  lemma GestorSwitchGrants(u: UserProfile, key: string)
    requires u.role == Gestor
    ensures HasPermission(Some(AsProfile(WithPermission(u, key, true))), key)
    ensures !HasPermission(Some(AsProfile(WithPermission(u, key, false))), key)
  {
  }

  /** The dialog's state: the user it was opened for and the working copy. */
  class EditUserDialog {
    var user: UserProfile
    var editedUser: UserProfile

    constructor (user: UserProfile)
      ensures this.user == user && editedUser == user
    {
      this.user := user;
      editedUser := user;
    }

    /** The effect on `user`: a new incoming user replaces the working copy. */
    method UserChanged(u: UserProfile)
      modifies this`user, this`editedUser
      ensures user == u && editedUser == u
    {
      user := u;
      editedUser := u;
    }

    method RoleChange(role: Role)
      modifies this`editedUser
      ensures editedUser == WithRole(old(editedUser), role)
    {
      editedUser := WithRole(editedUser, role);
    }

    method PermissionChange(key: string, value: bool)
      modifies this`editedUser
      ensures editedUser == WithPermission(old(editedUser), key, value)
    {
      editedUser := WithPermission(editedUser, key, value);
    }

    /** `handleSaveChanges`: the working copy is handed over as it stands. */
    method Save() returns (saved: UserProfile)
      ensures saved == editedUser
    {
      saved := editedUser;
    }
  }
}

=== FILE: wrappers.dfy ===
/** Optional values, standing for JavaScript's `undefined`/`null` alternatives. */
module Wrappers {

  datatype Option<+T> = None | Some(value: T) {

    /** The value, or `default` when absent (JavaScript's `x ?? default`). */
    function GetOr(default: T): T {
      match this
      case Some(v) => v
      case None => default
    }
  }
}
